=== FILE: README.md ===
# Document routing: a Dafny model

This project models the core of a document-routing web application. Users
compose documents and address them to other users. Each recipient moves
the document through the statuses Pending, Received, Archived and Ended.
Documents can be forwarded, recipients removed, and replies exchanged on a
document. Every change is written to an audit log (`document_tracking`).
A small calendar lets users create events, invite attendees and list their
upcoming events.

The server is an Express application over a MySQL database. It is modelled
as one relational `State`: the tables `users`, `documents`, `recipients`,
`document_tracking` and `replies` as sequences of rows in storage order,
plus the auto-increment counters. Every route handler is a pure function
from a state, an environment and a request to a new state and a response
carrying the HTTP status. The environment holds the current time, whether
the best-effort audit insert succeeds, and the fresh reply code the uuid
generator would produce. The calendar has its own store (`users`, `events`,
`event_attendees`). The React pages are modelled as pure functions over the
lists they receive: filtering, counting, paging, the recipient picker, the
form serialisation, the role shortcuts of the event dialog.

Modules, one per file:

- `Common` (common.dfy): sequence filtering and subsequences, a descending
  sort, substring search, JavaScript strict equality.
- `Schema` (schema.dfy): rows, state, responses, the lookups the handlers
  share, and the store invariants.
- `Tracking` (tracking.dfy): `logDocumentAction` and the history route.
- `DocumentRoutes` (document_routes.dfy): filename sanitiser, submit,
  status update, forward, delete recipient.
- `Listings` (listings.dfy): the incoming and sent document listings.
- `ReplyRoutes` (reply_routes.dfy): posting replies, mark-seen, the two
  unseen counters, the three reply projections.
- `Server` (server.dfy): one dispatcher over all requests, and the
  invariants that hold over any run of requests.
- `FetchReplies` (fetch_replies.dfy): the `useFetchReplies` hook.
- `DocumentList` (client_documents.dfy): the document rows the pages receive.
- `Incoming` (incoming.dfy): the inbox page.
- `Archive` (archive.dfy): the archive page.
- `FullForm` (full_form.dfy): the compose form.
- `EventRoutes` (event_routes.dfy): POST and GET `/events`.
- `EventPlanner` (event_planner.dfy): the event dialog.

The model follows the code as written. Two behaviours of the code are
easy to miss:

- Submission is not atomic. The code inserts the document before it looks
  up the recipients. An unknown recipient then answers 400, but the
  document and the rows of the recipients already resolved stay stored.
  The creation event is also logged when exactly one recipient is unknown;
  with two or more, the second answer throws and the event is skipped. A
  recipient field that is not an array answers 500 and leaves the
  document stored. `DocumentRoutes.Submit` states all three outcomes.
- The history query has no `ORDER BY`. `Tracking.History` returns the
  rows in storage order, and its contract speaks about the content of the
  result only.

A database `affectedRows` is read as the number of rows MATCHED, which is
what the MySQL driver reports by default. The rule that mark-seen answers
404 when nothing matched depends on this reading.

## Model

| member | source | states |
|---|---|---|
| Schema.ParseStatus | backend/src/routes/DocumentRoutes.js:183-194 | The status validator accepts exactly the four status names and maps each to its status; any other text is rejected |
| Schema.StatusNameRoundTrip | backend/src/routes/DocumentRoutes.js:183-185 | Every status survives being written as its name and validated again |
| Schema.UserByEmail | backend/src/routes/DocumentRoutes.js:87-91 | A user lookup by email returns a stored user with that email, or reports that no stored user has it |
| Tracking.LogAction | backend/src/routes/DocumentRoutes.js:45-54 | Logging appends exactly one event with the next tracking id, the code, the user, the action and the time; a failed insert leaves the store unchanged and is not reported; no other table changes |
| Tracking.History | backend/src/routes/DocumentRoutes.js:519-554 | 404 exactly when no logged event has the code; otherwise 200 with the views of exactly the events carrying that code, every one of them and nothing else |
| Tracking.ViewsOfEvents | backend/src/routes/DocumentRoutes.js:524-534 | The history query's rows are views of log rows with the code, and every log row with the code appears among them |
| Tracking.LoggedActionAppearsInHistory | backend/src/routes/DocumentRoutes.js:519-554 | An action logged while the audit insert works appears in the document's history afterwards with its id, action and time; it is the last entry in storage order, the order a scan of the auto-increment primary key gives, since the query has no ORDER BY |
| DocumentRoutes.SanitizeFileName | backend/src/routes/DocumentRoutes.js:28 | The stored filename has the length of the upload's name, keeps every letter, digit, dot and hyphen in place, and has an underscore wherever the original had any other character |
| DocumentRoutes.SanitizeIdempotent | backend/src/routes/DocumentRoutes.js:28 | Sanitising an already sanitised name changes nothing |
| DocumentRoutes.SanitizeKeepsSafeNames | backend/src/routes/DocumentRoutes.js:28 | A name made only of kept characters is stored unchanged |
| DocumentRoutes.FirstWord | backend/src/routes/DocumentRoutes.js:97 | The first name of a new sender is the part of the display name before its first space |
| DocumentRoutes.SecondWord | backend/src/routes/DocumentRoutes.js:98 | The last name of a new sender contains no space and is empty when the display name has no space |
| DocumentRoutes.SplitFullName | backend/src/routes/DocumentRoutes.js:97-98 | Splitting a "first last" display name built from two space-free names gives back exactly those two names |
| DocumentRoutes.RoleOrDefault | backend/src/routes/DocumentRoutes.js:102 | A new sender's role is the role sent when it is non-empty, and never empty |
| DocumentRoutes.ResolveSender | backend/src/routes/DocumentRoutes.js:86-108 | A known sender email yields that user's id and changes nothing; an unknown one appends exactly one user row built from the profile, with the next user id; afterwards the email resolves to the returned id |
| DocumentRoutes.UserByEmailAppend | backend/src/routes/DocumentRoutes.js:86-108 | After a user row is appended, an email lookup still finds the old match first and finds the new row only for a previously unknown email |
| DocumentRoutes.ResolveRecipients | backend/src/routes/DocumentRoutes.js:138-159 | Every addressee is resolved: the known ones give a Pending row for the document, in list order, and the unknown emails are reported; no email is unknown exactly when every addressee is a stored user |
| DocumentRoutes.Submit | backend/src/routes/DocumentRoutes.js:57-173 | Bad sender or recipient JSON gives 400 and writes nothing; a duplicate code gives 400 and adds no document, recipient or log row; 201 exactly when everything parses, the code is new and every addressee is known, and then one document with the code, one Pending row per addressee in order and one "Document Created" event are added and the code is returned; a non-array recipient field gives 500 with the document added and no recipient or log row; an unknown addressee gives 400 naming the first unknown email, with the document and the known addressees' Pending rows added and the creation event logged exactly when one email is unknown; replies are untouched and every other table is only appended to |
| DocumentRoutes.StoreDocument | backend/src/routes/DocumentRoutes.js:121-164 | Once the code is known to be new: the document is always added; then 500 for a non-array recipient field, otherwise the Pending rows of the known addressees, 201 when none is unknown and 400 naming the first unknown one, and the creation event when at most one is unknown |
| DocumentRoutes.SetStatus | backend/src/routes/DocumentRoutes.js:198-204 | The rows the joined update matches take the new status and keep their code and user; every other row is unchanged |
| DocumentRoutes.NoMatchWhenFilterEmpty | backend/src/routes/DocumentRoutes.js:198-221 | The update reports zero matched rows exactly when no row belongs to the code and the email |
| DocumentRoutes.UpdateStatus | backend/src/routes/DocumentRoutes.js:177-233 | An invalid email or status gives 400 with no change; an unknown email gives 500 with no change; otherwise only the matching rows change status, one event is logged whether or not anything matched, and the answer is 404 exactly when no row matched and 200 otherwise; users, documents and replies never change |
| DocumentRoutes.Forward | backend/src/routes/DocumentRoutes.js:460-516 | An absent document or user gives 404 and an existing (code, user) row gives 400, both with no change; otherwise 201, and exactly one Pending row and one "forwarded" event are appended, leaving existing rows untouched |
| DocumentRoutes.ForwardKeepsPairsUnique | backend/src/routes/DocumentRoutes.js:486-501 | If no (code, user) pair had two recipient rows before a forward, none has two after it |
| DocumentRoutes.WithoutPair | backend/src/routes/DocumentRoutes.js:434-437 | The rows kept by the delete are, in order, exactly those not belonging to the (code, user) pair, and the table shrinks exactly when such a row existed |
| DocumentRoutes.FilterFullIffAll | backend/src/routes/DocumentRoutes.js:439-441 | A delete removes no row exactly when no row matches its condition |
| DocumentRoutes.DeleteRecipient | backend/src/routes/DocumentRoutes.js:418-456 | 200 exactly when the email belongs to one user and a row pairs that user with the code; 404 exactly when the email is unknown or no row of the pair exists; 500 whenever two users share the email; on 200 only that pair's rows are removed and a removal event is logged; the document is never deleted and nothing changes on failure |
| Listings.RecipientsOf | backend/src/routes/DocumentRoutes.js:290-301 | A document's recipient list holds exactly the views of the recipient rows with its code whose user exists, and is empty when the document has no recipient rows |
| Listings.Attach | backend/src/routes/DocumentRoutes.js:303-307 | Each listed row gets exactly its own document's recipient list, and the rows are kept as they are |
| Listings.Ordered | backend/src/routes/DocumentRoutes.js:241-264 | The listing is ordered newest document first, is a permutation of the query rows, and each entry carries its document's recipients |
| Listings.IncomingRowsOf | backend/src/routes/DocumentRoutes.js:257-261 | For one document, the incoming query gives exactly the rows pairing it with a recipient row of a user with the email |
| Listings.IncomingRows | backend/src/routes/DocumentRoutes.js:241-264 | Over all documents, the incoming query gives exactly the rows pairing a document with a recipient row addressed to the email |
| Listings.Incoming | backend/src/routes/DocumentRoutes.js:236-319 | Always 200; the documents come newest first, each with its recipient list |
| Listings.IncomingListsExactlyAddressedDocuments | backend/src/routes/DocumentRoutes.js:236-319 | A row is listed in the inbox exactly when its document has a recipient row addressed to the email |
| Listings.SentRows | backend/src/routes/DocumentRoutes.js:340-359 | The sent query gives exactly the stored documents whose sender is the given user and whose sender row exists |
| Listings.Sent | backend/src/routes/DocumentRoutes.js:322-415 | 404 exactly when the sender email is unknown; otherwise 200 with that sender's documents newest first, each with its recipient list |
| ReplyRoutes.SubmitReply | backend/src/routes/ReplyRoutes.js:49-129 | A non-integer id or an empty text gives 400 and an unknown document 404, neither writing anything; 201 exactly when the form is valid and the document and author exist, and then one unseen reply with the given fields and the next reply id is appended, one reply event is logged against the document's code, and the id is returned |
| ReplyRoutes.MarkAll | backend/src/routes/ReplyRoutes.js:258-261 | Exactly the replies on the document written by someone other than the viewer become seen; every other reply is unchanged |
| ReplyRoutes.MarkSeen | backend/src/routes/ReplyRoutes.js:240-277 | A missing document id gives 400 with no change; otherwise the matching replies become seen and the answer is 404 exactly when none matched; no reply ever goes from seen to unseen |
| ReplyRoutes.MarkSeenIdempotent | backend/src/routes/ReplyRoutes.js:258-261 | Marking seen a second time leaves the store as the first time left it |
| ReplyRoutes.CountNotSeen | backend/src/routes/ReplyRoutes.js:280-308 | Always 200 with the number of unseen replies whose receiver is the id, which never exceeds the number of unseen replies |
| ReplyRoutes.CountNotSeenForUser | backend/src/routes/ReplyRoutes.js:311-339 | Always 200 with the number of unseen replies whose receiver is not the id, which never exceeds the number of unseen replies |
| ReplyRoutes.CountersStep | backend/src/routes/ReplyRoutes.js:290-295 | With no replies both counters are 0; one more stored reply adds one to the receiver-is-the-id counter exactly when it is unseen and addressed to the id, and one to the other counter exactly when it is unseen and addressed to someone else |
| ReplyRoutes.UnseenPartition | backend/src/routes/ReplyRoutes.js:290-295 | For any id, the unseen replies addressed to it and those not addressed to it together are all unseen replies |
| ReplyRoutes.CountersSumToUnseen | backend/src/routes/ReplyRoutes.js:321-326 | The two counters for the same id add up to the total number of unseen replies |
| ReplyRoutes.ReplyThenSeenCount | backend/src/routes/ReplyRoutes.js:96-108 | A new reply raises its receiver's unseen count by one, and the receiver marking the document seen brings that count back to at most what it was before the reply |
| ReplyRoutes.Project | backend/src/routes/ReplyRoutes.js:163-201 | A projection answers 404 exactly when no joined reply satisfies its condition; otherwise 200 with the annotations of exactly those replies |
| ReplyRoutes.AllReplies | backend/src/routes/ReplyRoutes.js:132-160 | 404 exactly when no reply joins with its document and both users; otherwise 200 with exactly the joined replies, each annotated with its document and both usernames |
| ReplyRoutes.RepliesToReceiver | backend/src/routes/ReplyRoutes.js:163-201 | 404 exactly when no joined reply is addressed to the receiver; otherwise 200 with exactly those replies, each annotated with its document and both usernames |
| ReplyRoutes.RepliesOnDocument | backend/src/routes/ReplyRoutes.js:204-238 | 404 exactly when no joined reply is on the document; otherwise 200 with exactly those replies, each annotated with its document and both usernames |
| Server.Handle | backend/src/index.js:52-54 | Whichever router serves it, a read request (listings, history, replies, counters) leaves the store unchanged |
| Server.HandleAppendsAtMostOneEvent | backend/src/routes/DocumentRoutes.js:45-54 | Any request keeps the existing log rows and adds at most one |
| Server.SuccessfulMutationLogsOnce | backend/src/routes/DocumentRoutes.js:161-166 | With a working audit insert, a successful submit, status update, forward, delete or reply adds exactly one log row |
| Server.MarkSeenLogsNothing | backend/src/routes/ReplyRoutes.js:240-277 | Marking replies seen never writes to the log |
| Server.HandleKeepsSeen | backend/src/routes/ReplyRoutes.js:258-261 | No request removes a reply or turns a seen reply back to unseen |
| Server.HandleKeepsRowsHaveDocuments | backend/src/routes/DocumentRoutes.js:121-159 | If every recipient row names a stored document, that stays true after any request |
| Server.SubmitKeepsRowsHaveDocuments | backend/src/routes/DocumentRoutes.js:121-159 | Submitting, even when it fails midway, only adds recipient rows for a document it stored |
| Server.UpdateKeepsRowsHaveDocuments | backend/src/routes/DocumentRoutes.js:198-204 | A status update keeps every recipient row attached to a stored document |
| Server.ForwardKeepsRowsHaveDocuments | backend/src/routes/DocumentRoutes.js:465-509 | A forward adds a row only for a stored document |
| Server.DeleteKeepsRowsHaveDocuments | backend/src/routes/DocumentRoutes.js:425-448 | Deleting a recipient keeps every remaining row attached to a stored document |
| Server.SubmitAuditFailureInvisible | backend/src/routes/DocumentRoutes.js:45-54 | A failed audit insert during submit changes neither the answer nor anything but the log row |
| Server.UpdateAuditFailureInvisible | backend/src/routes/DocumentRoutes.js:45-54 | A failed audit insert during a status update changes neither the answer nor anything but the log row |
| Server.ForwardAuditFailureInvisible | backend/src/routes/DocumentRoutes.js:45-54 | A failed audit insert during a forward changes neither the answer nor anything but the log row |
| Server.DeleteAuditFailureInvisible | backend/src/routes/DocumentRoutes.js:45-54 | A failed audit insert during a delete changes neither the answer nor anything but the log row |
| Server.ReplyAuditFailureInvisible | backend/src/routes/ReplyRoutes.js:110-120 | A failed audit insert while posting a reply changes neither the answer nor anything but the log row |
| Server.AuditFailureInvisible | backend/src/routes/DocumentRoutes.js:45-54 | For every request, a failed audit insert is invisible to the client and to every table but the log |
| Server.RunPreservesHistory | backend/src/routes/DocumentRoutes.js:45-54 | Over any sequence of requests the log only grows, by at most one row per request, and no seen reply becomes unseen |
| Server.RunKeepsRowsHaveDocuments | backend/src/routes/DocumentRoutes.js:121-159 | Over any sequence of requests every recipient row keeps naming a stored document |
| FetchReplies.WireOf | backend/src/routes/ReplyRoutes.js:204-238 | The JSON flag `seen` is 0 exactly when the stored reply is unseen |
| FetchReplies.KeepInvolved | frontend/src/hooks/useFetchReplies.jsx:25-29 | The kept replies are, in server order, exactly those the user received or wrote |
| FetchReplies.FormatAll | frontend/src/hooks/useFetchReplies.jsx:31-38 | Formatting maps the replies one to one and changes only the two dates |
| FetchReplies.FetchReplies | frontend/src/hooks/useFetchReplies.jsx:19-49 | A failed request empties the replies and keeps the counts; a non-array body changes nothing; rows replace the replies by the formatted kept ones and set the document's count; no other document's count changes |
| FetchReplies.UnseenSurvivesFormatting | frontend/src/hooks/useFetchReplies.jsx:40-42 | Formatting does not change how many replies are unseen |
| FetchReplies.FetchCountsInvolvedUnseen | frontend/src/hooks/useFetchReplies.jsx:40-45 | The count recorded for the document is the number of replies the user received or wrote whose flag is 0 |
| FetchReplies.UnseenMatchesServerFlag | frontend/src/hooks/useFetchReplies.jsx:40-42 | Fed the server's replies, the hook counts exactly the involved replies the database holds as unseen |
| DocumentList.ItemOf | backend/src/routes/DocumentRoutes.js:242-256 | The page's item keeps the document's id and code, and its status is present exactly when the row's is |
| DocumentList.ItemsOf | backend/src/routes/DocumentRoutes.js:303-307 | The page receives one item per listed document, in order |
| Incoming.CountsOf | frontend/src/pages/user/Incoming/Incoming.jsx:71-83 | `all` is the list length, `pending` and `received` count the Pending and Received items, so `pending + received <= all` |
| Incoming.Load | frontend/src/pages/user/Incoming/Incoming.jsx:71-83 | After a fetch, both lists are the fetched rows and the counters describe them |
| Incoming.FilterByTab | frontend/src/pages/user/Incoming/Incoming.jsx:98-122 | The display is a subsequence of the documents holding exactly those that pass the tab (1 Pending, 2 Received, else all) and whose code contains a non-empty query |
| Incoming.EmptyQueryAddsNoFiltering | frontend/src/pages/user/Incoming/Incoming.jsx:116-118 | An empty query filters by tab only, and the "all" tab with an empty query shows every document |
| Incoming.ChangeFilter | frontend/src/pages/user/Incoming/Incoming.jsx:120-121 | Any filter change shows the refiltered list, resets the page to 1 and leaves the documents and counters alone |
| Incoming.PageOf | frontend/src/pages/user/Incoming/Incoming.jsx:285-289 | A page shows at most 10 items, exactly the items from position `(page-1)*10` on |
| Incoming.ItemOnItsPage | frontend/src/pages/user/Incoming/Incoming.jsx:285-289 | The i-th filtered document is shown on page i/10 + 1 at row i%10 |
| Incoming.MarkReceived | frontend/src/pages/user/Incoming/Incoming.jsx:176-182 | The rows the test selects read Received and the others are unchanged |
| Incoming.Shift | frontend/src/pages/user/Incoming/Incoming.jsx:184-188 | The optimistic counters move one from pending to received and keep their sum |
| Incoming.ViewAsWritten | frontend/src/pages/user/Incoming/Incoming.jsx:160-205 | An update is sent exactly when the viewed document is Pending; on success the list rows matched by id-against-code become Received and the counters shift |
| Incoming.ViewAsWrittenDriftsCounts | frontend/src/pages/user/Incoming/Incoming.jsx:176-182 | As written, viewing a Pending document of a consistent inbox leaves the counters no longer describing the list |
| Incoming.View | frontend/src/pages/user/Incoming/Incoming.jsx:160-205 | An update is sent exactly when the viewed document is Pending; on success the rows with the viewed code become Received and the counters shift |
| Incoming.ViewKeepsCountsConsistent | frontend/src/pages/user/Incoming/Incoming.jsx:165-188 | Matching by code, viewing a Pending document of a consistent inbox with unique codes keeps the counters describing the list |
| Incoming.MarkOneCounts | frontend/src/pages/user/Incoming/Incoming.jsx:176-182 | Marking the one row of a Pending document Received moves one item from the Pending count to the Received count |
| Archive.ArchivedOf | frontend/src/pages/user/Archive/Archive.jsx:44-46 | The archive holds, in order, exactly the fetched documents whose status is Archived |
| Archive.FilterDocuments | frontend/src/pages/user/Archive/Archive.jsx:84-117 | The shown list is a subsequence of the archive holding exactly the documents the tab and sub-tab select; tab 0 shows the whole archive |
| Archive.ShownAreArchived | frontend/src/pages/user/Archive/Archive.jsx:84-117 | Whatever the tabs, only archived documents are shown, and each comes from the fetched list |
| Archive.TabChange | frontend/src/pages/user/Archive/Archive.jsx:75-78 | A new tab starts at sub-tab 0, which selects Precedence on the priority tab and Confidential on the classification tab |
| FullForm.AddresseesOf | frontend/src/pages/user/Compose/Forms/FullForm.jsx:184-191 | Every profile becomes one addressee with its email, in order |
| FullForm.Picks | frontend/src/pages/user/Compose/Forms/FullForm.jsx:193-203 | Without the select-all option, the picked profiles are the chosen options in order |
| FullForm.HandleSelectAllChange | frontend/src/pages/user/Compose/Forms/FullForm.jsx:178-205 | Select-all while on clears the recipients and turns the flag off; while off it addresses every profile and turns it on; any other choice addresses the chosen profiles in order and turns the flag off |
| FullForm.SelectAllTwiceClears | frontend/src/pages/user/Compose/Forms/FullForm.jsx:178-191 | Choosing select-all twice from the cleared state clears the recipients again |
| FullForm.ExcludeSelf | frontend/src/pages/user/Compose/Forms/FullForm.jsx:154-157 | The selectable profiles are, in order, exactly the users whose email is not the signed-in user's |
| FullForm.SelectAllNeverAddressesSelf | frontend/src/pages/user/Compose/Forms/FullForm.jsx:184-191 | Select-all addresses every other user and never the signed-in user |
| FullForm.Serialize | frontend/src/pages/user/Compose/Forms/FullForm.jsx:85-96 | The body holds one part per form field in key order, sender and recipient as JSON and the rest raw, then the file when there is one |
| FullForm.LookupFirst | frontend/src/pages/user/Compose/Forms/FullForm.jsx:85-96 | A multipart lookup finds the first part under a key |
| FullForm.LookupSerialized | frontend/src/pages/user/Compose/Forms/FullForm.jsx:85-96 | Each field appears once in the body, holding what the form appended for it |
| FullForm.SerializeRoundTrip | frontend/src/pages/user/Compose/Forms/FullForm.jsx:85-96 | Reading the body back gives exactly the form's values and file |
| FullForm.InitialValuesPostDefaults | frontend/src/pages/user/Compose/Forms/FullForm.jsx:71-81 | An untouched form posts Precedence, Confidential and an empty recipient list |
| EventRoutes.DecimalValue | backend/src/routes/EventRoutes.js:133 | A query-string id denotes a number exactly when it is decimal text, and that number is not negative |
| EventRoutes.DecimalExamples | backend/src/routes/EventRoutes.js:133 | "42" denotes 42; the empty text and "4a" denote no number |
| EventRoutes.DecimalText | backend/src/routes/EventRoutes.js:86 | The id a client writes into the query string is decimal text, with a leading zero only for 0 |
| EventRoutes.DecimalTextRoundTrip | backend/src/routes/EventRoutes.js:86 | The text written for a user id denotes exactly that id |
| EventRoutes.ColumnInt | backend/src/routes/EventRoutes.js:39-45 | The INT column keeps a number as it is and refuses null |
| EventRoutes.AttendanceRows | backend/src/routes/EventRoutes.js:56-60 | One attendance row per listed id, in order, all for the new event |
| EventRoutes.CreateEvent | backend/src/routes/EventRoutes.js:7-83 | A missing field or an attendee list that is not a non-empty array gives 400 and no write; 201 exactly when the form is valid, the transaction commits and the creator is a number; then exactly one event and one attendance row per id are added; a valid form that fails gives 500 and leaves the events and attendance rows as they were; the next event id moves on by one exactly when the event INSERT ran, so a rollback after it spends that id |
| EventRoutes.CreateEventKeepsIdsFresh | backend/src/routes/EventRoutes.js:36-45 | Whichever way the transaction ends, every event id stays below the next auto-increment value and no two events share an id |
| EventRoutes.PurgeAsWritten | backend/src/routes/EventRoutes.js:87-97 | As written, the events kept are exactly those dated after the current day, plus those dated today when the request arrives at midnight exactly |
| EventRoutes.Purge | backend/src/routes/EventRoutes.js:90-97 | Corrected: the events kept are exactly the stored events dated today or later |
| EventRoutes.PurgeAsWrittenDropsToday | backend/src/routes/EventRoutes.js:87-97 | At any time after midnight, the purge as written deletes an event dated that day, which the corrected purge keeps |
| EventRoutes.PurgesAgreeAtMidnight | backend/src/routes/EventRoutes.js:87-97 | At midnight exactly, the purge as written and the corrected purge keep the same events |
| EventRoutes.AttendeeOf | backend/src/routes/EventRoutes.js:107 | The attendee columns are present exactly when a user row has the attendance row's user id, and then carry that id |
| EventRoutes.JoinedRows | backend/src/routes/EventRoutes.js:100-108 | An event gives at least one row; each carries the event, the creator's names (null without a creator row), and either an attendance row of the event with its user's columns, or null attendee columns when the event has no attendance row |
| EventRoutes.JoinedRowsCover | backend/src/routes/EventRoutes.js:100-108 | Every attendance row of an event gives a joined row naming its user |
| EventRoutes.JoinRowIsJoined | backend/src/routes/EventRoutes.js:100-108 | Every row the three LEFT JOINs can produce for an event is among its joined rows |
| EventRoutes.QueryRows | backend/src/routes/EventRoutes.js:100-113 | Every row the query returns is a joined row of a stored event that passes the WHERE clause, and every joined row of a stored event that passes it is returned; so every event the user created or attends has a row, and the rows come newest date first |
| EventRoutes.QueryRowsComplete | backend/src/routes/EventRoutes.js:100-113 | Every stored event the user created or attends appears among the query's rows |
| EventRoutes.GroupIsGrouped | backend/src/routes/EventRoutes.js:116-145 | Grouping gives one entry per distinct event id, each built from its event's rows with attendees in row order, in the order the events first appear |
| EventRoutes.GroupKeepsDateOrder | backend/src/routes/EventRoutes.js:116-145 | Rows ordered newest date first give entries ordered newest date first |
| EventRoutes.GroupCreatorFlag | backend/src/routes/EventRoutes.js:133 | Each entry's creator flag is the comparison applied to its creator |
| EventRoutes.AttendeesAbsent | backend/src/routes/EventRoutes.js:136-144 | An event id that occurs in no row has no attendees |
| EventRoutes.ObjectValues | backend/src/routes/EventRoutes.js:147 | Listing the map's values gives the same entries with event ids ascending |
| EventRoutes.NeverCreatorAsWritten | backend/src/routes/EventRoutes.js:133 | As written, no listed entry is ever flagged as created by the user |
| EventRoutes.ListEventsAsWritten | backend/src/routes/EventRoutes.js:85-154 | As written, the purge as written is applied and the answer is 200; the entries are one per remaining event the user created or attends and nothing else, by ascending id, with no creator flag set; each entry is the grouping of its event's query rows (title, date, time, creator names and attendees as those rows give them), and every event of the rows has an entry |
| EventRoutes.GroupListsInvolved | backend/src/routes/EventRoutes.js:100-145 | Whatever the creator comparison, grouping the query's rows gives one entry per remaining event the user created or attends, and no other entry |
| EventRoutes.ListedEntriesAsWritten | backend/src/routes/EventRoutes.js:116-147 | Grouping the query rows and listing the map's values by ascending id gives one entry per involved event, none flagged, each the grouping of its rows |
| EventRoutes.PermutedGrouping | backend/src/routes/EventRoutes.js:147 | Listing the entries in another order keeps each one the grouping of its event's rows and keeps an entry for every event of the rows |
| EventRoutes.PermutedListsInvolved | backend/src/routes/EventRoutes.js:147 | Listing the entries in another order keeps them one per involved event |
| EventRoutes.ObjectValuesReordersByDate | backend/src/routes/EventRoutes.js:147 | Two events created in date order, listed newest first by the query and kept so by grouping, come back oldest first |
| EventRoutes.EntriesSound | backend/src/routes/EventRoutes.js:100-145 | Every entry listed for a user is a remaining event dated today or later that the user created or attends |
| EventRoutes.EntriesComplete | backend/src/routes/EventRoutes.js:100-145 | Every stored event the user created or attends has an entry |
| EventRoutes.ListEvents | backend/src/routes/EventRoutes.js:85-154 | Corrected: the events dated before today are deleted and the answer is 200; the entries are newest first with distinct ids, flagged exactly when the user created them, are exactly the remaining events the user created or attends, and each is the grouping of its query rows, attendees included |
| EventRoutes.AttendeeSeesOnlyThemself | backend/src/routes/EventRoutes.js:109 | For an event someone else created, the user's entry lists only the user among the attendees, and lists the user when their user row exists |
| EventPlanner.Distinct | frontend/src/components/EventPlanner.jsx:31 | The distinct roles hold each role once and exactly the roles of the list |
| EventPlanner.Roles | frontend/src/components/EventPlanner.jsx:30-34 | The shortcuts end with "S6" exactly once; every other entry is distinct and is a role some user has, and every such role other than "S6" is listed |
| EventPlanner.FilterKeepsDistinct | frontend/src/components/EventPlanner.jsx:32 | Removing "S6" from distinct roles leaves them distinct |
| EventPlanner.SelectRole | frontend/src/components/EventPlanner.jsx:36-47 | The previous attendees stay as a prefix; the added users have the role and an email not among the previous attendees, and every such user is added |
| EventPlanner.SelectRoleCoversRole | frontend/src/components/EventPlanner.jsx:36-47 | After a role is selected, every user with that role has an attendee with the same email |
| EventPlanner.SelectRoleIdempotent | frontend/src/components/EventPlanner.jsx:36-47 | Selecting the same role twice adds nothing the second time |
| EventPlanner.UserIdsOf | frontend/src/components/EventPlanner.jsx:77 | The payload's attendees are the attendees' user ids, in order |
| EventPlanner.Submit | frontend/src/components/EventPlanner.jsx:62-109 | A warning and no request exactly when the title, time or date is empty or nobody is invited; otherwise the payload carries the fields as entered and the stored user id |
| EventPlanner.AfterResponse | frontend/src/components/EventPlanner.jsx:84-97 | A 201 clears every field of the dialog; any other answer keeps them |
| EventPlanner.PlannerPostIsAccepted | frontend/src/components/EventPlanner.jsx:72-79 | What the dialog posts passes the server's field checks when a user id is stored, and with a decimal id and a committed transaction the server answers 201 with one attendance row per attendee in order |

## Left out

- File storage: the multer disk storage, directory creation and static
  serving are I/O. Only the filename rule is modelled.
- Authentication, accounts and seeding: login, registration, profile
  routes, password hashing and tokens are library calls or thin CRUD.
- Concurrency: the recipient inserts run in parallel in the code; the
  model runs them one after another in list order. Races between a
  check and the insert that follows it are not modelled.
- Database failures: the 500 answers caused by a failing query are left
  out, except the ones the code's own logic causes: a recipient field that
  is not an array in submit, an unknown email in the status update, an
  email held by two users in the delete route (its scalar subquery then
  returns two rows), an unknown author in the reply route, and a failed
  event transaction.
- Real dates and clocks: times are integers supplied by the caller, event
  dates are day numbers, and the current instant of GET /events is a day
  number with the milliseconds since that day's midnight.
- The uuid generator for reply codes is a parameter (`Env.replyCode`).
- `generateDocumentCode` is never called; submission uses the code the
  client sends.
- The events and attendees table definitions are not part of this model,
  so deleting an event does not cascade to its attendance rows.
- Rendering, the UI kit, snackbars, local storage and the HTTP client:
  the pages are modelled through the lists they compute.
- Tracking.History: the row order is not stated, because the query has
  no ORDER BY; the contract states the content only.
- DocumentRoutes.Submit: after the 400 for an unknown recipient the
  handler goes on and answers again; that second answer throws, the
  catch block's 500 throws too, and the rejection of the async handler
  is unhandled, which ends a Node.js 15 or later process. The model
  returns the 400 and the stored rows and treats the server as still
  running.
- Listings.Incoming: the recipients are grouped in a plain object keyed
  by document code, so a code naming an inherited property
  ("constructor", "toString", "__proto__" and the like) finds a value
  that is not an array, `push` throws and the answer is 500. The model
  treats every code as a fresh key and answers 200.
- Listings.Sent: the same plain-object grouping fails in the same way for
  such a code; the model answers 200.
- Listings.Ordered: the order among documents with the same creation
  time is not stated, as SQL leaves it unspecified.
- Incoming.PageOf: the page only ever is 1, since the page has no
  pagination control; the model still allows any page from 1.
- EventRoutes.DecimalValue: only plain decimal text counts as a number;
  the looser conversions MySQL applies to text with signs, spaces or
  fractions are not modelled.
- EventRoutes.ListEvents: the 500 answer for a failing query is left out.
- EventRoutes.QueryRows: the order among rows that share an `event_date`
  (events of the same day, and one event's attendance rows) is the
  model's choice: storage order. The query orders by `event_date DESC`
  only, so SQL leaves that order unspecified. `EventRoutes.ListEvents`
  and `EventRoutes.ListEventsAsWritten` inherit it: the order of
  same-day entries, and of each entry's `attendees`, is not promised by
  the source.
- SQL string comparison: `WHERE email = ?`, `WHERE document_code = ?`
  and the other string keys are modelled as exact equality. That assumes
  a binary collation; the table definitions are not part of this model,
  and under MySQL's default case-insensitive collations
  (utf8mb4_0900_ai_ci) `ALICE@X.COM` would find `alice@x.com` where the
  model answers 404.
- EventRoutes.CreateEvent: a `created_by` the INT column cannot store is
  taken to fail the event INSERT before it takes an auto-increment value;
  outside the event transaction, failed inserts (such as a failing audit
  insert) are likewise taken to spend no id.
- EventPlanner.Roles: does not state that the roles keep the order of
  their first appearance.

## Findings

| source | as written | input that shows it | evidently intended | confidence | as-written member | corrected member |
|---|---|---|---|---|---|---|
| frontend/src/pages/user/Incoming/Incoming.jsx:178 | After a successful status update, rows are matched with `doc.document_id === document.document_code`, a number against a string, so no row is ever marked Received while the counters shift | An inbox holding one Pending document that the user opens: the counters say 0 pending and 1 received while the list still shows it Pending | Match the rows on the document code, so that the list and the counters agree | high, not executed | Incoming.ViewAsWrittenDriftsCounts | Incoming.ViewKeepsCountsConsistent |
| backend/src/routes/EventRoutes.js:147 | `Object.values` of a map keyed by event id lists the entries by ascending id, undoing the query's newest-date-first order | Event 1 dated day 10 and event 2 dated day 20: the query gives 2 then 1, the answer gives 1 then 2 | Keep the query's order: newest date first | medium, not executed | EventRoutes.ObjectValuesReordersByDate | EventRoutes.GroupKeepsDateOrder |
| backend/src/routes/EventRoutes.js:87-97 | The purge binds `new Date()`, the current instant, against the DATE column `event_date`; the DATE compares as the midnight that starts its day, so it is earlier than any later instant of the same day | An event dated today, listed at 09:00 the same day: the purge deletes it | Delete only the events dated before today, keeping today's | high, not executed | EventRoutes.PurgeAsWrittenDropsToday | EventRoutes.ListEvents |
| backend/src/routes/EventRoutes.js:133 | `is_creator` compares the INT column (a number) with the query-string `user_id` (a string) using `===`, which is never true | Any user listing an event they created: `is_creator` is false | Compare the creator id with the number the query string denotes | high, not executed | EventRoutes.NeverCreatorAsWritten | EventRoutes.ListEvents |

=== FILE: archive.dfy ===
/** The archive page (frontend/src/pages/user/Archive/Archive.jsx): the
    archived subset of the fetched documents and its tab / sub-tab views. */
module Archive {
  import opened Common
  import opened DocumentList

  predicate IsArchived(d: Item) { HasStatus(d, "Archived") }

  /** The list the page keeps after fetching (Archive.jsx:44-46). */
  function ArchivedOf(fetched: seq<Item>): (r: seq<Item>)
    ensures IsSubseq(r, fetched)
    ensures forall i :: 0 <= i < |r| ==> r[i] in fetched && IsArchived(r[i])
    ensures forall i :: 0 <= i < |fetched| && IsArchived(fetched[i]) ==> fetched[i] in r
  {
    FilterIsSubseq(fetched, IsArchived);
    Filter(fetched, IsArchived)
  }

  /** The priority a sub-tab of tab 1 selects, if any. */
  function PriorityOf(subTab: int): Option<string> {
    if subTab == 0 then Some("Precedence")
    else if subTab == 1 then Some("Oscar")
    else if subTab == 2 then Some("Zulo")
    else None
  }

  /** The classification a sub-tab of tab 2 selects, if any. */
  function ClassificationOf(subTab: int): Option<string> {
    if subTab == 0 then Some("Confidential")
    else if subTab == 1 then Some("Un-Classified")
    else None
  }

  /** Whether the current tab and sub-tab show a document. */
  predicate Shows(tab: int, subTab: int, d: Item) {
    if tab == 1 && PriorityOf(subTab).Some? then d.prioritization == PriorityOf(subTab).value
    else if tab == 2 && ClassificationOf(subTab).Some? then d.classification == ClassificationOf(subTab).value
    else true
  }

  /** `filterDocuments()` (Archive.jsx:84-117). */
  function FilterDocuments(archived: seq<Item>, tab: int, subTab: int): (r: seq<Item>)
    ensures IsSubseq(r, archived)
    ensures forall i :: 0 <= i < |r| ==> r[i] in archived && Shows(tab, subTab, r[i])
    ensures forall i :: 0 <= i < |archived| && Shows(tab, subTab, archived[i]) ==> archived[i] in r
    ensures tab == 0 ==> r == archived
  {
    if tab == 1 && PriorityOf(subTab).Some? then
      var r := Filter(archived, (d: Item) => d.prioritization == PriorityOf(subTab).value);
      FilterIsSubseq(archived, (d: Item) => d.prioritization == PriorityOf(subTab).value);
      r
    else if tab == 2 && ClassificationOf(subTab).Some? then
      var r := Filter(archived, (d: Item) => d.classification == ClassificationOf(subTab).value);
      FilterIsSubseq(archived, (d: Item) => d.classification == ClassificationOf(subTab).value);
      r
    else
      SubseqRefl(archived);
      archived
  }

  /** Whatever the tabs, the page shows only archived documents, each one
      from the fetched list, in the fetched order. */
  lemma ShownAreArchived(fetched: seq<Item>, tab: int, subTab: int)
    ensures var r := FilterDocuments(ArchivedOf(fetched), tab, subTab);
      IsSubseq(r, fetched) && forall i :: 0 <= i < |r| ==> IsArchived(r[i]) && r[i] in fetched
  {
    var archived := ArchivedOf(fetched);
    var r := FilterDocuments(archived, tab, subTab);
    SubseqTransitive(r, archived, fetched);
  }

  /** `handleTabChange` (Archive.jsx:75-78): a new tab starts at sub-tab 0,
      so tabs 1 and 2 open on Precedence and Confidential. */
  function TabChange(tab: int): (r: (int, int))
    ensures r.0 == tab && r.1 == 0
    ensures tab == 1 ==> PriorityOf(r.1) == Some("Precedence")
    ensures tab == 2 ==> ClassificationOf(r.1) == Some("Confidential")
  {
    (tab, 0)
  }
}

=== FILE: client_documents.dfy ===
/** The document rows the inbox and archive pages receive from
    /get-documents/:email, reduced to the fields their logic reads. */
module DocumentList {
  import opened Common
  import opened Schema

  /** `recipientStatus` is `None` where the JSON holds null. */
  datatype Item = Item(
    documentId: int, documentCode: string, recipientStatus: Option<string>,
    prioritization: string, classification: string)

  /** The client's view of one listed document. */
  function ItemOf(d: ListedDocument): (it: Item)
    ensures it.documentId == d.row.doc.id && it.documentCode == d.row.doc.code
    ensures it.recipientStatus.Some? <==> d.row.recipientStatus.Some?
    ensures d.row.recipientStatus.Some? ==>
      ParseStatus(it.recipientStatus.value) == d.row.recipientStatus
  {
    var status := match d.row.recipientStatus
      case Some(s) => Some(StatusName(s))
      case None => None;
    if d.row.recipientStatus.Some? then
      StatusNameRoundTrip(d.row.recipientStatus.value);
      Item(d.row.doc.id, d.row.doc.code, status, d.row.doc.prioritization, d.row.doc.classification)
    else
      Item(d.row.doc.id, d.row.doc.code, status, d.row.doc.prioritization, d.row.doc.classification)
  }

  function ItemsOf(ds: seq<ListedDocument>): (r: seq<Item>)
    ensures |r| == |ds|
    ensures forall i :: 0 <= i < |ds| ==> r[i] == ItemOf(ds[i])
  {
    seq(|ds|, i requires 0 <= i < |ds| => ItemOf(ds[i]))
  }

  /** `doc.recipient_status === name`: a null status equals no name. */
  predicate HasStatus(d: Item, name: string) {
    d.recipientStatus == Some(name)
  }
}

=== FILE: common.dfy ===
/** Sequence utilities shared by the server and client models: filtering and
    counting (SQL `WHERE` / `Array.prototype.filter`), subsequences, a
    descending sort by an integer key (SQL `ORDER BY ... DESC`), substring
    search (`String.prototype.includes`) and JavaScript strict equality. */
module Common {

  datatype Option<T> = None | Some(value: T)

  /** The elements of `s` that satisfy `p`, in their original order. */
  function Filter<T>(s: seq<T>, p: T -> bool): (r: seq<T>)
    ensures |r| <= |s|
    ensures forall i :: 0 <= i < |r| ==> r[i] in s && p(r[i])
    ensures forall i :: 0 <= i < |s| && p(s[i]) ==> s[i] in r
    decreases |s|
  {
    if s == [] then []
    else if p(s[0]) then [s[0]] + Filter(s[1..], p)
    else Filter(s[1..], p)
  }

  lemma {:induction false} FilterConcat<T>(a: seq<T>, b: seq<T>, p: T -> bool)
    ensures Filter(a + b, p) == Filter(a, p) + Filter(b, p)
    decreases |a|
  {
    if a == [] {
      assert a + b == b;
    } else {
      assert (a + b)[0] == a[0];
      assert (a + b)[1..] == a[1..] + b;
      FilterConcat(a[1..], b, p);
    }
  }

  /** Nothing satisfies `p`, so nothing is kept. */
  lemma {:induction false} FilterNone<T>(s: seq<T>, p: T -> bool)
    requires forall i :: 0 <= i < |s| ==> !p(s[i])
    ensures Filter(s, p) == []
    decreases |s|
  {
    if s != [] {
      FilterNone(s[1..], p);
    }
  }

  /** If, position by position, `q` holds wherever `p` does, `q` keeps at least as many. */
  lemma {:induction false} FilterMonotone<T, U>(a: seq<T>, b: seq<U>, p: T -> bool, q: U -> bool)
    requires |a| == |b|
    requires forall i :: 0 <= i < |a| ==> p(a[i]) ==> q(b[i])
    ensures |Filter(a, p)| <= |Filter(b, q)|
    decreases |a|
  {
    if a != [] {
      FilterMonotone(a[1..], b[1..], p, q);
    }
  }

  /** `a` is obtained from `b` by deleting some elements. */
  ghost predicate IsSubseq<T>(a: seq<T>, b: seq<T>)
    decreases |b|
  {
    if b == [] then a == []
    else IsSubseq(a, b[1..]) || (a != [] && a[0] == b[0] && IsSubseq(a[1..], b[1..]))
  }

  lemma {:induction false} SubseqRefl<T>(s: seq<T>)
    ensures IsSubseq(s, s)
    decreases |s|
  {
    if s != [] {
      SubseqRefl(s[1..]);
    }
  }

  lemma {:induction false} FilterIsSubseq<T>(s: seq<T>, p: T -> bool)
    ensures IsSubseq(Filter(s, p), s)
    decreases |s|
  {
    if s != [] {
      FilterIsSubseq(s[1..], p);
    }
  }

  lemma {:induction false} SubseqTransitive<T>(a: seq<T>, b: seq<T>, c: seq<T>)
    requires IsSubseq(a, b) && IsSubseq(b, c)
    ensures IsSubseq(a, c)
    decreases |c|
  {
    if c != [] {
      if IsSubseq(b, c[1..]) {
        SubseqTransitive(a, b, c[1..]);
      } else {
        assert b != [] && b[0] == c[0] && IsSubseq(b[1..], c[1..]);
        if IsSubseq(a, b[1..]) {
          SubseqTransitive(a, b[1..], c[1..]);
        } else {
          SubseqTransitive(a[1..], b[1..], c[1..]);
        }
      }
    }
  }

  /** Filtering by `p` and then by `q` is filtering once by their conjunction `pq`. */
  lemma {:induction false} FilterFilter<T>(s: seq<T>, p: T -> bool, q: T -> bool, pq: T -> bool)
    requires forall x :: pq(x) == (p(x) && q(x))
    ensures Filter(Filter(s, p), q) == Filter(s, pq)
    decreases |s|
  {
    if s != [] {
      FilterFilter(s[1..], p, q, pq);
    }
  }

  /** Splitting the elements satisfying `p` by a second condition `q` splits
      their number: the `p && q` ones plus the `p && !q` ones. */
  lemma {:induction false} FilterPartition<T>(s: seq<T>, p: T -> bool, pq: T -> bool, pnq: T -> bool)
    requires forall x :: pq(x) ==> p(x)
    requires forall x :: pnq(x) ==> p(x)
    requires forall x :: p(x) ==> (pq(x) <==> !pnq(x))
    ensures |Filter(s, pq)| + |Filter(s, pnq)| == |Filter(s, p)|
    decreases |s|
  {
    if s != [] {
      FilterPartition(s[1..], p, pq, pnq);
    }
  }

  /** Two predicates that agree on every element of `s` filter it identically. */
  lemma {:induction false} FilterCongruent<T>(s: seq<T>, p: T -> bool, q: T -> bool)
    requires forall i :: 0 <= i < |s| ==> p(s[i]) == q(s[i])
    ensures Filter(s, p) == Filter(s, q)
    decreases |s|
  {
    if s != [] {
      FilterCongruent(s[1..], p, q);
    }
  }

  /** `q` occurs as a contiguous block of `s` (JavaScript `s.includes(q)`). */
  predicate Contains(s: string, q: string)
    decreases |s|
  {
    (|q| <= |s| && s[..|q|] == q) || (s != [] && Contains(s[1..], q))
  }

  /** A JavaScript value as far as the client code compares them: `===` is
      true only for two values of the same type with equal contents, so a
      number is never strictly equal to a string. */
  datatype JsValue = JsNumber(n: int) | JsString(s: string) | JsNull

  predicate StrictEquals(a: JsValue, b: JsValue) {
    a == b
  }

  lemma NumberNeverEqualsString(n: int, s: string)
    ensures !StrictEquals(JsNumber(n), JsString(s))
  {
  }

  // ---------------------------------------------------------------------
  // Descending sort by an integer key (`ORDER BY key DESC`)
  // ---------------------------------------------------------------------

  ghost predicate SortedDesc<T>(s: seq<T>, key: T -> int) {
    forall i, j :: 0 <= i < j < |s| ==> key(s[i]) >= key(s[j])
  }

  function InsertDesc<T(==)>(x: T, s: seq<T>, key: T -> int): (r: seq<T>)
    requires SortedDesc(s, key)
    ensures SortedDesc(r, key)
    ensures |r| == |s| + 1
    ensures r[0] == x || (s != [] && r[0] == s[0])
    ensures multiset(r) == multiset(s) + multiset{x}
    decreases |s|
  {
    if s == [] || key(s[0]) <= key(x) then
      [x] + s
    else
      TailSorted(s, key);
      var rest := InsertDesc(x, s[1..], key);
      HeadBoundsInsert(x, s, rest, key);
      ConsSorted(s[0], rest, key);
      assert s == [s[0]] + s[1..];
      [s[0]] + rest
  }

  lemma TailSorted<T>(s: seq<T>, key: T -> int)
    requires s != [] && SortedDesc(s, key)
    ensures SortedDesc(s[1..], key)
  {
    forall i, j | 0 <= i < j < |s[1..]| ensures key(s[1..][i]) >= key(s[1..][j]) {
      assert s[1..][i] == s[i + 1] && s[1..][j] == s[j + 1];
    }
  }

  /** The head of a sorted `s` bounds `x` inserted into its tail, when it bounds `x`. */
  lemma HeadBoundsInsert<T>(x: T, s: seq<T>, rest: seq<T>, key: T -> int)
    requires s != [] && SortedDesc(s, key) && key(x) < key(s[0])
    requires multiset(rest) == multiset(s[1..]) + multiset{x}
    ensures forall j :: 0 <= j < |rest| ==> key(s[0]) >= key(rest[j])
  {
    forall j | 0 <= j < |rest| ensures key(s[0]) >= key(rest[j]) {
      var y := rest[j];
      assert y in multiset(rest);
      if y != x {
        assert y in multiset(s[1..]);
        var m :| 0 <= m < |s[1..]| && s[1..][m] == y;
        assert s[m + 1] == y;
      }
    }
  }

  /** A head no smaller than anything in a sorted tail keeps it sorted. */
  lemma ConsSorted<T>(x: T, s: seq<T>, key: T -> int)
    requires SortedDesc(s, key)
    requires forall j :: 0 <= j < |s| ==> key(x) >= key(s[j])
    ensures SortedDesc([x] + s, key)
  {
    var t := [x] + s;
    forall i, j | 0 <= i < j < |t| ensures key(t[i]) >= key(t[j]) {
      assert t[j] == s[j - 1];
      if i > 0 { assert t[i] == s[i - 1]; }
    }
  }

  /** Two sorted runs, the first no smaller than the second, make one sorted run. */
  lemma AppendSorted<T>(a: seq<T>, b: seq<T>, key: T -> int)
    requires SortedDesc(a, key) && SortedDesc(b, key)
    requires forall i, j :: 0 <= i < |a| && 0 <= j < |b| ==> key(a[i]) >= key(b[j])
    ensures SortedDesc(a + b, key)
  {
    var t := a + b;
    forall i, j | 0 <= i < j < |t| ensures key(t[i]) >= key(t[j]) {
      if j >= |a| {
        assert t[j] == b[j - |a|];
        if i >= |a| { assert t[i] == b[i - |a|]; }
      }
    }
  }

  /** Insertion sort: the result is ordered by `key`, largest first, and is a
      permutation of the input. The order among equal keys is not part of the
      contract, as SQL leaves it unspecified. */
  function SortDesc<T(==)>(s: seq<T>, key: T -> int): (r: seq<T>)
    ensures SortedDesc(r, key)
    ensures multiset(r) == multiset(s)
    ensures |r| == |s|
    decreases |s|
  {
    if s == [] then []
    else
      assert s == [s[0]] + s[1..];
      InsertDesc(s[0], SortDesc(s[1..], key), key)
  }
}

=== FILE: document_routes.dfy ===
/** The write handlers of backend/src/routes/DocumentRoutes.js: submit a
    document, update one recipient's status, forward to a new recipient and
    delete a recipient, plus the upload filename sanitiser. Each handler is
    a pure function from the store and the request to the new store and the
    HTTP response, following the handler's statements in order, including
    the writes it makes before it fails. */
module DocumentRoutes {
  import opened Common
  import opened Schema
  import Tracking

  // ---------------------------------------------------------------------
  // Upload filename sanitiser
  // ---------------------------------------------------------------------

  /** The characters `[a-zA-Z0-9.-]` the multer filename callback keeps. */
  predicate IsSafeFileChar(c: char) {
    ('a' <= c <= 'z') || ('A' <= c <= 'Z') || ('0' <= c <= '9') || c == '.' || c == '-'
  }

  /** `originalname.replace(/[^a-zA-Z0-9.-]/g, "_")` */
  function SanitizeFileName(name: string): (r: string)
    ensures |r| == |name|
    ensures forall i :: 0 <= i < |r| ==> IsSafeFileChar(r[i]) || r[i] == '_'
    ensures forall i :: 0 <= i < |name| && IsSafeFileChar(name[i]) ==> r[i] == name[i]
    ensures forall i :: 0 <= i < |name| && !IsSafeFileChar(name[i]) ==> r[i] == '_'
  {
    seq(|name|, i requires 0 <= i < |name| => if IsSafeFileChar(name[i]) then name[i] else '_')
  }

  lemma SanitizeIdempotent(name: string)
    ensures SanitizeFileName(SanitizeFileName(name)) == SanitizeFileName(name)
  {
  }

  /** A name made only of kept characters is stored unchanged. */
  lemma SanitizeKeepsSafeNames(name: string)
    requires forall i :: 0 <= i < |name| ==> IsSafeFileChar(name[i])
    ensures SanitizeFileName(name) == name
  {
  }

  // ---------------------------------------------------------------------
  // Splitting a display name into first and last name
  // ---------------------------------------------------------------------

  /** `name.split(" ")[0]`: everything before the first space. */
  function FirstWord(name: string): (r: string)
    ensures r <= name
    ensures ' ' !in r
    ensures r == name || name[|r|] == ' '
    decreases |name|
  {
    if name == [] || name[0] == ' ' then []
    else [name[0]] + FirstWord(name[1..])
  }

  /** `name.split(" ")[1] || ""`: the piece between the first and the second
      space, or empty when there is no space. */
  function SecondWord(name: string): (r: string)
    ensures ' ' !in r
    ensures ' ' !in name ==> r == []
  {
    var w := FirstWord(name);
    if |w| == |name| then [] else FirstWord(name[|w| + 1..])
  }

  lemma {:induction false} FirstWordOfSpaceFree(s: string, rest: string)
    requires ' ' !in s
    requires rest == [] || rest[0] == ' '
    ensures FirstWord(s + rest) == s
    decreases |s|
  {
    if s == [] {
      assert s + rest == rest;
    } else {
      assert (s + rest)[1..] == s[1..] + rest;
      FirstWordOfSpaceFree(s[1..], rest);
    }
  }

  /** A "first last" display name built by `CONCAT(first_name, ' ', last_name)`
      splits back into the same two names when neither contains a space. */
  lemma SplitFullName(first: string, last: string)
    requires ' ' !in first && ' ' !in last
    ensures FirstWord(first + " " + last) == first
    ensures SecondWord(first + " " + last) == last
  {
    var name := first + " " + last;
    FirstWordOfSpaceFree(first, " " + last);
    assert name == first + (" " + last);
    assert name[|first| + 1..] == last;
    FirstWordOfSpaceFree(last, []);
    assert last + [] == last;
  }

  // ---------------------------------------------------------------------
  // POST /submit-form
  // ---------------------------------------------------------------------

  /** The sender object the form sends as JSON. */
  datatype Profile = Profile(
    name: string, email: string, username: string, password: string, role: Option<string>)

  /** One entry of the recipient array the form sends as JSON. */
  datatype Addressee = Addressee(name: string, email: string)

  /** What `JSON.parse(recipient)` yields: a parse error, a value that is not
      an array (so `.map` throws), or the list of addressees. */
  datatype RecipientJson = Unparseable | NotAnArray | AddresseeList(list: seq<Addressee>)

  /** The multipart body of /submit-form. `sender` is `None` when its JSON does
      not parse; `upload` is the original name of the attached file, if any. */
  datatype SubmitForm = SubmitForm(
    documentId: string, sender: Option<Profile>, recipient: RecipientJson,
    subject: string, description: string, prioritization: string,
    dateOfLetter: string, classification: string, deadline: string,
    upload: Option<string>)

  /** `parsedSender.role || "User"` */
  function RoleOrDefault(role: Option<string>): (r: string)
    ensures r != ""
    ensures role.Some? && role.value != "" ==> r == role.value
  {
    if role.None? || role.value == "" then "User" else role.value
  }

  /** The sender's user id, inserting a minimal user row when the email is
      unknown (DocumentRoutes.js:86-108). */
  function ResolveSender(st: State, p: Profile): (out: (State, int))
    ensures out.0.documents == st.documents && out.0.recipients == st.recipients
    ensures out.0.tracking == st.tracking && out.0.replies == st.replies
    ensures out.0.nextDocumentId == st.nextDocumentId && out.0.nextTrackingId == st.nextTrackingId
    ensures IsPrefix(st.users, out.0.users)
    ensures UserByEmail(out.0.users, p.email).Some?
    ensures UserByEmail(out.0.users, p.email).value.userId == out.1
    ensures UserByEmail(st.users, p.email).Some? ==> out.0 == st
    ensures UserByEmail(st.users, p.email).None? ==>
      out.0.users == st.users + [User(st.nextUserId, FirstWord(p.name), SecondWord(p.name),
                                      p.email, p.username, p.password, RoleOrDefault(p.role))] &&
      out.1 == st.nextUserId
  {
    match UserByEmail(st.users, p.email)
    case Some(u) => (st, u.userId)
    case None =>
      var u := User(st.nextUserId, FirstWord(p.name), SecondWord(p.name),
                    p.email, p.username, p.password, RoleOrDefault(p.role));
      UserByEmailAppend(st.users, u, p.email);
      (st.(users := st.users + [u], nextUserId := st.nextUserId + 1), u.userId)
  }

  /** Looking up an email after appending a user finds the old match first,
      else the new user if the email is its. */
  lemma {:induction false} UserByEmailAppend(users: seq<User>, u: User, email: string)
    ensures UserByEmail(users + [u], email) ==
      if UserByEmail(users, email).Some? then UserByEmail(users, email)
      else if u.email == email then Some(u) else None
    decreases |users|
  {
    if users == [] {
      assert users + [u] == [u];
    } else {
      assert (users + [u])[1..] == users[1..] + [u];
      UserByEmailAppend(users[1..], u, email);
    }
  }

  /** The per-recipient loop of DocumentRoutes.js:138-159, run in list order:
      each known addressee yields a Pending row for the document; each unknown
      one is collected (its callback answers 400 and inserts nothing). */
  function ResolveRecipients(users: seq<User>, code: string, list: seq<Addressee>)
    : (out: (seq<RecipientRow>, seq<string>))
    ensures |out.0| + |out.1| == |list|
    ensures forall k :: 0 <= k < |out.0| ==>
      out.0[k].documentCode == code && out.0[k].status == Pending
    ensures out.1 == [] <==> forall k :: 0 <= k < |list| ==> UserByEmail(users, list[k].email).Some?
    ensures out.1 == [] ==> forall k :: 0 <= k < |list| ==>
      out.0[k] == RecipientRow(code, UserByEmail(users, list[k].email).value.userId, Pending)
    ensures forall e :: e in out.1 ==> UserByEmail(users, e).None?
    decreases |list|
  {
    if list == [] then ([], [])
    else
      var rest := ResolveRecipients(users, code, list[1..]);
      match UserByEmail(users, list[0].email)
      case None => (rest.0, [list[0].email] + rest.1)
      case Some(u) =>
        var out := ([RecipientRow(code, u.userId, Pending)] + rest.0, rest.1);
        assert rest.1 == [] ==> forall k :: 0 <= k < |list| ==>
          out.0[k] == RecipientRow(code, UserByEmail(users, list[k].email).value.userId, Pending) by {
          if rest.1 == [] {
            forall k | 0 <= k < |list|
              ensures out.0[k] == RecipientRow(code, UserByEmail(users, list[k].email).value.userId, Pending)
            {
              if k > 0 {
                assert list[k] == list[1..][k - 1];
              }
            }
          }
        }
        out
  }

  /** The row inserted into `documents` (DocumentRoutes.js:121-135). */
  function NewDocument(st: State, form: SubmitForm, senderId: int, now: int): Document {
    Document(st.nextDocumentId, form.documentId, senderId, form.subject, form.description,
             form.prioritization, form.dateOfLetter, form.classification, form.deadline,
             match form.upload case Some(n) => Some(SanitizeFileName(n)) case None => None,
             now)
  }

  /** Every addressee of a parsed recipient list is a known user. */
  predicate AllKnown(users: seq<User>, list: seq<Addressee>) {
    forall k :: 0 <= k < |list| ==> UserByEmail(users, list[k].email).Some?
  }

  /** The user id the sender's email resolves to once the handler has run. */
  function SenderIdAfter(st: State, form: SubmitForm): int
    requires form.sender.Some?
  {
    ResolveSender(st, form.sender.value).1
  }

  /** POST /submit-form (DocumentRoutes.js:57-173). Not atomic: the sender
      user is created before the duplicate-code check, and the document is
      inserted before the recipients are resolved, so an unknown recipient
      answers 400 but leaves the document, the other recipients' rows and
      (with exactly one unknown recipient) the creation event in place. */
  function Submit(st: State, env: Env, form: SubmitForm): (out: (State, Response))
    // Bad JSON: 400, nothing written.
    ensures form.sender.None? || form.recipient.Unparseable? ==>
      out.0 == st && out.1.status == 400
    // Duplicate code: 400, no document, recipient or tracking row written.
    ensures form.sender.Some? && !form.recipient.Unparseable? && HasDocument(st, form.documentId) ==>
      out.1.status == 400 && out.0.documents == st.documents &&
      out.0.recipients == st.recipients && out.0.tracking == st.tracking
    // Success exactly when everything parses, the code is new and every addressee is known.
    ensures out.1.status == 201 <==>
      form.sender.Some? && form.recipient.AddresseeList? && !HasDocument(st, form.documentId) &&
      AllKnown(out.0.users, form.recipient.list)
    ensures out.1.status == 201 ==>
      out.1.body == DocumentCode(form.documentId) &&
      out.0.documents == st.documents + [NewDocument(st, form, SenderIdAfter(st, form), env.now)] &&
      IsPrefix(st.recipients, out.0.recipients) &&
      |out.0.recipients| == |st.recipients| + |form.recipient.list| &&
      (forall k :: 0 <= k < |form.recipient.list| ==>
        out.0.recipients[|st.recipients| + k] ==
          RecipientRow(form.documentId,
                       UserByEmail(out.0.users, form.recipient.list[k].email).value.userId, Pending)) &&
      out.0.tracking == st.tracking +
        (if env.auditOk
         then [TrackingRow(st.nextTrackingId, form.documentId, SenderIdAfter(st, form),
                           "Document Created", env.now)]
         else [])
    // A recipient field that is not an array: 500 after the document insert,
    // which stays; no recipient or log row is written.
    ensures form.sender.Some? && form.recipient.NotAnArray? && !HasDocument(st, form.documentId) ==>
      out.1.status == 500 &&
      out.0.documents == st.documents + [NewDocument(st, form, SenderIdAfter(st, form), env.now)] &&
      out.0.recipients == st.recipients && out.0.tracking == st.tracking
    // An unknown addressee: 400 naming the first unknown email. The document and
    // the known addressees' Pending rows stay; the creation event is logged only
    // when exactly one email is unknown, since with two the second answer throws
    // and rejects the Promise.all before the log call.
    ensures (form.sender.Some? && form.recipient.AddresseeList? && !HasDocument(st, form.documentId) &&
             !AllKnown(ResolveSender(st, form.sender.value).0.users, form.recipient.list)) ==>
      var resolved := ResolveRecipients(ResolveSender(st, form.sender.value).0.users, form.documentId,
                                        form.recipient.list);
      resolved.1 != [] &&
      out.1 == Response(400, Message("Recipient " + resolved.1[0] + " not found.")) &&
      out.0.documents == st.documents + [NewDocument(st, form, SenderIdAfter(st, form), env.now)] &&
      out.0.recipients == st.recipients + resolved.0 &&
      out.0.tracking == st.tracking +
        (if |resolved.1| == 1 && env.auditOk
         then [TrackingRow(st.nextTrackingId, form.documentId, SenderIdAfter(st, form),
                           "Document Created", env.now)]
         else [])
    // Whatever happens, replies are untouched and the log is only appended to.
    ensures out.0.replies == st.replies
    ensures IsPrefix(st.tracking, out.0.tracking) && |out.0.tracking| <= |st.tracking| + 1
    ensures IsPrefix(st.recipients, out.0.recipients)
    ensures IsPrefix(st.documents, out.0.documents)
  {
    if form.sender.None? || form.recipient.Unparseable? then
      (st, Response(400, Message("Invalid JSON format")))
    else
      var (st1, senderId) := ResolveSender(st, form.sender.value);
      if HasDocument(st1, form.documentId) then
        (st1, Response(400, Message("Document ID already exists.")))
      else
        StoreDocument(st1, env, form, senderId)
  }

  /** The submission once the sender is resolved and the code is new
      (DocumentRoutes.js:121-168): insert the document, then the recipient
      rows, then log the creation. */
  function StoreDocument(st: State, env: Env, form: SubmitForm, senderId: int): (out: (State, Response))
    requires !form.recipient.Unparseable? && !HasDocument(st, form.documentId)
    ensures out.0.users == st.users && out.0.replies == st.replies
    ensures out.0.documents == st.documents + [NewDocument(st, form, senderId, env.now)]
    ensures form.recipient.NotAnArray? ==>
      out.1.status == 500 && out.0.recipients == st.recipients && out.0.tracking == st.tracking
    ensures form.recipient.AddresseeList? ==>
      var resolved := ResolveRecipients(st.users, form.documentId, form.recipient.list);
      out.0.recipients == st.recipients + resolved.0 &&
      (resolved.1 == [] ==> out.1 == Response(201, DocumentCode(form.documentId))) &&
      (resolved.1 != [] ==> out.1 == Response(400, Message("Recipient " + resolved.1[0] + " not found."))) &&
      out.0.tracking == st.tracking +
        (if |resolved.1| <= 1 && env.auditOk
         then [TrackingRow(st.nextTrackingId, form.documentId, senderId, "Document Created", env.now)]
         else [])
  {
    var doc := NewDocument(st, form, senderId, env.now);
    var st2 := st.(documents := st.documents + [doc], nextDocumentId := st.nextDocumentId + 1);
    if form.recipient.NotAnArray? then
      (st2, Response(500, Message("An error occurred during form submission")))
    else
      var (rows, missing) := ResolveRecipients(st2.users, form.documentId, form.recipient.list);
      var st3 := st2.(recipients := st2.recipients + rows);
      if |missing| >= 2 then
        // The second unknown recipient's callback throws when it answers a
        // second time, Promise.all rejects, and the creation event is skipped.
        (st3, Response(400, Message("Recipient " + missing[0] + " not found.")))
      else
        var st4 := Tracking.LogAction(st3, env, form.documentId, senderId, "Document Created");
        if |missing| == 1 then
          (st4, Response(400, Message("Recipient " + missing[0] + " not found.")))
        else
          (st4, Response(201, DocumentCode(form.documentId)))
  }

  // ---------------------------------------------------------------------
  // PUT /update-recipient-status/:documentCode
  // ---------------------------------------------------------------------

  /** The row is one the UPDATE ... JOIN users matches: it belongs to the
      document and its user has the given email. */
  predicate RowMatches(users: seq<User>, row: RecipientRow, code: string, email: string) {
    row.documentCode == code &&
    exists k :: 0 <= k < |users| && users[k].userId == row.userId && users[k].email == email
  }

  /** `UPDATE recipients r JOIN users u ... SET r.status = ?` */
  function SetStatus(users: seq<User>, rows: seq<RecipientRow>, code: string, email: string, s: Status)
    : (r: seq<RecipientRow>)
    ensures |r| == |rows|
    ensures forall i :: 0 <= i < |rows| ==>
      r[i].documentCode == rows[i].documentCode && r[i].userId == rows[i].userId
    ensures forall i :: 0 <= i < |rows| && RowMatches(users, rows[i], code, email) ==> r[i].status == s
    ensures forall i :: 0 <= i < |rows| && !RowMatches(users, rows[i], code, email) ==> r[i] == rows[i]
  {
    seq(|rows|, i requires 0 <= i < |rows| =>
      if RowMatches(users, rows[i], code, email) then rows[i].(status := s) else rows[i])
  }

  /** How many rows the UPDATE matches (`affectedRows`: mysql2 reports matched rows). */
  function MatchedRows(users: seq<User>, rows: seq<RecipientRow>, code: string, email: string): nat {
    |Filter(rows, (r: RecipientRow) => RowMatches(users, r, code, email))|
  }

  lemma NoMatchWhenFilterEmpty(users: seq<User>, rows: seq<RecipientRow>, code: string, email: string)
    ensures MatchedRows(users, rows, code, email) == 0 <==>
      forall i :: 0 <= i < |rows| ==> !RowMatches(users, rows[i], code, email)
  {
    var f := Filter(rows, (r: RecipientRow) => RowMatches(users, r, code, email));
    if f != [] {
      assert f[0] in rows && RowMatches(users, f[0], code, email);
    }
  }

  /** PUT /update-recipient-status/:documentCode (DocumentRoutes.js:177-233).
      `isEmail` is the express-validator email check. There is no transition
      guard: any of the four statuses overwrites the current one. The status
      event is written before the "no row matched" check, so a 404 still logs. */
  function UpdateStatus(st: State, env: Env, code: string, email: string, status: string,
                        isEmail: string -> bool): (out: (State, Response))
    ensures !isEmail(email) || ParseStatus(status).None? ==> out.0 == st && out.1.status == 400
    ensures isEmail(email) && ParseStatus(status).Some? ==>
      out.0.recipients == SetStatus(st.users, st.recipients, code, email, ParseStatus(status).value)
    ensures isEmail(email) && ParseStatus(status).Some? && UserByEmail(st.users, email).None? ==>
      out.0 == st && out.1.status == 500
    ensures isEmail(email) && ParseStatus(status).Some? && UserByEmail(st.users, email).Some? ==>
      (out.1.status == 404 <==> forall i :: 0 <= i < |st.recipients| ==>
                                  !RowMatches(st.users, st.recipients[i], code, email)) &&
      (out.1.status != 404 ==> out.1.status == 200) &&
      out.0.tracking == st.tracking +
        (if env.auditOk
         then [TrackingRow(st.nextTrackingId, code, UserByEmail(st.users, email).value.userId,
                           "Status updated to " + status + " by " + email, env.now)]
         else [])
    ensures out.0.users == st.users && out.0.documents == st.documents && out.0.replies == st.replies
  {
    if !isEmail(email) then
      (st, Response(400, Message("Recipient email is required")))
    else if ParseStatus(status).None? then
      (st, Response(400, Message("Invalid status value")))
    else
      var rows := SetStatus(st.users, st.recipients, code, email, ParseStatus(status).value);
      var matched := MatchedRows(st.users, st.recipients, code, email);
      NoMatchWhenFilterEmpty(st.users, st.recipients, code, email);
      var st1 := st.(recipients := rows);
      match UserByEmail(st.users, email)
      case None =>
        // `userResult[0].userId` throws: the UPDATE matched nothing, no event.
        assert rows == st.recipients;
        (st1, Response(500, Message("An error occurred while updating the status")))
      case Some(u) =>
        var st2 := Tracking.LogAction(st1, env, code, u.userId,
                                      "Status updated to " + status + " by " + email);
        if matched == 0 then
          (st2, Response(404, Message("Recipient or document not found")))
        else
          (st2, Response(200, Message("Recipient status updated successfully")))
  }

  // ---------------------------------------------------------------------
  // POST /forward-document/:documentCode
  // ---------------------------------------------------------------------

  /** POST /forward-document/:documentCode (DocumentRoutes.js:460-516). */
  function Forward(st: State, env: Env, code: string, email: string): (out: (State, Response))
    ensures !HasDocument(st, code) ==> out.0 == st && out.1.status == 404
    ensures HasDocument(st, code) && UserByEmail(st.users, email).None? ==>
      out.0 == st && out.1.status == 404
    ensures HasDocument(st, code) && UserByEmail(st.users, email).Some? &&
            HasRecipient(st, code, UserByEmail(st.users, email).value.userId) ==>
      out.0 == st && out.1.status == 400
    ensures out.1.status == 201 <==>
      HasDocument(st, code) && UserByEmail(st.users, email).Some? &&
      !HasRecipient(st, code, UserByEmail(st.users, email).value.userId)
    ensures out.1.status == 201 ==>
      var uid := UserByEmail(st.users, email).value.userId;
      out.0.recipients == st.recipients + [RecipientRow(code, uid, Pending)] &&
      out.0.tracking == st.tracking +
        (if env.auditOk
         then [TrackingRow(st.nextTrackingId, code, uid, "Document forwarded to \"" + email + "\"", env.now)]
         else [])
    ensures out.0.users == st.users && out.0.documents == st.documents && out.0.replies == st.replies
  {
    if !HasDocument(st, code) then
      (st, Response(404, Message("Document not found.")))
    else
      match UserByEmail(st.users, email)
      case None => (st, Response(404, Message("Recipient not found.")))
      case Some(u) =>
        if HasRecipient(st, code, u.userId) then
          (st, Response(400, Message("Recipient has already received this document.")))
        else
          var st1 := st.(recipients := st.recipients + [RecipientRow(code, u.userId, Pending)]);
          var st2 := Tracking.LogAction(st1, env, code, u.userId,
                                        "Document forwarded to \"" + email + "\"");
          (st2, Response(201, Message("Document forwarded successfully.")))
  }

  /** Forwarding never creates a second row for a (code, user) pair. */
  lemma ForwardKeepsPairsUnique(st: State, env: Env, code: string, email: string)
    requires UniquePairs(st.recipients)
    ensures UniquePairs(Forward(st, env, code, email).0.recipients)
  {
    var out := Forward(st, env, code, email);
    if out.1.status == 201 {
      var uid := UserByEmail(st.users, email).value.userId;
      var rows := out.0.recipients;
      forall i, j | 0 <= i < j < |rows|
        ensures (rows[i].documentCode, rows[i].userId) != (rows[j].documentCode, rows[j].userId)
      {
        if j == |st.recipients| {
          assert rows[i] == st.recipients[i];
        }
      }
    }
  }

  // ---------------------------------------------------------------------
  // DELETE /delete-recipient/:documentCode/:recipientEmail
  // ---------------------------------------------------------------------

  function UsersWithEmail(users: seq<User>, email: string): seq<User> {
    Filter(users, (u: User) => u.email == email)
  }

  /** A user holding the email is there for the first-match lookup to find. */
  lemma SharedEmailIsKnown(users: seq<User>, email: string)
    ensures |UsersWithEmail(users, email)| > 0 ==> UserByEmail(users, email).Some?
  {
    var holders := UsersWithEmail(users, email);
    if |holders| > 0 {
      assert holders[0] in users && holders[0].email == email;
    }
  }

  /** The rows the DELETE keeps: all but the (code, user) ones. */
  function WithoutPair(rows: seq<RecipientRow>, code: string, userId: int): (r: seq<RecipientRow>)
    ensures forall i :: 0 <= i < |r| ==> r[i] in rows && !(r[i].documentCode == code && r[i].userId == userId)
    ensures forall i :: 0 <= i < |rows| && !(rows[i].documentCode == code && rows[i].userId == userId) ==>
      rows[i] in r
    ensures IsSubseq(r, rows)
    ensures |r| == |rows| <==> !HasPairIn(rows, code, userId)
  {
    var r := Filter(rows, (x: RecipientRow) => !(x.documentCode == code && x.userId == userId));
    FilterIsSubseq(rows, (x: RecipientRow) => !(x.documentCode == code && x.userId == userId));
    FilterFullIffAll(rows, (x: RecipientRow) => !(x.documentCode == code && x.userId == userId));
    r
  }

  predicate HasPairIn(rows: seq<RecipientRow>, code: string, userId: int) {
    exists i :: 0 <= i < |rows| && rows[i].documentCode == code && rows[i].userId == userId
  }

  /** A filter keeps every element exactly when every element passes. */
  lemma {:induction false} FilterFullIffAll<T>(s: seq<T>, p: T -> bool)
    ensures |Filter(s, p)| == |s| <==> forall i :: 0 <= i < |s| ==> p(s[i])
    decreases |s|
  {
    if s != [] {
      FilterFullIffAll(s[1..], p);
      if !p(s[0]) {
        assert |Filter(s, p)| < |s|;
      }
      assert (forall i :: 0 <= i < |s| ==> p(s[i])) <==>
             p(s[0]) && forall i :: 0 <= i < |s[1..]| ==> p(s[1..][i]) by {
        if forall i :: 0 <= i < |s[1..]| ==> p(s[1..][i]) {
          forall i | 1 <= i < |s| ensures p(s[i]) { assert s[i] == s[1..][i - 1]; }
        }
      }
    }
  }

  /** DELETE /delete-recipient/:documentCode/:recipientEmail
      (DocumentRoutes.js:418-456). The DELETE resolves the user through a
      scalar subquery on the email, which fails when two users share it. */
  function DeleteRecipient(st: State, env: Env, code: string, email: string): (out: (State, Response))
    ensures out.0.documents == st.documents && out.0.users == st.users && out.0.replies == st.replies
    ensures out.1.status == 404 <==>
      UserByEmail(st.users, email).None? ||
      (|UsersWithEmail(st.users, email)| <= 1 &&
       !HasPairIn(st.recipients, code, UserByEmail(st.users, email).value.userId))
    ensures out.1.status == 200 <==>
      UserByEmail(st.users, email).Some? && |UsersWithEmail(st.users, email)| <= 1 &&
      HasPairIn(st.recipients, code, UserByEmail(st.users, email).value.userId)
    ensures |UsersWithEmail(st.users, email)| > 1 ==>
      out.1 == Response(500, Message("An error occurred while deleting the recipient"))
    ensures out.1.status != 200 ==> out.0 == st
    ensures out.1.status == 200 ==>
      var uid := UserByEmail(st.users, email).value.userId;
      HasPairIn(st.recipients, code, uid) &&
      out.0.recipients == WithoutPair(st.recipients, code, uid) &&
      out.0.tracking == st.tracking +
        (if env.auditOk
         then [TrackingRow(st.nextTrackingId, code, uid,
                           "Recipient " + email + " deleted from document " + code, env.now)]
         else [])
  {
    SharedEmailIsKnown(st.users, email);
    match UserByEmail(st.users, email)
    case None => (st, Response(404, Message("Recipient not found")))
    case Some(u) =>
      if |UsersWithEmail(st.users, email)| > 1 then
        (st, Response(500, Message("An error occurred while deleting the recipient")))
      else
        var kept := WithoutPair(st.recipients, code, u.userId);
        if |kept| == |st.recipients| then
          (st, Response(404, Message("Recipient not found")))
        else
          var st1 := st.(recipients := kept);
          var st2 := Tracking.LogAction(st1, env, code, u.userId,
                                        "Recipient " + email + " deleted from document " + code);
          (st2, Response(200, Message("Recipient deleted successfully")))
  }
}

=== FILE: event_planner.dfy ===
/** The event planner dialog (frontend/src/components/EventPlanner.jsx): the
    role shortcuts, adding every user of a role to the attendees without
    repeating an email, and the checks and payload of "create event". */
module EventPlanner {
  import opened Common
  import EventRoutes

  /** A row of `GET /users` as the dialog uses it. */
  datatype PlannerUser = PlannerUser(
    userId: int, firstName: string, lastName: string, email: string, role: string)

  /** The dialog's fields. The date input yields a day or nothing. */
  datatype Planner = Planner(
    title: string, eventDate: Option<int>, eventTime: string,
    attendees: seq<PlannerUser>, description: string)

  // ---------------------------------------------------------------------
  // roles (EventPlanner.jsx:30-34)
  // ---------------------------------------------------------------------

  /** `[...new Set(xs)]`: each value once, at its first appearance. */
  function Distinct(xs: seq<string>): (r: seq<string>)
    ensures forall i, j :: 0 <= i < j < |r| ==> r[i] != r[j]
    ensures forall x :: x in r <==> x in xs
    decreases |xs|
  {
    if xs == [] then []
    else
      var d := Distinct(xs[..|xs| - 1]);
      var x := xs[|xs| - 1];
      assert xs == xs[..|xs| - 1] + [x];
      if x in d then d else d + [x]
  }

  function RolesOf(users: seq<PlannerUser>): (r: seq<string>)
    ensures |r| == |users|
    ensures forall i :: 0 <= i < |users| ==> r[i] == users[i].role
  {
    seq(|users|, i requires 0 <= i < |users| => users[i].role)
  }

  predicate HasRole(users: seq<PlannerUser>, role: string) {
    exists i :: 0 <= i < |users| && users[i].role == role
  }

  /** The role shortcuts: every role some user has, other than "S6", once
      each, then "S6" once and last whether or not a user has it. */
  function Roles(users: seq<PlannerUser>): (r: seq<string>)
    ensures |r| > 0 && r[|r| - 1] == "S6"
    ensures forall i :: 0 <= i < |r| - 1 ==> r[i] != "S6"
    ensures forall i, j :: 0 <= i < j < |r| ==> r[i] != r[j]
    ensures forall role :: role != "S6" ==> (role in r <==> HasRole(users, role))
  {
    var unique := Distinct(RolesOf(users));
    var withoutS6 := Filter(unique, (role: string) => role != "S6");
    var r := withoutS6 + ["S6"];
    assert forall role :: role != "S6" ==> (role in r <==> HasRole(users, role)) by {
      forall role | role != "S6" ensures role in r <==> HasRole(users, role) {
        if HasRole(users, role) {
          var i :| 0 <= i < |users| && users[i].role == role;
          assert RolesOf(users)[i] == role;
          assert role in unique;
          var j :| 0 <= j < |unique| && unique[j] == role;
        }
        if role in r {
          assert role in withoutS6;
          var k :| 0 <= k < |RolesOf(users)| && RolesOf(users)[k] == role;
        }
      }
    }
    FilterKeepsDistinct(unique, (role: string) => role != "S6");
    r
  }

  /** Filtering a sequence without repetitions gives one without repetitions. */
  lemma {:induction false} FilterKeepsDistinct<T>(s: seq<T>, p: T -> bool)
    requires forall i, j :: 0 <= i < j < |s| ==> s[i] != s[j]
    ensures forall i, j :: 0 <= i < j < |Filter(s, p)| ==> Filter(s, p)[i] != Filter(s, p)[j]
    decreases |s|
  {
    if s != [] {
      FilterKeepsDistinct(s[1..], p);
      if p(s[0]) {
        assert s[0] !in s[1..];
        assert s[0] !in Filter(s[1..], p);
      }
    }
  }

  // ---------------------------------------------------------------------
  // handleRoleSelect (EventPlanner.jsx:36-47)
  // ---------------------------------------------------------------------

  predicate EmailIn(attendees: seq<PlannerUser>, email: string) {
    exists i :: 0 <= i < |attendees| && attendees[i].email == email
  }

  function WithRole(role: string): PlannerUser -> bool {
    (u: PlannerUser) => u.role == role
  }

  /** `!prevAttendees.some(attendee => attendee.email === user.email)` */
  function NotListed(prev: seq<PlannerUser>): PlannerUser -> bool {
    (u: PlannerUser) => !EmailIn(prev, u.email)
  }

  /** The previous attendees, then every user with the role whose email is
      not among the previous attendees, in user order. */
  function SelectRole(users: seq<PlannerUser>, prev: seq<PlannerUser>, role: string): (r: seq<PlannerUser>)
    ensures |prev| <= |r| && r[..|prev|] == prev
    ensures forall k :: |prev| <= k < |r| ==>
      r[k] in users && r[k].role == role && !EmailIn(prev, r[k].email)
    ensures forall i :: 0 <= i < |users| && users[i].role == role && !EmailIn(prev, users[i].email) ==>
      users[i] in r[|prev|..]
  {
    var withRole := Filter(users, WithRole(role));
    var added := Filter(withRole, NotListed(prev));
    var r := prev + added;
    assert r[..|prev|] == prev;
    assert r[|prev|..] == added;
    assert forall i :: 0 <= i < |users| && users[i].role == role && !EmailIn(prev, users[i].email) ==>
      users[i] in added by {
      forall i | 0 <= i < |users| && users[i].role == role && !EmailIn(prev, users[i].email)
        ensures users[i] in added
      {
        assert users[i] in withRole;
        var j :| 0 <= j < |withRole| && withRole[j] == users[i];
      }
    }
    r
  }

  /** After a role is selected, every user with that role has an attendee
      with the same email. */
  lemma SelectRoleCoversRole(users: seq<PlannerUser>, prev: seq<PlannerUser>, role: string)
    ensures var r := SelectRole(users, prev, role);
      forall i :: 0 <= i < |users| && users[i].role == role ==> EmailIn(r, users[i].email)
  {
    var r := SelectRole(users, prev, role);
    forall i | 0 <= i < |users| && users[i].role == role ensures EmailIn(r, users[i].email) {
      if EmailIn(prev, users[i].email) {
        var k :| 0 <= k < |prev| && prev[k].email == users[i].email;
        assert r[k] == prev[k];
      } else {
        var k :| 0 <= k < |r[|prev|..]| && r[|prev|..][k] == users[i];
        assert r[|prev| + k] == users[i];
      }
    }
  }

  /** Selecting the same role twice adds nothing the second time. */
  lemma SelectRoleIdempotent(users: seq<PlannerUser>, prev: seq<PlannerUser>, role: string)
    ensures SelectRole(users, SelectRole(users, prev, role), role) == SelectRole(users, prev, role)
  {
    var once := SelectRole(users, prev, role);
    var withRole := Filter(users, WithRole(role));
    SelectRoleCoversRole(users, prev, role);
    forall i | 0 <= i < |withRole| ensures !NotListed(once)(withRole[i]) {
      var j :| 0 <= j < |users| && users[j] == withRole[i];
    }
    FilterNone(withRole, NotListed(once));
    assert SelectRole(users, once, role) == once + [];
  }

  // ---------------------------------------------------------------------
  // handleSubmit (EventPlanner.jsx:62-109)
  // ---------------------------------------------------------------------

  datatype Submission = Warning | Post(payload: EventRoutes.EventForm)

  function UserIdsOf(attendees: seq<PlannerUser>): (r: seq<int>)
    ensures |r| == |attendees|
    ensures forall i :: 0 <= i < |attendees| ==> r[i] == attendees[i].userId
  {
    seq(|attendees|, i requires 0 <= i < |attendees| => attendees[i].userId)
  }

  predicate Complete(p: Planner) {
    p.title != "" && p.eventTime != "" && p.eventDate.Some? && |p.attendees| > 0
  }

  /** `localStorage.getItem("userId")`: the stored text, or null. */
  function StoredUserId(stored: Option<string>): JsValue {
    if stored.Some? then JsString(stored.value) else JsNull
  }

  /** A warning and no request when a field is empty or nobody is invited;
      otherwise the POST body, with the attendees' user ids in order. */
  function Submit(p: Planner, stored: Option<string>): (s: Submission)
    ensures s.Warning? <==> !Complete(p)
    ensures s.Post? ==>
      s.payload.title == Some(p.title) && s.payload.eventDate == p.eventDate &&
      s.payload.eventTime == Some(p.eventTime) &&
      s.payload.createdBy == StoredUserId(stored) &&
      s.payload.attendees == EventRoutes.AttendeeIds(UserIdsOf(p.attendees)) &&
      s.payload.description == Some(p.description)
  {
    if !Complete(p) then Warning
    else
      Post(EventRoutes.EventForm(
        Some(p.title), p.eventDate, Some(p.eventTime), StoredUserId(stored),
        EventRoutes.AttendeeIds(UserIdsOf(p.attendees)), Some(p.description)))
  }

  /** After the response: a 201 clears the dialog; anything else keeps it. */
  function AfterResponse(p: Planner, status: int): (q: Planner)
    ensures status == 201 ==>
      q.title == "" && q.eventDate.None? && q.eventTime == "" && q.attendees == [] && q.description == ""
    ensures status != 201 ==> q == p
  {
    if status == 201 then Planner("", None, "", [], "") else p
  }

  /** Whatever the dialog posts passes the server's field checks as long as
      a user id is stored; committed with a numeric id, it creates the
      event and one attendance row per attendee, in the dialog's order. */
  lemma PlannerPostIsAccepted(p: Planner, stored: Option<string>, st: EventRoutes.EventStore, now: int)
    requires Submit(p, stored).Post?
    requires stored.Some? && stored.value != ""
    ensures EventRoutes.ValidEvent(Submit(p, stored).payload)
    ensures EventRoutes.IsDecimal(stored.value) ==>
      var out := EventRoutes.CreateEvent(st, Submit(p, stored).payload, now, EventRoutes.Commits);
      out.1.status == 201 &&
      |out.0.attendance| == |st.attendance| + |p.attendees| &&
      forall i :: 0 <= i < |p.attendees| ==>
        out.0.attendance[|st.attendance| + i] == EventRoutes.Attendance(st.nextEventId, p.attendees[i].userId)
  {
  }
}

=== FILE: event_routes.dfy ===
/** The calendar routes of backend/src/routes/EventRoutes.js: POST /events
    validates a new event and inserts it with its attendees in one
    transaction; GET /events purges past events, selects the rows of the
    events a user created or attends, and groups them into one entry per
    event. */
module EventRoutes {
  import opened Common
  import opened Schema

  datatype Event = Event(
    eventId: int, title: string, eventDate: int, eventTime: string,
    createdBy: int, description: Option<string>, createdAt: int)

  datatype Attendance = Attendance(eventId: int, userId: int)

  /** The `events` and `event_attendees` tables, the `users` table they join,
      and the next `event_id`. */
  datatype EventStore = EventStore(
    users: seq<User>, events: seq<Event>, attendance: seq<Attendance>, nextEventId: int)

  datatype EventEntry = EventEntry(
    eventId: int, title: string, eventDate: int, eventTime: string,
    description: Option<string>, createdAt: int, creator: Creator,
    attendees: seq<AttendeeInfo>, isCreator: bool)

  /** The creator object; the names are null when the creator's user row is gone. */
  datatype Creator = Creator(userId: int, firstName: Option<string>, lastName: Option<string>)

  datatype AttendeeInfo = AttendeeInfo(userId: int, firstName: string, lastName: string, email: string)

  datatype EventBody = EventMessage(text: string) | EventList(events: seq<EventEntry>)

  datatype EventResponse = EventResponse(status: int, body: EventBody)

  // ---------------------------------------------------------------------
  // JavaScript values in the request
  // ---------------------------------------------------------------------

  /** `!!v` for the values a JSON body or query string can carry here. */
  predicate Truthy(v: JsValue) {
    match v
    case JsNumber(n) => n != 0
    case JsString(s) => s != ""
    case JsNull => false
  }

  predicate IsDecimal(s: string) {
    |s| > 0 && forall i :: 0 <= i < |s| ==> '0' <= s[i] <= '9'
  }

  function DigitsValue(s: string): nat
    requires forall i :: 0 <= i < |s| ==> '0' <= s[i] <= '9'
    decreases |s|
  {
    if s == [] then 0
    else DigitsValue(s[..|s| - 1]) * 10 + (s[|s| - 1] as int - '0' as int)
  }

  /** The integer a decimal string denotes, if it is one. */
  function DecimalValue(s: string): (r: Option<int>)
    ensures r.Some? <==> IsDecimal(s)
    ensures r.Some? ==> r.value >= 0
  {
    if IsDecimal(s) then Some(DigitsValue(s)) else None
  }

  lemma DecimalExamples()
    ensures DecimalValue("42") == Some(42)
    ensures DecimalValue("") == None && DecimalValue("4a") == None
  {
    assert "4"[..0] == "";
    assert DigitsValue("4") == 4;
    assert "42"[..1] == "4";
    assert DigitsValue("42") == 42;
    assert !IsDecimal("4a") by { assert !('0' <= "4a"[1] <= '9'); }
  }

  function Digit(d: int): char
    requires 0 <= d < 10
  {
    ('0' as int + d) as char
  }

  /** The numeral of `n` without leading zeros, as a client writes a user
      id into the query string. */
  function DecimalText(n: nat): (s: string)
    ensures IsDecimal(s) && (s[0] == '0' <==> n == 0)
    decreases n
  {
    if n < 10 then [Digit(n)] else DecimalText(n / 10) + [Digit(n % 10)]
  }

  /** Reading back the numeral of a number gives that number. */
  lemma {:induction false} DecimalTextRoundTrip(n: nat)
    ensures DecimalValue(DecimalText(n)) == Some(n)
    decreases n
  {
    var s := DecimalText(n);
    if n < 10 {
      assert s[..0] == [];
      assert DigitsValue(s) == DigitsValue([]) * 10 + n;
    } else {
      DecimalTextRoundTrip(n / 10);
      var t := DecimalText(n / 10);
      assert s[..|s| - 1] == t;
    }
  }

  /** The value an INT column stores for the `created_by` the client sends:
      a number as is, a decimal string converted; anything else makes the
      insert fail. */
  function ColumnInt(v: JsValue): (r: Option<int>)
    ensures v.JsNumber? ==> r == Some(v.n)
    ensures v.JsNull? ==> r.None?
  {
    match v
    case JsNumber(n) => Some(n)
    case JsString(s) => DecimalValue(s)
    case JsNull => None
  }

  // ---------------------------------------------------------------------
  // POST /events
  // ---------------------------------------------------------------------

  /** `attendees` in the body: not an array, or the array of user ids. */
  datatype AttendeesJson = NotAnArray | AttendeeIds(ids: seq<int>)

  /** The body of POST /events. Dates are abstract day numbers; a field that
      is absent or the empty string is `None`. */
  datatype EventForm = EventForm(
    title: Option<string>, eventDate: Option<int>, eventTime: Option<string>,
    createdBy: JsValue, attendees: AttendeesJson, description: Option<string>)

  predicate Present(s: Option<string>) { s.Some? && s.value != "" }

  /** The checks of EventRoutes.js:12-24. */
  predicate ValidEvent(f: EventForm) {
    Present(f.title) && f.eventDate.Some? && Present(f.eventTime) && Truthy(f.createdBy) &&
    f.attendees.AttendeeIds? && |f.attendees.ids| > 0
  }

  function AttendanceRows(eventId: int, ids: seq<int>): (r: seq<Attendance>)
    ensures |r| == |ids|
    ensures forall i :: 0 <= i < |ids| ==> r[i] == Attendance(eventId, ids[i])
  {
    seq(|ids|, i requires 0 <= i < |ids| => Attendance(eventId, ids[i]))
  }

  /** How the transaction of EventRoutes.js:28-70 ends: every statement
      succeeds; a statement before the event INSERT fails (the connection
      or BEGIN); or a statement after it fails (the attendee INSERT or the
      COMMIT). InnoDB does not give back an auto-increment value on
      rollback, so in the last case the event id the INSERT took is spent. */
  datatype Transaction = Commits | FailsBeforeEvent | FailsAfterEvent

  /** POST /events (EventRoutes.js:7-83). A `created_by` the INT column
      cannot store makes the event INSERT itself fail. */
  function CreateEvent(st: EventStore, f: EventForm, now: int, tx: Transaction): (out: (EventStore, EventResponse))
    ensures !ValidEvent(f) ==> out.0 == st && out.1.status == 400
    ensures out.1.status == 201 <==> ValidEvent(f) && tx.Commits? && ColumnInt(f.createdBy).Some?
    ensures out.1.status != 201 ==>
      out.0.events == st.events && out.0.attendance == st.attendance && out.0.users == st.users
    ensures out.0.nextEventId == st.nextEventId || out.0.nextEventId == st.nextEventId + 1
    ensures out.0.nextEventId == st.nextEventId + 1 <==>
      ValidEvent(f) && ColumnInt(f.createdBy).Some? && !tx.FailsBeforeEvent?
    ensures out.1.status == 201 ==>
      out.0.events == st.events +
        [Event(st.nextEventId, f.title.value, f.eventDate.value, f.eventTime.value,
               ColumnInt(f.createdBy).value,
               if Present(f.description) then f.description else None, now)] &&
      out.0.attendance == st.attendance + AttendanceRows(st.nextEventId, f.attendees.ids) &&
      out.0.users == st.users
    ensures ValidEvent(f) && out.1.status != 201 ==> out.1.status == 500
  {
    if !(Present(f.title) && f.eventDate.Some? && Present(f.eventTime) && Truthy(f.createdBy)) then
      (st, EventResponse(400, EventMessage("Missing required fields: title, event_date, event_time, created_by")))
    else if !f.attendees.AttendeeIds? || |f.attendees.ids| == 0 then
      (st, EventResponse(400, EventMessage("Attendees must be a non-empty array")))
    else if tx.FailsBeforeEvent? || ColumnInt(f.createdBy).None? then
      (st, EventResponse(500, EventMessage("An error occurred while creating the event")))
    else if tx.FailsAfterEvent? then
      (st.(nextEventId := st.nextEventId + 1),
       EventResponse(500, EventMessage("An error occurred while creating the event")))
    else
      var e := Event(st.nextEventId, f.title.value, f.eventDate.value, f.eventTime.value,
                     ColumnInt(f.createdBy).value,
                     if Present(f.description) then f.description else None, now);
      (st.(events := st.events + [e],
           attendance := st.attendance + AttendanceRows(e.eventId, f.attendees.ids),
           nextEventId := st.nextEventId + 1),
       EventResponse(201, EventMessage("Event and attendees created successfully")))
  }

  /** Every stored event id lies below the next auto-increment value, and no
      two events share an id. */
  predicate IdsFresh(st: EventStore) {
    (forall i :: 0 <= i < |st.events| ==> st.events[i].eventId < st.nextEventId) &&
    (forall i, j :: 0 <= i < j < |st.events| ==> st.events[i].eventId != st.events[j].eventId)
  }

  /** Whatever the transaction does, including spending an id on rollback,
      event ids stay unique. */
  lemma CreateEventKeepsIdsFresh(st: EventStore, f: EventForm, now: int, tx: Transaction)
    requires IdsFresh(st)
    ensures IdsFresh(CreateEvent(st, f, now, tx).0)
  {
  }

  // ---------------------------------------------------------------------
  // GET /events: purge and query
  // ---------------------------------------------------------------------

  /** The moment of a request: its day, and the milliseconds elapsed since
      that day's midnight. */
  datatype Instant = Instant(day: int, msOfDay: nat)

  /** `event_date < ?` with `new Date()` as the parameter: the DATE column
      compares as the midnight that starts its day, so once any time has
      passed since midnight an event dated today is past as well. */
  predicate PastAsWritten(e: Event, now: Instant) {
    e.eventDate < now.day || (e.eventDate == now.day && now.msOfDay > 0)
  }

  /** The purge as written (EventRoutes.js:87-97). */
  function PurgeAsWritten(events: seq<Event>, now: Instant): (r: seq<Event>)
    ensures forall i :: 0 <= i < |r| ==> r[i] in events && !PastAsWritten(r[i], now)
    ensures forall i :: 0 <= i < |events| && !PastAsWritten(events[i], now) ==> events[i] in r
  {
    Filter(events, (e: Event) => !PastAsWritten(e, now))
  }

  /** The purge of events dated before `today`, which keeps today's events
      as the comment at EventRoutes.js:90 intends. */
  function Purge(events: seq<Event>, today: int): (r: seq<Event>)
    ensures forall i :: 0 <= i < |r| ==> r[i] in events && r[i].eventDate >= today
    ensures forall i :: 0 <= i < |events| && events[i].eventDate >= today ==> events[i] in r
  {
    Filter(events, (e: Event) => !(e.eventDate < today))
  }

  /** Any time after midnight, the purge as written deletes an event dated
      that day, which the corrected purge keeps. */
  lemma PurgeAsWrittenDropsToday(events: seq<Event>, now: Instant, i: int)
    requires 0 <= i < |events| && events[i].eventDate == now.day && now.msOfDay > 0
    ensures events[i] !in PurgeAsWritten(events, now)
    ensures events[i] in Purge(events, now.day)
  {
  }

  /** At midnight exactly the two purges agree. */
  lemma PurgesAgreeAtMidnight(events: seq<Event>, now: Instant)
    requires now.msOfDay == 0
    ensures PurgeAsWritten(events, now) == Purge(events, now.day)
  {
    FilterCongruent(events, (e: Event) => !PastAsWritten(e, now), (e: Event) => !(e.eventDate < now.day));
  }

  /** One row of the GET query: the event, its creator's names, the
      attendance row's user id (`ea.user_id`) and the attendee's user row. */
  datatype EventRow = EventRow(
    event: Event, creatorFirst: Option<string>, creatorLast: Option<string>,
    attendeeKey: Option<int>, attendee: Option<AttendeeInfo>)

  function IdOf(r: EventRow): int { r.event.eventId }

  /** `LEFT JOIN users attendee ON ea.user_id = attendee.userId`. */
  function AttendeeOf(users: seq<User>, userId: int): (r: Option<AttendeeInfo>)
    ensures r.Some? <==> exists i :: 0 <= i < |users| && users[i].userId == userId
    ensures r.Some? ==> r.value.userId == userId
  {
    match UserById(users, userId)
    case Some(u) => Some(AttendeeInfo(u.userId, u.firstName, u.lastName, u.email))
    case None => None
  }

  function AttendanceOf(st: EventStore, e: Event): seq<Attendance> {
    Filter(st.attendance, (a: Attendance) => a.eventId == e.eventId)
  }

  /** `x` is a row the three LEFT JOINs can produce for `e`: the creator's
      names from the users table (null without a user row), and either an
      attendance row of the event with its user's columns, or null attendee
      columns when the event has no attendance row at all. */
  predicate JoinRow(st: EventStore, e: Event, x: EventRow) {
    x.event == e &&
    (match UserById(st.users, e.createdBy)
     case Some(u) => x.creatorFirst == Some(u.firstName) && x.creatorLast == Some(u.lastName)
     case None => x.creatorFirst.None? && x.creatorLast.None?) &&
    match x.attendeeKey
    case Some(a) => Attendance(e.eventId, a) in st.attendance && x.attendee == AttendeeOf(st.users, a)
    case None => x.attendee.None? && forall b :: b in st.attendance ==> b.eventId != e.eventId
  }

  /** The LEFT JOINs for one event: one row per attendance row, or a single
      row with null attendee columns when it has none. */
  function JoinedRows(st: EventStore, e: Event): (r: seq<EventRow>)
    ensures |r| > 0
    ensures forall k :: 0 <= k < |r| ==> JoinRow(st, e, r[k])
  {
    var c := UserById(st.users, e.createdBy);
    var first := if c.Some? then Some(c.value.firstName) else None;
    var last := if c.Some? then Some(c.value.lastName) else None;
    var rows := AttendanceOf(st, e);
    if rows == [] then
      [EventRow(e, first, last, None, None)]
    else
      seq(|rows|, i requires 0 <= i < |rows| =>
        EventRow(e, first, last, Some(rows[i].userId), AttendeeOf(st.users, rows[i].userId)))
  }

  /** Every attendance row of the event gives a joined row naming its user. */
  lemma JoinedRowsCover(st: EventStore, e: Event, a: Attendance)
    requires a in st.attendance && a.eventId == e.eventId
    ensures exists k :: 0 <= k < |JoinedRows(st, e)| && JoinedRows(st, e)[k].attendeeKey == Some(a.userId)
  {
    var rows := AttendanceOf(st, e);
    assert a in rows;
    var k :| 0 <= k < |rows| && rows[k] == a;
    assert JoinedRows(st, e)[k].attendeeKey == Some(a.userId);
  }

  /** The joined rows are all the rows the joins can produce: a row is
      determined by its event and its attendee key. */
  lemma {:induction false} JoinRowIsJoined(st: EventStore, e: Event, x: EventRow)
    requires JoinRow(st, e, x)
    ensures x in JoinedRows(st, e)
  {
    var r := JoinedRows(st, e);
    if x.attendeeKey.Some? {
      JoinedRowsCover(st, e, Attendance(e.eventId, x.attendeeKey.value));
      var k :| 0 <= k < |r| && r[k].attendeeKey == x.attendeeKey;
      assert JoinRow(st, e, r[k]);
      assert r[k] == x;
    } else {
      FilterNone(st.attendance, (a: Attendance) => a.eventId == e.eventId);
      assert r[0] == x;
    }
  }

  /** The joined rows of the events, event by event. */
  function RowsOf(st: EventStore, events: seq<Event>): (r: seq<EventRow>)
    decreases |events|
  {
    if events == [] then [] else JoinedRows(st, events[0]) + RowsOf(st, events[1..])
  }

  /** Every joined row belongs to one of the events. */
  lemma {:induction false} RowsOfEvents(st: EventStore, events: seq<Event>)
    ensures forall k :: 0 <= k < |RowsOf(st, events)| ==> RowsOf(st, events)[k].event in events
    decreases |events|
  {
    if events != [] {
      RowsOfEvents(st, events[1..]);
      var head := JoinedRows(st, events[0]);
      var rest := RowsOf(st, events[1..]);
      var r: seq<EventRow> := head + rest;
      forall k | 0 <= k < |r| ensures r[k].event in events {
        if k >= |head| {
          assert r[k] == rest[k - |head|];
        }
      }
    }
  }

  /** Every row is one the joins can produce for its event. */
  lemma {:induction false} RowsOfSound(st: EventStore, events: seq<Event>)
    ensures forall k :: 0 <= k < |RowsOf(st, events)| ==>
      RowsOf(st, events)[k].event in events && JoinRow(st, RowsOf(st, events)[k].event, RowsOf(st, events)[k])
    decreases |events|
  {
    if events != [] {
      RowsOfSound(st, events[1..]);
      var head := JoinedRows(st, events[0]);
      var rest := RowsOf(st, events[1..]);
      var r: seq<EventRow> := head + rest;
      forall k | 0 <= k < |r| ensures r[k].event in events && JoinRow(st, r[k].event, r[k]) {
        if k < |head| {
          assert r[k] == head[k] && JoinRow(st, events[0], head[k]);
        } else {
          var x := rest[k - |head|];
          assert r[k] == x && x.event in events[1..] && JoinRow(st, x.event, x);
        }
      }
    }
  }

  /** Every joined row of a listed event is among the rows. */
  lemma {:induction false} RowsOfContains(st: EventStore, events: seq<Event>, i: int, x: EventRow)
    requires 0 <= i < |events| && x in JoinedRows(st, events[i])
    ensures x in RowsOf(st, events)
    decreases |events|
  {
    if i == 0 {
      InConcat(JoinedRows(st, events[0]), RowsOf(st, events[1..]), x);
    } else {
      assert events[1..][i - 1] == events[i];
      RowsOfContains(st, events[1..], i - 1, x);
      InConcat(JoinedRows(st, events[0]), RowsOf(st, events[1..]), x);
    }
  }

  /** Membership in a concatenation, stated once for the row lists above. */
  lemma InConcat<T>(a: seq<T>, b: seq<T>, x: T)
    ensures x in a + b <==> x in a || x in b
  {
  }

  /** Each event has a joined row, and one per attendance row when it has them. */
  lemma {:induction false} RowsOfComplete(st: EventStore, events: seq<Event>, i: int, a: Option<Attendance>)
    requires 0 <= i < |events|
    requires a.Some? ==> a.value in st.attendance && a.value.eventId == events[i].eventId
    ensures exists k :: (0 <= k < |RowsOf(st, events)| && RowsOf(st, events)[k].event == events[i] &&
      (a.Some? ==> RowsOf(st, events)[k].attendeeKey == Some(a.value.userId)))
    decreases |events|
  {
    var head := JoinedRows(st, events[0]);
    var rest := RowsOf(st, events[1..]);
    assert RowsOf(st, events) == head + rest;
    if i == 0 {
      var k := 0;
      if a.Some? {
        JoinedRowsCover(st, events[0], a.value);
        k :| 0 <= k < |head| && head[k].attendeeKey == Some(a.value.userId);
      }
      assert head[k].event == events[i];
      assert (head + rest)[k] == head[k];
    } else {
      RowsOfComplete(st, events[1..], i - 1, a);
      var k :| 0 <= k < |rest| && rest[k].event == events[1..][i - 1] &&
        (a.Some? ==> rest[k].attendeeKey == Some(a.value.userId));
      assert events[1..][i - 1] == events[i];
      assert (head + rest)[|head| + k] == rest[k];
    }
  }

  /** Events ordered by date give rows ordered by date. */
  lemma {:induction false} RowsOfSorted(st: EventStore, events: seq<Event>)
    requires SortedDesc(events, (e: Event) => e.eventDate)
    ensures SortedDesc(RowsOf(st, events), (x: EventRow) => x.event.eventDate)
    decreases |events|
  {
    if events != [] {
      RowsOfSorted(st, events[1..]);
      RowsOfEvents(st, events[1..]);
      var head := JoinedRows(st, events[0]);
      var rest := RowsOf(st, events[1..]);
      assert forall k :: 0 <= k < |head| ==> head[k].event == events[0];
      forall j | 0 <= j < |rest| ensures events[0].eventDate >= rest[j].event.eventDate {
        var m :| 0 <= m < |events[1..]| && events[1..][m] == rest[j].event;
        assert events[m + 1] == rest[j].event;
      }
      AppendSorted(head, rest, (x: EventRow) => x.event.eventDate);
    }
  }

  /** The query's user id: `user_id` arrives as text. */
  predicate Visible(r: EventRow, uid: Option<int>) {
    uid.Some? && (r.attendeeKey == Some(uid.value) || r.event.createdBy == uid.value)
  }

  function VisibleTo(uid: Option<int>): EventRow -> bool {
    (x: EventRow) => Visible(x, uid)
  }

  /** The event's creator is the user, or an attendance row names the user. */
  predicate Involved(st: EventStore, e: Event, uid: int) {
    e.createdBy == uid || Attendance(e.eventId, uid) in st.attendance
  }

  function ByDate(events: seq<Event>): (r: seq<Event>)
    ensures SortedDesc(r, (e: Event) => e.eventDate)
    ensures multiset(r) == multiset(events)
  {
    SortDesc(events, (e: Event) => e.eventDate)
  }

  /** The SELECT of EventRoutes.js:100-113, `ORDER BY e.event_date DESC`:
      rows of the events the user created or attends, newest date first. */
  function QueryRows(st: EventStore, uid: Option<int>): (r: seq<EventRow>)
    ensures forall k :: 0 <= k < |r| ==>
      r[k].event in st.events && JoinRow(st, r[k].event, r[k]) && Visible(r[k], uid)
    ensures forall i, x :: 0 <= i < |st.events| && JoinRow(st, st.events[i], x) && Visible(x, uid) ==> x in r
    ensures uid.Some? ==> forall k :: 0 <= k < |r| ==> Involved(st, r[k].event, uid.value)
    ensures uid.Some? ==> forall i :: 0 <= i < |st.events| && Involved(st, st.events[i], uid.value) ==>
      exists k :: 0 <= k < |r| && r[k].event == st.events[i]
    ensures SortedDesc(r, (x: EventRow) => x.event.eventDate)
  {
    var evs := ByDate(st.events);
    var all := RowsOf(st, evs);
    var r := Filter(all, VisibleTo(uid));
    QueryRowsSound(st, uid);
    forall i, x | 0 <= i < |st.events| && JoinRow(st, st.events[i], x) && Visible(x, uid)
      ensures x in r
    {
      JoinRowIsJoined(st, st.events[i], x);
      var m := InByDate(st.events, i);
      RowsOfContains(st, evs, m, x);
    }
    assert uid.Some? ==> forall i :: 0 <= i < |st.events| && Involved(st, st.events[i], uid.value) ==>
      exists k :: 0 <= k < |r| && r[k].event == st.events[i] by {
      if uid.Some? {
        forall i | 0 <= i < |st.events| && Involved(st, st.events[i], uid.value)
          ensures exists k :: 0 <= k < |r| && r[k].event == st.events[i]
        {
          QueryRowsComplete(st, uid.value, i);
        }
      }
    }
    RowsOfSorted(st, evs);
    FilterSorted(all, VisibleTo(uid), (x: EventRow) => x.event.eventDate);
    r
  }

  lemma QueryRowsSound(st: EventStore, uid: Option<int>)
    ensures var r := Filter(RowsOf(st, ByDate(st.events)), VisibleTo(uid));
      forall k :: 0 <= k < |r| ==>
        r[k].event in st.events && JoinRow(st, r[k].event, r[k]) && Visible(r[k], uid) &&
        Involved(st, r[k].event, uid.value)
  {
    var evs := ByDate(st.events);
    var all := RowsOf(st, evs);
    var r := Filter(all, VisibleTo(uid));
    RowsOfSound(st, evs);
    forall k | 0 <= k < |r|
      ensures r[k].event in st.events && JoinRow(st, r[k].event, r[k]) && Visible(r[k], uid) &&
        Involved(st, r[k].event, uid.value)
    {
      assert r[k] in all;
      assert r[k].event in multiset(evs);
    }
  }

  lemma QueryRowsComplete(st: EventStore, uid: int, i: int)
    requires 0 <= i < |st.events| && Involved(st, st.events[i], uid)
    ensures var r := Filter(RowsOf(st, ByDate(st.events)), VisibleTo(Some(uid)));
      exists k :: 0 <= k < |r| && r[k].event == st.events[i]
  {
    var evs := ByDate(st.events);
    var all := RowsOf(st, evs);
    var r := Filter(all, VisibleTo(Some(uid)));
    var e := st.events[i];
    var m := InByDate(st.events, i);
    var a := if e.createdBy == uid then None else Some(Attendance(e.eventId, uid));
    RowsOfComplete(st, evs, m, a);
    var k :| 0 <= k < |all| && all[k].event == evs[m] &&
      (a.Some? ==> all[k].attendeeKey == Some(a.value.userId));
    assert Visible(all[k], Some(uid));
    assert all[k] in r;
    var j :| 0 <= j < |r| && r[j] == all[k];
    assert r[j].event == st.events[i];
    assert exists k :: 0 <= k < |r| && r[k].event == st.events[i];
    assert r == Filter(RowsOf(st, ByDate(st.events)), VisibleTo(Some(uid)));
  }

  /** Where the sort put the `i`-th event. */
  lemma InByDate(events: seq<Event>, i: int) returns (m: int)
    requires 0 <= i < |events|
    ensures 0 <= m < |ByDate(events)| && ByDate(events)[m] == events[i]
  {
    var evs := ByDate(events);
    assert events[i] in multiset(evs);
    m :| 0 <= m < |evs| && evs[m] == events[i];
  }

  /** Filtering keeps a sorted sequence sorted. */
  lemma {:induction false} FilterSorted<T>(s: seq<T>, p: T -> bool, key: T -> int)
    requires SortedDesc(s, key)
    ensures SortedDesc(Filter(s, p), key)
    decreases |s|
  {
    if s != [] {
      FilterSorted(s[1..], p, key);
      var rest := Filter(s[1..], p);
      if p(s[0]) {
        forall j | 0 <= j < |rest| ensures key(s[0]) >= key(rest[j]) {
          assert rest[j] in s[1..];
          var m :| 0 <= m < |s[1..]| && s[1..][m] == rest[j];
          assert s[m + 1] == rest[j];
        }
        assert Filter(s, p) == [s[0]] + rest;
        ConsSorted(s[0], rest, key);
      } else {
        assert Filter(s, p) == rest;
      }
    }
  }

  // ---------------------------------------------------------------------
  // Grouping rows into events (EventRoutes.js:116-147)
  // ---------------------------------------------------------------------

  /** `if (row.attendee_userId)`: the row names an attendee whose id is not 0. */
  predicate Pushes(r: EventRow) {
    r.attendee.Some? && r.attendee.value.userId != 0
  }

  function Pushed(r: EventRow): seq<AttendeeInfo> {
    if Pushes(r) then [r.attendee.value] else []
  }

  /** Reference definition: the attendees of the rows with that event id, in row order. */
  function AttendeesOf(rows: seq<EventRow>, id: int): seq<AttendeeInfo>
    decreases |rows|
  {
    if rows == [] then []
    else
      var last := rows[|rows| - 1];
      AttendeesOf(rows[..|rows| - 1], id) + (if IdOf(last) == id then Pushed(last) else [])
  }

  predicate Occurs(rows: seq<EventRow>, id: int) {
    exists k :: 0 <= k < |rows| && IdOf(rows[k]) == id
  }

  function FirstIndex(rows: seq<EventRow>, id: int): (k: nat)
    requires Occurs(rows, id)
    ensures k < |rows| && IdOf(rows[k]) == id
    ensures forall j :: 0 <= j < k ==> IdOf(rows[j]) != id
    decreases |rows|
  {
    if IdOf(rows[0]) == id then 0
    else
      assert Occurs(rows[1..], id) by {
        var k :| 0 <= k < |rows| && IdOf(rows[k]) == id;
        assert rows[1..][k - 1] == rows[k];
      }
      1 + FirstIndex(rows[1..], id)
  }

  /** The first index is determined by its two defining properties. */
  lemma FirstIndexUnique(rows: seq<EventRow>, id: int, k: int)
    requires 0 <= k < |rows| && IdOf(rows[k]) == id
    requires forall j :: 0 <= j < k ==> IdOf(rows[j]) != id
    ensures Occurs(rows, id) && FirstIndex(rows, id) == k
  {
    assert Occurs(rows, id);
  }

  /** Appending a row does not move the first row of an event already present. */
  lemma FirstIndexPrefix(rows: seq<EventRow>, id: int)
    requires rows != [] && Occurs(rows[..|rows| - 1], id)
    ensures Occurs(rows, id) && FirstIndex(rows, id) == FirstIndex(rows[..|rows| - 1], id)
  {
    var prefix := rows[..|rows| - 1];
    var k := FirstIndex(prefix, id);
    assert IdOf(rows[k]) == id by { assert rows[k] == prefix[k]; }
    assert forall j :: 0 <= j < k ==> IdOf(rows[j]) != id by {
      forall j | 0 <= j < k ensures IdOf(rows[j]) != id {
        assert rows[j] == prefix[j];
      }
    }
    FirstIndexUnique(rows, id, k);
  }

  lemma {:induction false} AttendeesAbsent(rows: seq<EventRow>, id: int)
    requires !Occurs(rows, id)
    ensures AttendeesOf(rows, id) == []
    decreases |rows|
  {
    if rows != [] {
      var prefix := rows[..|rows| - 1];
      assert !Occurs(prefix, id);
      AttendeesAbsent(prefix, id);
      assert IdOf(rows[|rows| - 1]) != id;
    }
  }

  /** The entry the first row of an event creates, before any attendee. */
  function NewEntry(r: EventRow, isMine: int -> bool): EventEntry {
    EventEntry(r.event.eventId, r.event.title, r.event.eventDate, r.event.eventTime,
               r.event.description, r.event.createdAt,
               Creator(r.event.createdBy, r.creatorFirst, r.creatorLast),
               [], isMine(r.event.createdBy))
  }

  /** What grouping must produce for an event that occurs in the rows: the
      header of its first row and the attendees of all its rows. */
  function EntryFor(rows: seq<EventRow>, id: int, isMine: int -> bool): EventEntry
    requires Occurs(rows, id)
  {
    NewEntry(rows[FirstIndex(rows, id)], isMine).(attendees := AttendeesOf(rows, id))
  }

  predicate HasEntry(entries: seq<EventEntry>, id: int) {
    exists i :: 0 <= i < |entries| && entries[i].eventId == id
  }

  predicate DistinctIds(entries: seq<EventEntry>) {
    forall i, j :: 0 <= i < j < |entries| ==> entries[i].eventId != entries[j].eventId
  }

  /** The position of the first entry with that id. */
  function EntryIndex(entries: seq<EventEntry>, id: int): (i: nat)
    requires HasEntry(entries, id)
    ensures i < |entries| && entries[i].eventId == id
    ensures forall j :: 0 <= j < i ==> entries[j].eventId != id
    decreases |entries|
  {
    if entries[0].eventId == id then 0
    else
      assert HasEntry(entries[1..], id) by {
        var k :| 0 <= k < |entries| && entries[k].eventId == id;
        assert entries[1..][k - 1] == entries[k];
      }
      1 + EntryIndex(entries[1..], id)
  }

  /** The body of `results.forEach`: a new entry for a new event id, or the
      row's attendee pushed onto the existing entry. */
  function AddRow(entries: seq<EventEntry>, r: EventRow, isMine: int -> bool): seq<EventEntry> {
    if HasEntry(entries, IdOf(r)) then
      var i := EntryIndex(entries, IdOf(r));
      entries[i := entries[i].(attendees := entries[i].attendees + Pushed(r))]
    else
      entries + [NewEntry(r, isMine).(attendees := Pushed(r))]
  }

  /** Every event of the rows has an entry. */
  ghost predicate Covers(rows: seq<EventRow>, entries: seq<EventEntry>) {
    forall k :: 0 <= k < |rows| ==> HasEntry(entries, IdOf(rows[k]))
  }

  /** Every entry is what its event's rows determine. */
  ghost predicate Faithful(rows: seq<EventRow>, entries: seq<EventEntry>, isMine: int -> bool) {
    forall i :: 0 <= i < |entries| ==>
      Occurs(rows, entries[i].eventId) && entries[i] == EntryFor(rows, entries[i].eventId, isMine)
  }

  /** The entries come in the order their events first appear in the rows. */
  ghost predicate InFirstOrder(rows: seq<EventRow>, entries: seq<EventEntry>) {
    forall i, j :: 0 <= i < j < |entries| && Occurs(rows, entries[i].eventId) && Occurs(rows, entries[j].eventId) ==>
      FirstIndex(rows, entries[i].eventId) < FirstIndex(rows, entries[j].eventId)
  }

  /** `entries` is the grouping of `rows`: one entry per distinct event id,
      each equal to `EntryFor`, in the order the events first appear. */
  ghost predicate Grouped(rows: seq<EventRow>, entries: seq<EventEntry>, isMine: int -> bool) {
    DistinctIds(entries) && Covers(rows, entries) && Faithful(rows, entries, isMine) && InFirstOrder(rows, entries)
  }

  /** The `forEach` over the rows: `AddRow` applied to each row in turn. */
  function Group(rows: seq<EventRow>, isMine: int -> bool): seq<EventEntry>
    decreases |rows|
  {
    if rows == [] then []
    else AddRow(Group(rows[..|rows| - 1], isMine), rows[|rows| - 1], isMine)
  }

  /** The row-by-row fold meets the declarative description of grouping. */
  lemma {:induction false} GroupIsGrouped(rows: seq<EventRow>, isMine: int -> bool)
    ensures Grouped(rows, Group(rows, isMine), isMine)
    decreases |rows|
  {
    if rows != [] {
      var prefix := rows[..|rows| - 1];
      var x := rows[|rows| - 1];
      var prev := Group(prefix, isMine);
      GroupIsGrouped(prefix, isMine);
      if HasEntry(prev, IdOf(x)) {
        FoundDistinct(prev, x, isMine);
        FoundCovers(rows, prev, isMine);
        FoundInFirstOrder(rows, prev, isMine);
        FoundFaithful(rows, prev, isMine);
      } else {
        NotOccursWithoutEntry(prefix, prev, IdOf(x));
        NewDistinct(prev, x, isMine);
        NewCovers(rows, prev, isMine);
        NewFaithful(rows, prev, isMine);
        NewInFirstOrder(rows, prev, isMine);
      }
    }
  }

  lemma AddRowFoundIds(prev: seq<EventEntry>, x: EventRow, isMine: int -> bool)
    requires HasEntry(prev, IdOf(x))
    ensures |AddRow(prev, x, isMine)| == |prev|
    ensures forall m :: 0 <= m < |prev| ==> AddRow(prev, x, isMine)[m].eventId == prev[m].eventId
  {
  }

  lemma NotOccursWithoutEntry(prefix: seq<EventRow>, prev: seq<EventEntry>, id: int)
    requires Covers(prefix, prev) && !HasEntry(prev, id)
    ensures !Occurs(prefix, id)
  {
  }

  lemma FoundDistinct(prev: seq<EventEntry>, x: EventRow, isMine: int -> bool)
    requires DistinctIds(prev) && HasEntry(prev, IdOf(x))
    ensures DistinctIds(AddRow(prev, x, isMine))
  {
    AddRowFoundIds(prev, x, isMine);
  }

  lemma {:induction false} FoundCovers(rows: seq<EventRow>, prev: seq<EventEntry>, isMine: int -> bool)
    requires rows != [] && Covers(rows[..|rows| - 1], prev) && HasEntry(prev, IdOf(rows[|rows| - 1]))
    ensures Covers(rows, AddRow(prev, rows[|rows| - 1], isMine))
  {
    var prefix := rows[..|rows| - 1];
    var x := rows[|rows| - 1];
    var r := AddRow(prev, x, isMine);
    AddRowFoundIds(prev, x, isMine);
    forall k | 0 <= k < |rows| ensures HasEntry(r, IdOf(rows[k])) {
      var id := IdOf(rows[k]);
      if k < |prefix| {
        assert rows[k] == prefix[k];
      }
      assert HasEntry(prev, id);
      var m := EntryIndex(prev, id);
      assert r[m].eventId == id;
    }
  }

  lemma {:induction false} FoundInFirstOrder(rows: seq<EventRow>, prev: seq<EventEntry>, isMine: int -> bool)
    requires rows != []
    requires Faithful(rows[..|rows| - 1], prev, isMine) && InFirstOrder(rows[..|rows| - 1], prev)
    requires HasEntry(prev, IdOf(rows[|rows| - 1]))
    ensures InFirstOrder(rows, AddRow(prev, rows[|rows| - 1], isMine))
  {
    var prefix := rows[..|rows| - 1];
    var x := rows[|rows| - 1];
    var r := AddRow(prev, x, isMine);
    AddRowFoundIds(prev, x, isMine);
    forall i, j | 0 <= i < j < |r| && Occurs(rows, r[i].eventId) && Occurs(rows, r[j].eventId)
      ensures FirstIndex(rows, r[i].eventId) < FirstIndex(rows, r[j].eventId)
    {
      FirstIndexPrefix(rows, prev[i].eventId);
      FirstIndexPrefix(rows, prev[j].eventId);
    }
  }

  lemma {:induction false} FoundFaithful(rows: seq<EventRow>, prev: seq<EventEntry>, isMine: int -> bool)
    requires rows != []
    requires DistinctIds(prev) && Faithful(rows[..|rows| - 1], prev, isMine)
    requires HasEntry(prev, IdOf(rows[|rows| - 1]))
    ensures Faithful(rows, AddRow(prev, rows[|rows| - 1], isMine), isMine)
  {
    var prefix := rows[..|rows| - 1];
    var x := rows[|rows| - 1];
    var i := EntryIndex(prev, IdOf(x));
    var r := AddRow(prev, x, isMine);
    AddRowFoundIds(prev, x, isMine);
    forall m | 0 <= m < |r|
      ensures Occurs(rows, r[m].eventId) && r[m] == EntryFor(rows, r[m].eventId, isMine)
    {
      var id := prev[m].eventId;
      FirstIndexPrefix(rows, id);
      assert rows[FirstIndex(prefix, id)] == prefix[FirstIndex(prefix, id)];
      if m == i {
        assert AttendeesOf(rows, id) == AttendeesOf(prefix, id) + Pushed(x);
      } else {
        assert id != IdOf(x);
        assert AttendeesOf(rows, id) == AttendeesOf(prefix, id);
      }
    }
  }

  lemma NewDistinct(prev: seq<EventEntry>, x: EventRow, isMine: int -> bool)
    requires DistinctIds(prev) && !HasEntry(prev, IdOf(x))
    ensures DistinctIds(AddRow(prev, x, isMine))
  {
  }

  lemma {:induction false} NewCovers(rows: seq<EventRow>, prev: seq<EventEntry>, isMine: int -> bool)
    requires rows != [] && Covers(rows[..|rows| - 1], prev) && !HasEntry(prev, IdOf(rows[|rows| - 1]))
    ensures Covers(rows, AddRow(prev, rows[|rows| - 1], isMine))
  {
    var prefix := rows[..|rows| - 1];
    var x := rows[|rows| - 1];
    var r := AddRow(prev, x, isMine);
    forall k | 0 <= k < |rows| ensures HasEntry(r, IdOf(rows[k])) {
      if k < |prefix| {
        assert rows[k] == prefix[k];
        var m := EntryIndex(prev, IdOf(prefix[k]));
        assert r[m] == prev[m];
      } else {
        assert r[|prev|].eventId == IdOf(rows[k]);
      }
    }
  }

  lemma {:induction false} NewFaithful(rows: seq<EventRow>, prev: seq<EventEntry>, isMine: int -> bool)
    requires rows != [] && Faithful(rows[..|rows| - 1], prev, isMine)
    requires !HasEntry(prev, IdOf(rows[|rows| - 1])) && !Occurs(rows[..|rows| - 1], IdOf(rows[|rows| - 1]))
    ensures Faithful(rows, AddRow(prev, rows[|rows| - 1], isMine), isMine)
  {
    var x := rows[|rows| - 1];
    var en := NewEntry(x, isMine).(attendees := Pushed(x));
    var r := AddRow(prev, x, isMine);
    assert r == prev + [en];
    FirstEntryFaithful(rows, isMine);
    forall m | 0 <= m < |r|
      ensures Occurs(rows, r[m].eventId) && r[m] == EntryFor(rows, r[m].eventId, isMine)
    {
      if m < |prev| {
        assert r[m] == prev[m];
        FaithfulAfterOther(rows, prev[m], isMine);
      } else {
        assert r[m] == en;
      }
    }
  }

  /** The entry a row of a new event creates is what the rows determine. */
  lemma {:induction false} FirstEntryFaithful(rows: seq<EventRow>, isMine: int -> bool)
    requires rows != [] && !Occurs(rows[..|rows| - 1], IdOf(rows[|rows| - 1]))
    ensures var x := rows[|rows| - 1];
      Occurs(rows, IdOf(x)) && NewEntry(x, isMine).(attendees := Pushed(x)) == EntryFor(rows, IdOf(x), isMine)
  {
    var prefix := rows[..|rows| - 1];
    var x := rows[|rows| - 1];
    FirstIndexUnique(rows, IdOf(x), |rows| - 1);
    AttendeesAbsent(prefix, IdOf(x));
    assert AttendeesOf(rows, IdOf(x)) == [] + Pushed(x);
  }


  /** An entry its rows determine stays so when a row of another event is
      appended. */
  lemma {:induction false} FaithfulAfterOther(rows: seq<EventRow>, en: EventEntry, isMine: int -> bool)
    requires rows != [] && IdOf(rows[|rows| - 1]) != en.eventId
    requires Occurs(rows[..|rows| - 1], en.eventId) && en == EntryFor(rows[..|rows| - 1], en.eventId, isMine)
    ensures Occurs(rows, en.eventId) && en == EntryFor(rows, en.eventId, isMine)
  {
    var prefix := rows[..|rows| - 1];
    var id := en.eventId;
    FirstIndexPrefix(rows, id);
    assert rows[FirstIndex(prefix, id)] == prefix[FirstIndex(prefix, id)];
    assert AttendeesOf(rows, id) == AttendeesOf(prefix, id);
  }

  lemma {:induction false} NewInFirstOrder(rows: seq<EventRow>, prev: seq<EventEntry>, isMine: int -> bool)
    requires rows != []
    requires Faithful(rows[..|rows| - 1], prev, isMine) && InFirstOrder(rows[..|rows| - 1], prev)
    requires !HasEntry(prev, IdOf(rows[|rows| - 1])) && !Occurs(rows[..|rows| - 1], IdOf(rows[|rows| - 1]))
    ensures InFirstOrder(rows, AddRow(prev, rows[|rows| - 1], isMine))
  {
    var prefix := rows[..|rows| - 1];
    var x := rows[|rows| - 1];
    var r := AddRow(prev, x, isMine);
    assert |r| == |prev| + 1;
    FirstIndexUnique(rows, IdOf(x), |rows| - 1);
    forall i, j | 0 <= i < j < |r| && Occurs(rows, r[i].eventId) && Occurs(rows, r[j].eventId)
      ensures FirstIndex(rows, r[i].eventId) < FirstIndex(rows, r[j].eventId)
    {
      assert r[i] == prev[i];
      FirstIndexPrefix(rows, prev[i].eventId);
      if j < |prev| {
        assert r[j] == prev[j];
        FirstIndexPrefix(rows, prev[j].eventId);
      }
    }
  }

  /** Rows ordered by date give entries ordered by date: each entry takes
      its date from the event's first row. */
  lemma GroupKeepsDateOrder(rows: seq<EventRow>, isMine: int -> bool)
    requires SortedDesc(rows, (x: EventRow) => x.event.eventDate)
    ensures SortedDesc(Group(rows, isMine), (e: EventEntry) => e.eventDate)
  {
    var r := Group(rows, isMine);
    GroupIsGrouped(rows, isMine);
    forall i, j | 0 <= i < j < |r| ensures r[i].eventDate >= r[j].eventDate {
      assert r[i] == EntryFor(rows, r[i].eventId, isMine);
      assert r[j] == EntryFor(rows, r[j].eventId, isMine);
      assert FirstIndex(rows, r[i].eventId) < FirstIndex(rows, r[j].eventId);
    }
  }

  /** Each entry's `is_creator` is the comparison applied to its creator. */
  lemma GroupCreatorFlag(rows: seq<EventRow>, isMine: int -> bool)
    ensures var es := Group(rows, isMine);
      forall i :: 0 <= i < |es| ==> es[i].isCreator == isMine(es[i].creator.userId)
  {
    GroupIsGrouped(rows, isMine);
  }

  // ---------------------------------------------------------------------
  // GET /events
  // ---------------------------------------------------------------------

  /** `is_creator` as written: `row.created_by === user_id`, the number the
      INT column yields against the text of the query string. */
  predicate IsCreatorAsWritten(userIdText: string, createdBy: int) {
    StrictEquals(JsNumber(createdBy), JsString(userIdText))
  }

  /** `is_creator` comparing the creator with the number the text denotes. */
  predicate IsCreator(userIdText: string, createdBy: int) {
    DecimalValue(userIdText) == Some(createdBy)
  }

  /** The entries' event ids increase along the sequence. */
  ghost predicate AscendingIds(es: seq<EventEntry>) {
    forall i, j :: 0 <= i < j < |es| ==> es[i].eventId <= es[j].eventId
  }

  /** `Object.values(eventsMap)`: the map's keys are event ids, which
      JavaScript enumerates in ascending numeric order. */
  function ObjectValues(entries: seq<EventEntry>): (r: seq<EventEntry>)
    ensures AscendingIds(r)
    ensures multiset(r) == multiset(entries)
  {
    SortDesc(entries, (e: EventEntry) => -e.eventId)
  }

  function CreatorTestAsWritten(userIdText: string): int -> bool {
    (c: int) => IsCreatorAsWritten(userIdText, c)
  }

  function CreatorTest(userIdText: string): int -> bool {
    (c: int) => IsCreator(userIdText, c)
  }

  /** A comparison that never holds flags no entry. */
  lemma NoFlagWithoutMatch(rows: seq<EventRow>, isMine: int -> bool)
    requires forall c :: !isMine(c)
    ensures forall k :: 0 <= k < |Group(rows, isMine)| ==> !Group(rows, isMine)[k].isCreator
  {
    GroupCreatorFlag(rows, isMine);
  }

  /** What the listing as written returns: entries by ascending event id,
      none flagged as the user's. */
  ghost predicate ListedAsWritten(es: seq<EventEntry>) {
    AscendingIds(es) && forall i :: 0 <= i < |es| ==> !es[i].isCreator
  }

  /** The strict comparison of a number with text never holds, so no entry
      is flagged as the user's. */
  lemma NeverCreatorAsWritten(rows: seq<EventRow>, userIdText: string)
    ensures ListedAsWritten(ObjectValues(Group(rows, CreatorTestAsWritten(userIdText))))
  {
    var f := CreatorTestAsWritten(userIdText);
    var entries := Group(rows, f);
    var listed := ObjectValues(entries);
    forall c: int ensures !f(c) {
      NumberNeverEqualsString(c, userIdText);
    }
    NoFlagWithoutMatch(rows, f);
    forall i | 0 <= i < |listed| ensures !listed[i].isCreator {
      assert listed[i] in multiset(entries);
      var k :| 0 <= k < |entries| && entries[k] == listed[i];
    }
  }

  /** The entries are the events of `st` the user created or attends, one
      entry each and none dated before `today`; with no user id, none. */
  ghost predicate ListsInvolved(st: EventStore, today: int, uid: Option<int>, es: seq<EventEntry>) {
    DistinctIds(es) &&
    (uid.None? ==> es == []) &&
    (uid.Some? ==>
      (forall i :: 0 <= i < |es| ==> (es[i].eventDate >= today &&
         (exists k :: 0 <= k < |st.events| && st.events[k].eventId == es[i].eventId &&
                      Involved(st, st.events[k], uid.value)))) &&
      (forall k :: 0 <= k < |st.events| && Involved(st, st.events[k], uid.value) ==>
         HasEntry(es, st.events[k].eventId)))
  }

  /** The entries of the rows the query selects for a user: every entry is
      an event still stored that the user created or attends, dated no
      earlier than the purge date. */
  lemma EntriesSound(st: EventStore, today: int, uid: int, isMine: int -> bool)
    requires forall i :: 0 <= i < |st.events| ==> st.events[i].eventDate >= today
    ensures var es := Group(QueryRows(st, Some(uid)), isMine);
      forall i :: 0 <= i < |es| ==> (es[i].eventDate >= today &&
        (exists k :: 0 <= k < |st.events| && st.events[k].eventId == es[i].eventId &&
                     Involved(st, st.events[k], uid)))
  {
    var rows := QueryRows(st, Some(uid));
    var es := Group(rows, isMine);
    GroupIsGrouped(rows, isMine);
    forall i | 0 <= i < |es|
      ensures es[i].eventDate >= today &&
        (exists k :: 0 <= k < |st.events| && st.events[k].eventId == es[i].eventId &&
                     Involved(st, st.events[k], uid))
    {
      var f := FirstIndex(rows, es[i].eventId);
      var e := rows[f].event;
      assert e in st.events && Involved(st, e, uid);
      var k :| 0 <= k < |st.events| && st.events[k] == e;
    }
  }

  /** Every stored event the user created or attends has an entry. */
  lemma EntriesComplete(st: EventStore, uid: int, isMine: int -> bool)
    ensures var es := Group(QueryRows(st, Some(uid)), isMine);
      forall k :: 0 <= k < |st.events| && Involved(st, st.events[k], uid) ==>
        HasEntry(es, st.events[k].eventId)
  {
    var rows := QueryRows(st, Some(uid));
    var es := Group(rows, isMine);
    GroupIsGrouped(rows, isMine);
    forall k | 0 <= k < |st.events| && Involved(st, st.events[k], uid)
      ensures HasEntry(es, st.events[k].eventId)
    {
      var m :| 0 <= m < |rows| && rows[m].event == st.events[k];
      assert HasEntry(es, IdOf(rows[m]));
    }
  }

  /** Grouping the query's rows lists the involved events, whatever the
      `is_creator` comparison. */
  lemma {:induction false} GroupListsInvolved(st: EventStore, today: int, uid: Option<int>, isMine: int -> bool)
    requires forall i :: 0 <= i < |st.events| ==> st.events[i].eventDate >= today
    ensures ListsInvolved(st, today, uid, Group(QueryRows(st, uid), isMine))
  {
    GroupIsGrouped(QueryRows(st, uid), isMine);
    if uid.Some? {
      EntriesSound(st, today, uid.value, isMine);
      EntriesComplete(st, uid.value, isMine);
    } else {
      assert QueryRows(st, uid) == [];
    }
  }

  /** A distinct sequence holds each value at most once. */
  lemma {:induction false} AtMostOnce(b: seq<EventEntry>, x: EventEntry)
    requires DistinctIds(b)
    ensures multiset(b)[x] <= 1
    decreases |b|
  {
    if b != [] {
      assert b == [b[0]] + b[1..];
      AtMostOnce(b[1..], x);
      if x == b[0] {
        assert x !in b[1..] by {
          forall m | 0 <= m < |b[1..]| ensures b[1..][m] != x {
            assert b[1..][m] == b[m + 1];
          }
        }
      }
    }
  }

  /** Reordering distinct entries keeps them distinct. */
  lemma {:induction false} PermutedDistinct(a: seq<EventEntry>, b: seq<EventEntry>)
    requires multiset(a) == multiset(b) && DistinctIds(b)
    ensures DistinctIds(a)
  {
    forall i, j | 0 <= i < j < |a| ensures a[i].eventId != a[j].eventId {
      if a[i] == a[j] {
        assert a == a[..j] + a[j..];
        assert a[..j][i] == a[i];
        assert a[j..][0] == a[j];
        assert multiset(a)[a[i]] == multiset(a[..j])[a[i]] + multiset(a[j..])[a[i]];
        AtMostOnce(b, a[i]);
      } else {
        assert a[i] in multiset(b) && a[j] in multiset(b);
        var p :| 0 <= p < |b| && b[p] == a[i];
        var q :| 0 <= q < |b| && b[q] == a[j];
        assert p < q || q < p;
      }
    }
  }

  /** Reordering the entries keeps each one the grouping of its event's rows,
      and keeps an entry for every event of the rows. */
  lemma {:induction false} PermutedGrouping(rows: seq<EventRow>, a: seq<EventEntry>, b: seq<EventEntry>,
                                            isMine: int -> bool)
    requires multiset(a) == multiset(b) && Faithful(rows, b, isMine) && Covers(rows, b)
    ensures Faithful(rows, a, isMine) && Covers(rows, a)
  {
    forall i | 0 <= i < |a|
      ensures Occurs(rows, a[i].eventId) && a[i] == EntryFor(rows, a[i].eventId, isMine)
    {
      assert a[i] in multiset(b);
      var p :| 0 <= p < |b| && b[p] == a[i];
    }
    forall k | 0 <= k < |rows| ensures HasEntry(a, IdOf(rows[k])) {
      var p :| 0 <= p < |b| && b[p].eventId == IdOf(rows[k]);
      assert b[p] in multiset(a);
      var i :| 0 <= i < |a| && a[i] == b[p];
    }
  }

  /** Reordering the entries keeps them the entries of the involved events. */
  lemma {:induction false} PermutedListsInvolved(st: EventStore, today: int, uid: Option<int>, a: seq<EventEntry>, b: seq<EventEntry>)
    requires multiset(a) == multiset(b) && ListsInvolved(st, today, uid, b)
    ensures ListsInvolved(st, today, uid, a)
  {
    PermutedDistinct(a, b);
    if uid.None? {
      assert |a| == |multiset(a)|;
    } else {
      forall i | 0 <= i < |a|
        ensures a[i].eventDate >= today &&
          (exists k :: 0 <= k < |st.events| && st.events[k].eventId == a[i].eventId &&
                       Involved(st, st.events[k], uid.value))
      {
        assert a[i] in multiset(b);
        var p :| 0 <= p < |b| && b[p] == a[i];
      }
      forall k | 0 <= k < |st.events| && Involved(st, st.events[k], uid.value)
        ensures HasEntry(a, st.events[k].eventId)
      {
        var p :| 0 <= p < |b| && b[p].eventId == st.events[k].eventId;
        assert b[p] in multiset(a);
        var i :| 0 <= i < |a| && a[i] == b[p];
      }
    }
  }

  /** What the listing as written promises about the entries `es` it returns
      for the user whose id is written `userIdText`, from the store `st` after
      its purge, where every remaining event is dated `today` or later: the
      involved events, by ascending id, none flagged as the user's, each the
      grouping of its query rows, and one for every event of those rows. */
  ghost predicate ListedForAsWritten(st: EventStore, today: int, userIdText: string, es: seq<EventEntry>) {
    var rows := QueryRows(st, DecimalValue(userIdText));
    ListsInvolved(st, today, DecimalValue(userIdText), es) &&
    ListedAsWritten(es) &&
    Faithful(rows, es, CreatorTestAsWritten(userIdText)) && Covers(rows, es)
  }

  lemma ListedEntriesAsWritten(st: EventStore, today: int, userIdText: string)
    requires forall i :: 0 <= i < |st.events| ==> st.events[i].eventDate >= today
    ensures ListedForAsWritten(st, today, userIdText,
      ObjectValues(Group(QueryRows(st, DecimalValue(userIdText)), CreatorTestAsWritten(userIdText))))
  {
    var uid := DecimalValue(userIdText);
    var isMine := CreatorTestAsWritten(userIdText);
    var rows := QueryRows(st, uid);
    var grouped := Group(rows, isMine);
    GroupIsGrouped(rows, isMine);
    PermutedGrouping(rows, ObjectValues(grouped), grouped, isMine);
    NeverCreatorAsWritten(rows, userIdText);
    GroupListsInvolved(st, today, uid, isMine);
    PermutedListsInvolved(st, today, uid, ObjectValues(grouped), grouped);
  }

  /** GET /events (EventRoutes.js:85-154) as written: the purge deletes
      today's events once the day has begun, the entries come by ascending
      event id and `is_creator` is never true. */
  function ListEventsAsWritten(st: EventStore, now: Instant, userIdText: string): (out: (EventStore, EventResponse))
    ensures out.0 == st.(events := PurgeAsWritten(st.events, now))
    ensures out.1.status == 200 && out.1.body.EventList?
    ensures ListedForAsWritten(out.0, now.day, userIdText, out.1.body.events)
  {
    var purged := st.(events := PurgeAsWritten(st.events, now));
    ListedEntriesAsWritten(purged, now.day, userIdText);
    (purged, EventResponse(200, EventList(ObjectValues(Group(QueryRows(purged, DecimalValue(userIdText)),
                                                             CreatorTestAsWritten(userIdText))))))
  }

  /** What the corrected listing promises about the entries `es` it returns
      for the user whose id is written `userIdText`, from the store `st`
      after the purge of the days before `today`: the involved events,
      newest date first, each the grouping of its query rows, flagged when
      the user created it. */
  ghost predicate ListedFor(st: EventStore, today: int, userIdText: string, es: seq<EventEntry>) {
    SortedDesc(es, (e: EventEntry) => e.eventDate) &&
    ListsInvolved(st, today, DecimalValue(userIdText), es) &&
    (forall i :: 0 <= i < |es| ==> (es[i].isCreator <==> IsCreator(userIdText, es[i].creator.userId))) &&
    Grouped(QueryRows(st, DecimalValue(userIdText)), es, CreatorTest(userIdText))
  }

  lemma ListedEntries(st: EventStore, today: int, userIdText: string)
    requires forall i :: 0 <= i < |st.events| ==> st.events[i].eventDate >= today
    ensures ListedFor(st, today, userIdText,
      Group(QueryRows(st, DecimalValue(userIdText)), CreatorTest(userIdText)))
  {
    var uid := DecimalValue(userIdText);
    var isMine := CreatorTest(userIdText);
    var rows := QueryRows(st, uid);
    GroupKeepsDateOrder(rows, isMine);
    GroupCreatorFlag(rows, isMine);
    GroupIsGrouped(rows, isMine);
    GroupListsInvolved(st, today, uid, isMine);
  }

  /** GET /events with today's events kept, the entries in query order
      (newest date first) and `is_creator` comparing numbers: the entries
      are exactly the remaining events the user created or attends. */
  function ListEvents(st: EventStore, now: Instant, userIdText: string): (out: (EventStore, EventResponse))
    ensures out.0 == st.(events := Purge(st.events, now.day))
    ensures out.1.status == 200 && out.1.body.EventList?
    ensures ListedFor(out.0, now.day, userIdText, out.1.body.events)
  {
    var purged := st.(events := Purge(st.events, now.day));
    ListedEntries(purged, now.day, userIdText);
    (purged, EventResponse(200, EventList(Group(QueryRows(purged, DecimalValue(userIdText)), CreatorTest(userIdText)))))
  }

  // ---------------------------------------------------------------------
  // What a user who did not create an event sees of its attendees
  // ---------------------------------------------------------------------

  /** `event_id` is the primary key of `events`. */
  predicate UniqueEventIds(events: seq<Event>) {
    forall i, j :: 0 <= i < |events| && 0 <= j < |events| && events[i].eventId == events[j].eventId ==> i == j
  }

  /** Each attendee listed for an event comes from one of its rows. */
  lemma {:induction false} AttendeesOfSound(rows: seq<EventRow>, id: int)
    ensures forall a :: a in AttendeesOf(rows, id) ==>
      exists k :: 0 <= k < |rows| && IdOf(rows[k]) == id && Pushes(rows[k]) && rows[k].attendee.value == a
    decreases |rows|
  {
    if rows != [] {
      var prefix := rows[..|rows| - 1];
      var last := rows[|rows| - 1];
      AttendeesOfSound(prefix, id);
      forall a | a in AttendeesOf(rows, id)
        ensures exists k :: 0 <= k < |rows| && IdOf(rows[k]) == id && Pushes(rows[k]) && rows[k].attendee.value == a
      {
        if a in AttendeesOf(prefix, id) {
          var k :| 0 <= k < |prefix| && IdOf(prefix[k]) == id && Pushes(prefix[k]) && prefix[k].attendee.value == a;
          assert rows[k] == prefix[k];
        } else {
          assert IdOf(last) == id && Pushes(last) && last.attendee.value == a;
        }
      }
    }
  }

  /** The attendee of every row of the event that pushes one is listed. */
  lemma {:induction false} AttendeesOfComplete(rows: seq<EventRow>, id: int, k: int)
    requires 0 <= k < |rows| && IdOf(rows[k]) == id && Pushes(rows[k])
    ensures rows[k].attendee.value in AttendeesOf(rows, id)
    decreases |rows|
  {
    var prefix := rows[..|rows| - 1];
    if k < |prefix| {
      assert prefix[k] == rows[k];
      AttendeesOfComplete(prefix, id, k);
    }
  }

  /** Rows of the query for `uid` that belong to an event someone else
      created carry the user's own attendance row. */
  lemma {:induction false} OthersRowsAreOwn(st: EventStore, uid: int, rows: seq<EventRow>, e: Event)
    requires UniqueEventIds(st.events) && e in st.events && e.createdBy != uid
    requires forall k :: 0 <= k < |rows| ==>
      rows[k].event in st.events && JoinRow(st, rows[k].event, rows[k]) && Visible(rows[k], Some(uid))
    ensures forall a :: a in AttendeesOf(rows, e.eventId) ==> a.userId == uid
  {
    AttendeesOfSound(rows, e.eventId);
    var q :| 0 <= q < |st.events| && st.events[q] == e;
    forall a | a in AttendeesOf(rows, e.eventId) ensures a.userId == uid {
      var k :| 0 <= k < |rows| && IdOf(rows[k]) == e.eventId && Pushes(rows[k]) && rows[k].attendee.value == a;
      var p :| 0 <= p < |st.events| && st.events[p] == rows[k].event;
      assert p == q;
    }
  }

  /** An entry takes its creator from its event's first row and its
      attendees from all of that event's rows. */
  lemma {:induction false} EntryFromRows(rows: seq<EventRow>, isMine: int -> bool, i: int)
    requires 0 <= i < |Group(rows, isMine)|
    ensures var en := Group(rows, isMine)[i];
      Occurs(rows, en.eventId) &&
      en.creator.userId == rows[FirstIndex(rows, en.eventId)].event.createdBy &&
      en.attendees == AttendeesOf(rows, en.eventId)
  {
    GroupIsGrouped(rows, isMine);
  }

  /** The user's own attendance row of an event someone else created is
      among the query's rows, so the user is among its attendees. */
  lemma {:induction false} OwnRowListed(st: EventStore, uid: int, rows: seq<EventRow>, f: int)
    requires 0 <= f < |rows| && rows[f].event in st.events && JoinRow(st, rows[f].event, rows[f])
    requires Involved(st, rows[f].event, uid) && rows[f].event.createdBy != uid
    requires uid != 0 && AttendeeOf(st.users, uid).Some?
    requires forall i, x :: 0 <= i < |st.events| && JoinRow(st, st.events[i], x) && Visible(x, Some(uid)) ==> x in rows
    ensures AttendeeOf(st.users, uid).value in AttendeesOf(rows, IdOf(rows[f]))
  {
    var e := rows[f].event;
    var q :| 0 <= q < |st.events| && st.events[q] == e;
    var x := rows[f].(attendeeKey := Some(uid), attendee := AttendeeOf(st.users, uid));
    assert JoinRow(st, st.events[q], x) && Visible(x, Some(uid));
    var k :| 0 <= k < |rows| && rows[k] == x;
    AttendeesOfComplete(rows, IdOf(rows[f]), k);
  }

  /** The attendees of an entry someone else created, over any rows that
      are joined rows passing the WHERE clause and include every such row. */
  lemma {:induction false} OthersEntryAttendees(st: EventStore, uid: int, rows: seq<EventRow>, isMine: int -> bool, i: int)
    requires UniqueEventIds(st.events)
    requires forall k :: 0 <= k < |rows| ==>
      rows[k].event in st.events && JoinRow(st, rows[k].event, rows[k]) && Visible(rows[k], Some(uid))
    requires forall k :: 0 <= k < |rows| ==> Involved(st, rows[k].event, uid)
    requires forall i, x :: 0 <= i < |st.events| && JoinRow(st, st.events[i], x) && Visible(x, Some(uid)) ==> x in rows
    requires 0 <= i < |Group(rows, isMine)| && Group(rows, isMine)[i].creator.userId != uid
    ensures var a := Group(rows, isMine)[i].attendees;
      (forall j :: 0 <= j < |a| ==> a[j].userId == uid) &&
      (uid != 0 && AttendeeOf(st.users, uid).Some? ==> AttendeeOf(st.users, uid).value in a)
  {
    EntryFromRows(rows, isMine, i);
    var id := Group(rows, isMine)[i].eventId;
    var f := FirstIndex(rows, id);
    OthersRowsAreOwn(st, uid, rows, rows[f].event);
    if uid != 0 && AttendeeOf(st.users, uid).Some? {
      OwnRowListed(st, uid, rows, f);
    }
  }

  /** For an event someone else created, the WHERE clause of
      EventRoutes.js:109 keeps only the user's own attendance row, so the
      entry lists the user, when their user row exists, and nobody else. */
  lemma {:induction false} AttendeeSeesOnlyThemself(st: EventStore, uid: int, isMine: int -> bool, i: int)
    requires UniqueEventIds(st.events)
    requires 0 <= i < |Group(QueryRows(st, Some(uid)), isMine)|
    requires Group(QueryRows(st, Some(uid)), isMine)[i].creator.userId != uid
    ensures var a := Group(QueryRows(st, Some(uid)), isMine)[i].attendees;
      (forall j :: 0 <= j < |a| ==> a[j].userId == uid) &&
      (uid != 0 && AttendeeOf(st.users, uid).Some? ==> AttendeeOf(st.users, uid).value in a)
  {
    OthersEntryAttendees(st, uid, QueryRows(st, Some(uid)), isMine, i);
  }




  // ---------------------------------------------------------------------
  // The ordering discrepancy, on two rows
  // ---------------------------------------------------------------------

  /** Two events the user created, inserted with ids 1 (dated 10) and 2
      (dated 20), as the query returns them: newest date first. */
  function TwoEventRows(): seq<EventRow> {
    [EventRow(Event(2, "b", 20, "09:00", 7, None, 0), None, None, None, None),
     EventRow(Event(1, "a", 10, "09:00", 7, None, 0), None, None, None, None)]
  }

  lemma GroupOfTwo(isMine: int -> bool)
    ensures SortedDesc(TwoEventRows(), (x: EventRow) => x.event.eventDate)
    ensures Group(TwoEventRows(), isMine) ==
      [NewEntry(TwoEventRows()[0], isMine), NewEntry(TwoEventRows()[1], isMine)]
  {
    var rows := TwoEventRows();
    var one := [rows[0]];
    assert rows[..1] == one;
    assert one[..0] == [];
    assert Group(one[..0], isMine) == [];
    var g1 := Group(one, isMine);
    assert g1 == AddRow([], rows[0], isMine);
    assert g1 == [NewEntry(rows[0], isMine)];
    assert !HasEntry(g1, 1);
  }

  /** Object.values of two entries lists the smaller id first. */
  lemma ObjectValuesOfTwo(g: seq<EventEntry>)
    requires |g| == 2 && g[0].eventId > g[1].eventId
    ensures ObjectValues(g) == [g[1], g[0]]
  {
    var ov := ObjectValues(g);
    assert |ov| == 2 by { assert |multiset(ov)| == |multiset(g)|; }
    assert g == [g[0], g[1]];
    assert multiset(ov) == multiset{g[0], g[1]};
    assert ov == [ov[0], ov[1]];
    assert ov[0] in multiset(ov) && ov[1] in multiset(ov);
    assert ov[0] != ov[1] by {
      if ov[0] == ov[1] {
      }
    }
    assert ov[0].eventId <= ov[1].eventId;
  }

  /** The query orders the two events newest first; grouping keeps that
      order; `Object.values` lists the older-dated event first. */
  lemma ObjectValuesReordersByDate(isMine: int -> bool)
    ensures var g := Group(TwoEventRows(), isMine);
      SortedDesc(g, (e: EventEntry) => e.eventDate) &&
      [g[0].eventId, g[1].eventId] == [2, 1] &&
      [ObjectValues(g)[0].eventId, ObjectValues(g)[1].eventId] == [1, 2] &&
      !SortedDesc(ObjectValues(g), (e: EventEntry) => e.eventDate)
  {
    GroupOfTwo(isMine);
    GroupKeepsDateOrder(TwoEventRows(), isMine);
    var g := Group(TwoEventRows(), isMine);
    ObjectValuesOfTwo(g);
    assert ObjectValues(g)[0].eventDate < ObjectValues(g)[1].eventDate;
  }
}

=== FILE: fetch_replies.dfy ===
/** The `useFetchReplies` hook (frontend/src/hooks/useFetchReplies.jsx): it
    fetches the replies of one document, keeps those the current user wrote
    or received, formats their dates, and records how many are unseen under
    the document's id. */
module FetchReplies {
  import opened Common
  import opened Schema

  /** A reply as /get-replies-by-docx sends it. MySQL returns the BOOLEAN
      `seen` column as the number 0 or 1. */
  datatype WireReply = WireReply(
    id: int, documentId: int, userId: int, receiverId: int, text: string,
    seen: int, dateOfReply: int, createdAt: int)

  /** The same reply after formatting: both dates are display strings. */
  datatype ShownReply = ShownReply(
    id: int, documentId: int, userId: int, receiverId: int, text: string,
    seen: int, dateOfReply: string, createdAt: string)

  datatype HookState = HookState(replies: seq<ShownReply>, unseenCounts: map<int, nat>)

  /** What the request yields: it throws, its body is not an array, or the rows. */
  datatype Outcome = RequestFailed | NotAnArray | Rows(rows: seq<WireReply>)

  /** The JSON the server sends for one reply. */
  function WireOf(a: AnnotatedReply, createdAt: int): (w: WireReply)
    ensures w.seen == 0 <==> !a.reply.seen
  {
    WireReply(a.reply.id, a.reply.documentId, a.reply.userId, a.reply.receiverId, a.reply.text,
              if a.reply.seen then 1 else 0, a.reply.dateOfReply, createdAt)
  }

  predicate Involves(r: WireReply, userId: int) {
    r.receiverId == userId || r.userId == userId
  }

  /** The replies the current user received or wrote, in server order. */
  function KeepInvolved(rows: seq<WireReply>, userId: int): (r: seq<WireReply>)
    ensures IsSubseq(r, rows)
    ensures forall i :: 0 <= i < |r| ==> r[i] in rows && Involves(r[i], userId)
    ensures forall i :: 0 <= i < |rows| && Involves(rows[i], userId) ==> rows[i] in r
  {
    FilterIsSubseq(rows, (w: WireReply) => Involves(w, userId));
    Filter(rows, (w: WireReply) => Involves(w, userId))
  }

  function Format(w: WireReply, formatDate: int -> string, formatTime: int -> string): ShownReply {
    ShownReply(w.id, w.documentId, w.userId, w.receiverId, w.text, w.seen,
               formatDate(w.dateOfReply), formatTime(w.createdAt))
  }

  /** Formatting is one-to-one and touches only the two dates. */
  function FormatAll(rows: seq<WireReply>, formatDate: int -> string, formatTime: int -> string)
    : (r: seq<ShownReply>)
    ensures |r| == |rows|
    ensures forall i :: 0 <= i < |rows| ==>
      r[i].id == rows[i].id && r[i].documentId == rows[i].documentId &&
      r[i].userId == rows[i].userId && r[i].receiverId == rows[i].receiverId &&
      r[i].text == rows[i].text && r[i].seen == rows[i].seen
  {
    seq(|rows|, i requires 0 <= i < |rows| => Format(rows[i], formatDate, formatTime))
  }

  function UnseenIn(shown: seq<ShownReply>): nat {
    |Filter(shown, (s: ShownReply) => s.seen == 0)|
  }

  /** `fetchReplies(documentId)` for the user whose id is `userId`. */
  function FetchReplies(s: HookState, userId: int, documentId: int, outcome: Outcome,
                        formatDate: int -> string, formatTime: int -> string): (s': HookState)
    ensures outcome.RequestFailed? ==> s'.replies == [] && s'.unseenCounts == s.unseenCounts
    ensures outcome.NotAnArray? ==> s' == s
    ensures outcome.Rows? ==>
      |s'.replies| <= |outcome.rows| &&
      (forall i :: 0 <= i < |s'.replies| ==>
         s'.replies[i].receiverId == userId || s'.replies[i].userId == userId) &&
      documentId in s'.unseenCounts && s'.unseenCounts[documentId] <= |s'.replies|
    ensures forall k :: k != documentId ==>
      (k in s'.unseenCounts <==> k in s.unseenCounts) &&
      (k in s.unseenCounts ==> s'.unseenCounts[k] == s.unseenCounts[k])
  {
    match outcome
    case RequestFailed => s.(replies := [])
    case NotAnArray => s
    case Rows(rows) =>
      var kept := KeepInvolved(rows, userId);
      var shown := FormatAll(kept, formatDate, formatTime);
      HookState(shown, s.unseenCounts[documentId := UnseenIn(shown)])
  }

  /** Formatting does not change how many replies are unseen. */
  lemma {:induction false} UnseenSurvivesFormatting(rows: seq<WireReply>, formatDate: int -> string,
                                                    formatTime: int -> string)
    ensures UnseenIn(FormatAll(rows, formatDate, formatTime)) ==
            |Filter(rows, (w: WireReply) => w.seen == 0)|
    decreases |rows|
  {
    if rows != [] {
      UnseenSurvivesFormatting(rows[1..], formatDate, formatTime);
      assert FormatAll(rows, formatDate, formatTime)[1..] == FormatAll(rows[1..], formatDate, formatTime);
    }
  }

  /** The recorded count is the number of involved replies whose `seen` is 0,
      counted on the rows as they came from the server. */
  lemma FetchCountsInvolvedUnseen(s: HookState, userId: int, documentId: int, rows: seq<WireReply>,
                                  formatDate: int -> string, formatTime: int -> string)
    ensures var s' := FetchReplies(s, userId, documentId, Rows(rows), formatDate, formatTime);
      s'.replies == FormatAll(KeepInvolved(rows, userId), formatDate, formatTime) &&
      s'.unseenCounts[documentId] ==
        |Filter(rows, (w: WireReply) => Involves(w, userId) && w.seen == 0)|
  {
    var kept := KeepInvolved(rows, userId);
    UnseenSurvivesFormatting(kept, formatDate, formatTime);
    FilterFilter(rows, (w: WireReply) => Involves(w, userId), (w: WireReply) => w.seen == 0,
                 (w: WireReply) => Involves(w, userId) && w.seen == 0);
  }

  /** Fed the server's replies, the hook counts exactly the involved replies
      whose `seen` flag is still false. */
  lemma UnseenMatchesServerFlag(anns: seq<AnnotatedReply>, createdAt: int, userId: int)
    ensures var rows := seq(|anns|, i requires 0 <= i < |anns| => WireOf(anns[i], createdAt));
      |Filter(rows, (w: WireReply) => Involves(w, userId) && w.seen == 0)| ==
      |Filter(anns, (a: AnnotatedReply) =>
         (a.reply.receiverId == userId || a.reply.userId == userId) && !a.reply.seen)|
  {
    var rows := seq(|anns|, i requires 0 <= i < |anns| => WireOf(anns[i], createdAt));
    var p := (w: WireReply) => Involves(w, userId) && w.seen == 0;
    var q := (a: AnnotatedReply) => (a.reply.receiverId == userId || a.reply.userId == userId) && !a.reply.seen;
    FilterMonotone(rows, anns, p, q);
    FilterMonotone(anns, rows, q, p);
  }
}

=== FILE: full_form.dfy ===
/** The compose form (frontend/src/pages/user/Compose/Forms/FullForm.jsx):
    the recipient picker with its "select-all" option, the list of
    selectable profiles, the initial values and the multipart body the form
    posts to /submit-form. */
module FullForm {
  import opened Common
  import opened DocumentRoutes

  /** A user of GET /users as the form reads it. */
  datatype ProfileRow = ProfileRow(firstName: string, lastName: string, email: string)

  /** One option of the recipient picker: the "select-all" entry or a profile. */
  datatype Choice = SelectAllOption | Pick(profile: ProfileRow)

  /** The `recipient` form value and the `selectAll` flag. */
  datatype Picker = Picker(recipient: seq<Addressee>, selectAll: bool)

  /** `{ name: `${first_name} ${last_name}`, email }` */
  function AddresseeOf(p: ProfileRow): (a: Addressee)
    ensures a.email == p.email
  {
    Addressee(p.firstName + " " + p.lastName, p.email)
  }

  function AddresseesOf(ps: seq<ProfileRow>): (r: seq<Addressee>)
    ensures |r| == |ps|
    ensures forall i :: 0 <= i < |ps| ==> r[i] == AddresseeOf(ps[i])
  {
    seq(|ps|, i requires 0 <= i < |ps| => AddresseeOf(ps[i]))
  }

  /** The profiles among the chosen options, in order. */
  function Picks(value: seq<Choice>): (r: seq<ProfileRow>)
    ensures |r| <= |value|
    ensures SelectAllOption !in value ==>
      |r| == |value| && forall i :: 0 <= i < |value| ==> r[i] == value[i].profile
    decreases |value|
  {
    if value == [] then []
    else if value[0].SelectAllOption? then Picks(value[1..])
    else
      var rest := Picks(value[1..]);
      assert SelectAllOption !in value ==> SelectAllOption !in value[1..] by {
        if SelectAllOption !in value {
          forall c | c in value[1..] ensures c != SelectAllOption { assert c in value; }
        }
      }
      [value[0].profile] + rest
  }

  /** `handleSelectAllChange(event, value)` (FullForm.jsx:178-205). */
  function HandleSelectAllChange(pk: Picker, profiles: seq<ProfileRow>, value: seq<Choice>): (r: Picker)
    ensures SelectAllOption in value && pk.selectAll ==> r == Picker([], false)
    ensures SelectAllOption in value && !pk.selectAll ==>
      r.selectAll && r.recipient == AddresseesOf(profiles)
    ensures SelectAllOption !in value ==>
      !r.selectAll && |r.recipient| == |value| &&
      forall i :: 0 <= i < |value| ==> r.recipient[i] == AddresseeOf(value[i].profile)
  {
    if SelectAllOption in value then
      if pk.selectAll then Picker([], false)
      else Picker(AddresseesOf(profiles), true)
    else
      Picker(AddresseesOf(Picks(value)), false)
  }

  /** Choosing "select-all" twice from the cleared state clears it again. */
  lemma SelectAllTwiceClears(pk: Picker, profiles: seq<ProfileRow>)
    requires !pk.selectAll
    ensures var once := HandleSelectAllChange(pk, profiles, [SelectAllOption]);
      once.selectAll && |once.recipient| == |profiles| &&
      HandleSelectAllChange(once, profiles, [SelectAllOption]) == Picker([], false)
  {
  }

  /** The selectable profiles: everyone but the signed-in user (FullForm.jsx:154-157). */
  function ExcludeSelf(users: seq<ProfileRow>, myEmail: string): (r: seq<ProfileRow>)
    ensures IsSubseq(r, users)
    ensures forall i :: 0 <= i < |r| ==> r[i] in users && r[i].email != myEmail
    ensures forall i :: 0 <= i < |users| && users[i].email != myEmail ==> users[i] in r
  {
    FilterIsSubseq(users, (p: ProfileRow) => p.email != myEmail);
    Filter(users, (p: ProfileRow) => p.email != myEmail)
  }

  /** Select-all addresses every other user and never the sender. */
  lemma SelectAllNeverAddressesSelf(pk: Picker, users: seq<ProfileRow>, myEmail: string)
    requires !pk.selectAll
    ensures var r := HandleSelectAllChange(pk, ExcludeSelf(users, myEmail), [SelectAllOption]);
      (forall i :: 0 <= i < |r.recipient| ==> r.recipient[i].email != myEmail) &&
      (forall i :: 0 <= i < |users| && users[i].email != myEmail ==> AddresseeOf(users[i]) in r.recipient)
  {
    var others := ExcludeSelf(users, myEmail);
    var r := HandleSelectAllChange(pk, others, [SelectAllOption]);
    forall i | 0 <= i < |users| && users[i].email != myEmail
      ensures AddresseeOf(users[i]) in r.recipient
    {
      var k :| 0 <= k < |others| && others[k] == users[i];
      assert r.recipient[k] == AddresseeOf(users[i]);
    }
  }

  // ---------------------------------------------------------------------
  // Form values and the multipart body
  // ---------------------------------------------------------------------

  datatype Sender = Sender(name: string, email: string)

  datatype FormValues = FormValues(
    documentId: string, sender: Sender, recipient: seq<Addressee>,
    subject: string, description: string, prioritization: string,
    dateOfLetter: string, classification: string, deadline: string)

  /** `initialValues` (FullForm.jsx:71-81); `today` is the ISO date of today. */
  function InitialValues(today: string): FormValues {
    FormValues("", Sender("", ""), [], "", "", "Precedence", today, "Confidential", today)
  }

  /** A multipart field: raw text, the JSON text of the sender object or of
      the recipient array, or the attached file. JSON text is represented by
      the value it encodes. */
  datatype Part = Text(text: string) | SenderJson(sender: Sender) | RecipientJson(list: seq<Addressee>)
                | FilePart(fileName: string)

  /** The multipart field names the form uses. */
  datatype Field =
    | DocumentIdField | SenderField | RecipientField | SubjectField | DescriptionField
    | PrioritizationField | DateOfLetterField | ClassificationField | DeadlineField | FileField

  function FieldName(f: Field): string {
    match f
    case DocumentIdField => "documentId"
    case SenderField => "sender"
    case RecipientField => "recipient"
    case SubjectField => "subject"
    case DescriptionField => "description"
    case PrioritizationField => "prioritization"
    case DateOfLetterField => "dateOfLetter"
    case ClassificationField => "classification"
    case DeadlineField => "deadline"
    case FileField => "file"
  }

  datatype Entry = Entry(key: Field, part: Part)

  /** `Object.keys(values)` in the order of the initial values. */
  const Keys: seq<Field> := [DocumentIdField, SenderField, RecipientField, SubjectField, DescriptionField,
                             PrioritizationField, DateOfLetterField, ClassificationField, DeadlineField]

  /** What the form appends under a field: `JSON.stringify` of the sender
      and the recipient list, every other value raw. */
  function PartOf(v: FormValues, f: Field): Part
    requires f != FileField
  {
    match f
    case DocumentIdField => Text(v.documentId)
    case SenderField => SenderJson(v.sender)
    case RecipientField => RecipientJson(v.recipient)
    case SubjectField => Text(v.subject)
    case DescriptionField => Text(v.description)
    case PrioritizationField => Text(v.prioritization)
    case DateOfLetterField => Text(v.dateOfLetter)
    case ClassificationField => Text(v.classification)
    case DeadlineField => Text(v.deadline)
  }

  /** The `FormData` the submit handler builds (FullForm.jsx:85-96). */
  function Serialize(v: FormValues, file: Option<string>): (r: seq<Entry>)
    ensures |r| == |Keys| + (if file.Some? then 1 else 0)
    ensures forall i :: 0 <= i < |Keys| ==> r[i] == Entry(Keys[i], PartOf(v, Keys[i]))
    ensures file.Some? ==> r[|Keys|] == Entry(FileField, FilePart(file.value))
    ensures forall i :: 0 <= i < |r| ==>
      (r[i].part.SenderJson? <==> r[i].key == SenderField) &&
      (r[i].part.RecipientJson? <==> r[i].key == RecipientField) &&
      (r[i].part.FilePart? <==> r[i].key == FileField)
  {
    seq(|Keys|, i requires 0 <= i < |Keys| => Entry(Keys[i], PartOf(v, Keys[i]))) +
    (match file case Some(f) => [Entry(FileField, FilePart(f))] case None => [])
  }

  /** The first part under `key`, as a multipart parser reports one field. */
  function Lookup(entries: seq<Entry>, key: Field): (r: Option<Part>)
    ensures r.Some? ==> Entry(key, r.value) in entries
    ensures r.None? ==> forall i :: 0 <= i < |entries| ==> entries[i].key != key
    decreases |entries|
  {
    if entries == [] then None
    else if entries[0].key == key then Some(entries[0].part)
    else Lookup(entries[1..], key)
  }

  /** The first entry under a key is the one a lookup finds. */
  lemma {:induction false} LookupFirst(entries: seq<Entry>, key: Field, i: int)
    requires 0 <= i < |entries| && entries[i].key == key
    requires forall j :: 0 <= j < i ==> entries[j].key != key
    ensures Lookup(entries, key) == Some(entries[i].part)
    decreases i
  {
    if i > 0 {
      LookupFirst(entries[1..], key, i - 1);
    }
  }

  /** Where a field sits in `Keys`. */
  function IndexOf(f: Field): (i: int)
    requires f != FileField
    ensures 0 <= i < |Keys| && Keys[i] == f
    ensures forall j :: 0 <= j < i ==> Keys[j] != f
  {
    match f
    case DocumentIdField => 0
    case SenderField => 1
    case RecipientField => 2
    case SubjectField => 3
    case DescriptionField => 4
    case PrioritizationField => 5
    case DateOfLetterField => 6
    case ClassificationField => 7
    case DeadlineField => 8
  }

  /** Each field appears once in the body, holding what the form appended. */
  lemma LookupSerialized(v: FormValues, file: Option<string>, f: Field)
    ensures f != FileField ==> Lookup(Serialize(v, file), f) == Some(PartOf(v, f))
    ensures f == FileField ==>
      Lookup(Serialize(v, file), f) == match file case Some(n) => Some(FilePart(n)) case None => None
  {
    var e := Serialize(v, file);
    if f != FileField {
      LookupFirst(e, f, IndexOf(f));
    } else if file.Some? {
      LookupFirst(e, f, |Keys|);
    }
  }

  function TextAt(entries: seq<Entry>, key: Field): Option<string> {
    match Lookup(entries, key)
    case Some(Text(t)) => Some(t)
    case _ => None
  }

  function FileAt(entries: seq<Entry>): Option<string> {
    match Lookup(entries, FileField)
    case Some(FilePart(f)) => Some(f)
    case _ => None
  }

  /** Reading the body back: text fields raw, sender and recipient parsed. */
  function Deserialize(entries: seq<Entry>): Option<(FormValues, Option<string>)> {
    match (Lookup(entries, SenderField), Lookup(entries, RecipientField))
    case (Some(SenderJson(s)), Some(RecipientJson(list))) =>
      var documentId := TextAt(entries, DocumentIdField);
      var subject := TextAt(entries, SubjectField);
      var description := TextAt(entries, DescriptionField);
      var prioritization := TextAt(entries, PrioritizationField);
      var dateOfLetter := TextAt(entries, DateOfLetterField);
      var classification := TextAt(entries, ClassificationField);
      var deadline := TextAt(entries, DeadlineField);
      if documentId.Some? && subject.Some? && description.Some? && prioritization.Some? &&
         dateOfLetter.Some? && classification.Some? && deadline.Some?
      then
        Some((FormValues(documentId.value, s, list, subject.value, description.value,
                         prioritization.value, dateOfLetter.value, classification.value, deadline.value),
              FileAt(entries)))
      else None
    case _ => None
  }

  /** Every value the form holds reaches the server unchanged. */
  lemma SerializeRoundTrip(v: FormValues, file: Option<string>)
    ensures Deserialize(Serialize(v, file)) == Some((v, file))
  {
    LookupSerialized(v, file, DocumentIdField);
    LookupSerialized(v, file, SenderField);
    LookupSerialized(v, file, RecipientField);
    LookupSerialized(v, file, SubjectField);
    LookupSerialized(v, file, DescriptionField);
    LookupSerialized(v, file, PrioritizationField);
    LookupSerialized(v, file, DateOfLetterField);
    LookupSerialized(v, file, ClassificationField);
    LookupSerialized(v, file, DeadlineField);
    LookupSerialized(v, file, FileField);
  }

  /** An untouched form posts Precedence, Confidential, today's dates and an
      empty recipient array. */
  lemma InitialValuesPostDefaults(today: string)
    ensures var e := Serialize(InitialValues(today), None);
      Lookup(e, PrioritizationField) == Some(Text("Precedence")) &&
      Lookup(e, ClassificationField) == Some(Text("Confidential")) &&
      Lookup(e, RecipientField) == Some(RecipientJson([])) &&
      Lookup(e, DateOfLetterField) == Some(Text(today)) && Lookup(e, DeadlineField) == Some(Text(today)) &&
      Lookup(e, FileField) == None
  {
    PostsFields(InitialValues(today));
  }

  /** With no file chosen, the body carries each field's value and no file. */
  lemma PostsFields(v: FormValues)
    ensures var e := Serialize(v, None);
      Lookup(e, PrioritizationField) == Some(Text(v.prioritization)) &&
      Lookup(e, ClassificationField) == Some(Text(v.classification)) &&
      Lookup(e, RecipientField) == Some(RecipientJson(v.recipient)) &&
      Lookup(e, DateOfLetterField) == Some(Text(v.dateOfLetter)) && Lookup(e, DeadlineField) == Some(Text(v.deadline)) &&
      Lookup(e, FileField) == None
  {
    LookupSerialized(v, None, PrioritizationField);
    LookupSerialized(v, None, ClassificationField);
    LookupSerialized(v, None, RecipientField);
    LookupSerialized(v, None, DateOfLetterField);
    LookupSerialized(v, None, DeadlineField);
    LookupSerialized(v, None, FileField);
  }
}

=== FILE: incoming.dfy ===
/** The inbox page (frontend/src/pages/user/Incoming/Incoming.jsx): the tab
    counters, the tab and search filter, the pagination slice, and what
    viewing a document does to the list and the counters. */
module Incoming {
  import opened Common
  import opened DocumentList

  const ItemsPerPage: nat := 10

  datatype Counts = Counts(all: int, pending: int, received: int)

  /** The page's state: the fetched list, the list on display, the counters,
      the selected tab, the search text and the page number. */
  datatype Inbox = Inbox(
    documents: seq<Item>, filtered: seq<Item>, counts: Counts,
    tab: int, query: string, page: int)

  predicate IsPending(d: Item) { HasStatus(d, "Pending") }
  predicate IsReceived(d: Item) { HasStatus(d, "Received") }

  /** The counters `fetchDocuments` computes (Incoming.jsx:71-83). */
  function CountsOf(docs: seq<Item>): (c: Counts)
    ensures c.all == |docs|
    ensures c.pending + c.received <= c.all
    ensures c.pending == |Filter(docs, IsPending)| && c.received == |Filter(docs, IsReceived)|
  {
    FilterPartition(docs, (d: Item) => IsPending(d) || IsReceived(d), IsPending, IsReceived);
    Counts(|docs|, |Filter(docs, IsPending)|, |Filter(docs, IsReceived)|)
  }

  /** The counters describe the fetched list. */
  predicate Consistent(ib: Inbox) {
    ib.counts == CountsOf(ib.documents)
  }

  /** A successful `fetchDocuments`: both lists become the fetched rows. */
  function Load(ib: Inbox, docs: seq<Item>): (r: Inbox)
    ensures Consistent(r)
    ensures r.documents == docs && r.filtered == docs
    ensures r.tab == ib.tab && r.query == ib.query && r.page == ib.page
  {
    ib.(documents := docs, filtered := docs, counts := CountsOf(docs))
  }

  /** The tab part of `filterDocumentsByTab`: tab 1 is Pending, tab 2 is
      Received, any other tab shows everything. */
  predicate TabKeeps(tab: int, d: Item) {
    if tab == 1 then IsPending(d)
    else if tab == 2 then IsReceived(d)
    else true
  }

  /** The search part: a non-empty query must occur in the document code. */
  predicate QueryKeeps(query: string, d: Item) {
    query == "" || Contains(d.documentCode, query)
  }

  function TabOnly(docs: seq<Item>, tab: int): seq<Item> {
    if tab == 1 then Filter(docs, IsPending)
    else if tab == 2 then Filter(docs, IsReceived)
    else docs
  }

  /** `filterDocumentsByTab(tab, query)` (Incoming.jsx:98-122), as a list. */
  function FilterByTab(docs: seq<Item>, tab: int, query: string): (r: seq<Item>)
    ensures IsSubseq(r, docs)
    ensures forall i :: 0 <= i < |r| ==> r[i] in docs && TabKeeps(tab, r[i]) && QueryKeeps(query, r[i])
    ensures forall i :: 0 <= i < |docs| && TabKeeps(tab, docs[i]) && QueryKeeps(query, docs[i]) ==>
      docs[i] in r
  {
    var byTab := TabOnly(docs, tab);
    var r := if query != "" then Filter(byTab, (d: Item) => Contains(d.documentCode, query)) else byTab;
    assert IsSubseq(byTab, docs) by {
      if tab == 1 { FilterIsSubseq(docs, IsPending); }
      else if tab == 2 { FilterIsSubseq(docs, IsReceived); }
      else { SubseqRefl(docs); }
    }
    assert IsSubseq(r, docs) by {
      if query != "" {
        FilterIsSubseq(byTab, (d: Item) => Contains(d.documentCode, query));
        SubseqTransitive(r, byTab, docs);
      }
    }
    r
  }

  /** An empty query filters by tab only, and the "all" tab with an empty
      query shows the whole list in its order. */
  lemma EmptyQueryAddsNoFiltering(docs: seq<Item>, tab: int)
    ensures FilterByTab(docs, tab, "") == TabOnly(docs, tab)
    ensures tab != 1 && tab != 2 ==> FilterByTab(docs, tab, "") == docs
  {
  }

  /** A tab change or a search edit: the display is refiltered from the
      fetched list and the page goes back to 1. */
  function ChangeFilter(ib: Inbox, tab: int, query: string): (r: Inbox)
    ensures r.page == 1 && r.tab == tab && r.query == query
    ensures r.filtered == FilterByTab(ib.documents, tab, query)
    ensures r.documents == ib.documents && r.counts == ib.counts
  {
    ib.(filtered := FilterByTab(ib.documents, tab, query), tab := tab, query := query, page := 1)
  }

  /** `filteredDocuments.slice(startIndex, startIndex + itemsPerPage)`
      (Incoming.jsx:285-289). The page number is always at least 1: it starts
      at 1 and is only ever set to 1. */
  function PageOf(filtered: seq<Item>, page: int): (r: seq<Item>)
    requires page >= 1
    ensures |r| <= ItemsPerPage
    ensures var start := (page - 1) * ItemsPerPage;
      (start >= |filtered| ==> r == []) &&
      (start < |filtered| ==> |r| == if |filtered| - start < ItemsPerPage then |filtered| - start else ItemsPerPage) &&
      forall k :: 0 <= k < |r| ==> start + k < |filtered| && r[k] == filtered[start + k]
  {
    var start := (page - 1) * ItemsPerPage;
    if start >= |filtered| then []
    else if start + ItemsPerPage <= |filtered| then filtered[start..start + ItemsPerPage]
    else filtered[start..]
  }

  /** The i-th filtered document is shown on page i/10 + 1, at row i%10. */
  lemma ItemOnItsPage(filtered: seq<Item>, i: int)
    requires 0 <= i < |filtered|
    ensures var p := PageOf(filtered, i / ItemsPerPage + 1);
      i % ItemsPerPage < |p| && p[i % ItemsPerPage] == filtered[i]
  {
    var page := i / ItemsPerPage + 1;
    assert (page - 1) * ItemsPerPage + i % ItemsPerPage == i;
  }

  // ---------------------------------------------------------------------
  // Viewing a document (Incoming.jsx:160-205)
  // ---------------------------------------------------------------------

  /** The list after the optimistic update: rows `hit` selects read Received. */
  function MarkReceived(docs: seq<Item>, hit: Item -> bool): (r: seq<Item>)
    ensures |r| == |docs|
    ensures forall i :: 0 <= i < |docs| && hit(docs[i]) ==>
      r[i] == docs[i].(recipientStatus := Some("Received"))
    ensures forall i :: 0 <= i < |docs| && !hit(docs[i]) ==> r[i] == docs[i]
  {
    seq(|docs|, i requires 0 <= i < |docs| =>
      if hit(docs[i]) then docs[i].(recipientStatus := Some("Received")) else docs[i])
  }

  /** The optimistic counters after a successful status update. */
  function Shift(c: Counts): (r: Counts)
    ensures r.all == c.all && r.pending + r.received == c.pending + c.received
    ensures r.pending == c.pending - 1
  {
    c.(pending := c.pending - 1, received := c.received + 1)
  }

  /** The row test as written: `doc.document_id === document.document_code`,
      a number against a string. */
  predicate SameDocumentAsWritten(d: Item, viewed: Item) {
    StrictEquals(JsNumber(d.documentId), JsString(viewed.documentCode))
  }

  /** `handleViewDocument` as written. The second component says whether the
      status update request is sent; `updateOk` is whether it succeeds. */
  function ViewAsWritten(ib: Inbox, viewed: Item, updateOk: bool): (out: (Inbox, bool))
    ensures out.1 <==> IsPending(viewed)
    ensures !(out.1 && updateOk) ==> out.0 == ib
    ensures out.1 && updateOk ==>
      out.0.documents == ib.documents && out.0.counts == Shift(ib.counts) &&
      out.0.filtered == ib.filtered && out.0.page == ib.page
  {
    if !IsPending(viewed) then (ib, false)
    else if !updateOk then (ib, true)
    else
      var docs := MarkReceived(ib.documents, (d: Item) => SameDocumentAsWritten(d, viewed));
      assert docs == ib.documents by {
        forall i | 0 <= i < |ib.documents| ensures docs[i] == ib.documents[i] {
          NumberNeverEqualsString(ib.documents[i].documentId, viewed.documentCode);
        }
      }
      (ib.(documents := docs, counts := Shift(ib.counts)), true)
  }

  /** As written, viewing a pending document leaves the list untouched but
      moves one from the pending to the received counter, so counters that
      described the list no longer do. */
  lemma ViewAsWrittenDriftsCounts(ib: Inbox, viewed: Item)
    requires Consistent(ib) && IsPending(viewed)
    ensures !Consistent(ViewAsWritten(ib, viewed, true).0)
  {
  }

  /** The rows of the viewed document, matched by code. */
  predicate SameDocument(d: Item, viewed: Item) {
    d.documentCode == viewed.documentCode
  }

  /** `handleViewDocument` with the row test on the document code. */
  function View(ib: Inbox, viewed: Item, updateOk: bool): (out: (Inbox, bool))
    ensures out.1 <==> IsPending(viewed)
    ensures !(out.1 && updateOk) ==> out.0 == ib
    ensures out.1 && updateOk ==>
      out.0.documents == MarkReceived(ib.documents, (d: Item) => SameDocument(d, viewed)) &&
      out.0.counts == Shift(ib.counts) &&
      out.0.filtered == ib.filtered && out.0.page == ib.page
  {
    if !IsPending(viewed) then (ib, false)
    else if !updateOk then (ib, true)
    else
      var docs := MarkReceived(ib.documents, (d: Item) => SameDocument(d, viewed));
      (ib.(documents := docs, counts := Shift(ib.counts)), true)
  }

  /** No two fetched rows share a document code. */
  predicate UniqueCodes(docs: seq<Item>) {
    forall i, j :: 0 <= i < j < |docs| ==> docs[i].documentCode != docs[j].documentCode
  }

  /** Matching by code, viewing a pending document keeps the counters in
      step with the list. */
  lemma ViewKeepsCountsConsistent(ib: Inbox, viewed: Item)
    requires Consistent(ib) && IsPending(viewed)
    requires viewed in ib.documents && UniqueCodes(ib.documents)
    ensures Consistent(View(ib, viewed, true).0)
  {
    MarkOneCounts(ib.documents, viewed);
  }

  lemma {:induction false} MarkOneCounts(docs: seq<Item>, viewed: Item)
    requires IsPending(viewed) && viewed in docs && UniqueCodes(docs)
    ensures var m := MarkReceived(docs, (d: Item) => SameDocument(d, viewed));
      |Filter(m, IsPending)| == |Filter(docs, IsPending)| - 1 &&
      |Filter(m, IsReceived)| == |Filter(docs, IsReceived)| + 1
    decreases |docs|
  {
    var hit := (d: Item) => SameDocument(d, viewed);
    var m := MarkReceived(docs, hit);
    assert m[1..] == MarkReceived(docs[1..], hit);
    if docs[0] == viewed {
      assert m[1..] == docs[1..];
    } else {
      assert docs[0].documentCode != viewed.documentCode by {
        var k :| 0 <= k < |docs| && docs[k] == viewed;
      }
      assert viewed in docs[1..];
      MarkOneCounts(docs[1..], viewed);
    }
  }
}

=== FILE: listings.dfy ===
/** The two listing queries of backend/src/routes/DocumentRoutes.js:
    GET /get-documents/:recipientEmail (documents addressed to a user, one
    row per matching recipient row) and GET /get-sent-documents/:senderEmail
    (documents a user sent). Both order by `created_at` descending and attach
    to every document the recipient rows that carry its code. */
module Listings {
  import opened Common
  import opened Schema

  // ---------------------------------------------------------------------
  // Recipients attached to a listed document
  // ---------------------------------------------------------------------

  /** The recipient row joined with its user, when that user exists. */
  predicate Joinable(st: State, r: RecipientRow) {
    UserById(st.users, r.userId).Some?
  }

  function RecipientViewOf(st: State, r: RecipientRow): RecipientView
    requires Joinable(st, r)
  {
    var u := UserById(st.users, r.userId).value;
    RecipientView(FullName(u), u.email, r.status)
  }

  function ViewsOf(st: State, rows: seq<RecipientRow>): (r: seq<RecipientView>)
    requires forall i :: 0 <= i < |rows| ==> Joinable(st, rows[i])
    ensures |r| == |rows|
    ensures forall i :: 0 <= i < |rows| ==> r[i] == RecipientViewOf(st, rows[i])
  {
    seq(|rows|, i requires 0 <= i < |rows| => RecipientViewOf(st, rows[i]))
  }

  /** `v` is the view of recipient row `r` of document `code`. */
  predicate FromRow(st: State, code: string, r: RecipientRow, v: RecipientView) {
    r.documentCode == code && Joinable(st, r) && RecipientViewOf(st, r) == v
  }

  /** The recipients grouped under one document code by the `reduce` at
      DocumentRoutes.js:290-301 (storage order; the query has no ORDER BY).
      A document without recipient rows gets the empty list. */
  function RecipientsOf(st: State, code: string): (r: seq<RecipientView>)
    ensures forall v :: v in r ==> (exists j :: 0 <= j < |st.recipients| && FromRow(st, code, st.recipients[j], v))
    ensures forall j :: (0 <= j < |st.recipients| && st.recipients[j].documentCode == code &&
                         Joinable(st, st.recipients[j])) ==> RecipientViewOf(st, st.recipients[j]) in r
    ensures (forall j :: 0 <= j < |st.recipients| ==> st.recipients[j].documentCode != code) ==> r == []
  {
    var rows := Filter(st.recipients, (x: RecipientRow) => x.documentCode == code && Joinable(st, x));
    var r := ViewsOf(st, rows);
    ViewsOfListedRows(st, code, rows, r);
    r
  }

  /** The views of exactly the joinable rows under `code` meet the contract of
      `RecipientsOf`. */
  lemma ViewsOfListedRows(st: State, code: string, rows: seq<RecipientRow>, r: seq<RecipientView>)
    requires forall i :: 0 <= i < |rows| ==>
      rows[i] in st.recipients && rows[i].documentCode == code && Joinable(st, rows[i])
    requires forall j :: (0 <= j < |st.recipients| && st.recipients[j].documentCode == code &&
                          Joinable(st, st.recipients[j])) ==> st.recipients[j] in rows
    requires |r| == |rows| && forall i :: 0 <= i < |rows| ==> r[i] == RecipientViewOf(st, rows[i])
    ensures forall v :: v in r ==> (exists j :: 0 <= j < |st.recipients| && FromRow(st, code, st.recipients[j], v))
    ensures forall j :: (0 <= j < |st.recipients| && st.recipients[j].documentCode == code &&
                         Joinable(st, st.recipients[j])) ==> RecipientViewOf(st, st.recipients[j]) in r
    ensures (forall j :: 0 <= j < |st.recipients| ==> st.recipients[j].documentCode != code) ==> r == []
  {
    forall v | v in r
      ensures exists j :: 0 <= j < |st.recipients| && FromRow(st, code, st.recipients[j], v)
    {
      var k :| 0 <= k < |r| && r[k] == v;
      var j :| 0 <= j < |st.recipients| && st.recipients[j] == rows[k];
    }
    forall j | 0 <= j < |st.recipients| && st.recipients[j].documentCode == code && Joinable(st, st.recipients[j])
      ensures RecipientViewOf(st, st.recipients[j]) in r
    {
      var k :| 0 <= k < |rows| && rows[k] == st.recipients[j];
      assert r[k] == RecipientViewOf(st, st.recipients[j]);
    }
    if rows != [] {
      assert rows[0] in st.recipients;
    }
  }

  // ---------------------------------------------------------------------
  // Ordering and attaching
  // ---------------------------------------------------------------------

  function CreatedAt(r: JoinRow): int {
    r.doc.createdAt
  }

  function RowsOf(ds: seq<ListedDocument>): (r: seq<JoinRow>)
    ensures |r| == |ds|
    ensures forall i :: 0 <= i < |ds| ==> r[i] == ds[i].row
  {
    seq(|ds|, i requires 0 <= i < |ds| => ds[i].row)
  }

  /** `documents.map(doc => ({...doc, recipients: recipientsMap[code] || []}))` */
  function Attach(st: State, rows: seq<JoinRow>): (r: seq<ListedDocument>)
    ensures RowsOf(r) == rows
    ensures forall i :: 0 <= i < |r| ==> r[i].recipients == RecipientsOf(st, r[i].row.doc.code)
  {
    seq(|rows|, i requires 0 <= i < |rows| =>
      ListedDocument(rows[i], RecipientsOf(st, rows[i].doc.code)))
  }

  /** Sort the query rows newest first, then attach recipients. */
  function Ordered(st: State, rows: seq<JoinRow>): (r: seq<ListedDocument>)
    ensures forall i, j :: 0 <= i < j < |r| ==> r[i].row.doc.createdAt >= r[j].row.doc.createdAt
    ensures multiset(RowsOf(r)) == multiset(rows)
    ensures forall i :: 0 <= i < |r| ==> r[i].recipients == RecipientsOf(st, r[i].row.doc.code)
  {
    var sorted := SortDesc(rows, CreatedAt);
    var r := Attach(st, sorted);
    assert forall i, j :: 0 <= i < j < |r| ==> r[i].row.doc.createdAt >= r[j].row.doc.createdAt by {
      forall i, j | 0 <= i < j < |r|
        ensures r[i].row.doc.createdAt >= r[j].row.doc.createdAt
      {
        assert RowsOf(r)[i] == sorted[i] && RowsOf(r)[j] == sorted[j];
        assert CreatedAt(sorted[i]) >= CreatedAt(sorted[j]);
      }
    }
    r
  }

  // ---------------------------------------------------------------------
  // GET /get-documents/:recipientEmail
  // ---------------------------------------------------------------------

  /** The recipient row's user exists and has the given email (`ur.email = ?`). */
  predicate AddressedTo(st: State, r: RecipientRow, email: string) {
    UserById(st.users, r.userId).Some? && UserById(st.users, r.userId).value.email == email
  }

  /** One row of the incoming query: document `d` with recipient row `r`,
      whose sender exists and whose recipient has the email. */
  predicate IncomingMatch(st: State, email: string, d: Document, r: RecipientRow, jr: JoinRow) {
    d.code == r.documentCode && AddressedTo(st, r, email) &&
    UserById(st.users, d.senderId).Some? &&
    jr == JoinRow(d, FullName(UserById(st.users, d.senderId).value),
                  Some(UserById(st.users, d.senderId).value.email), Some(r.status))
  }

  function IncomingRowsOf(st: State, email: string, d: Document): (r: seq<JoinRow>)
    ensures forall jr :: jr in r <==>
      exists j :: 0 <= j < |st.recipients| && IncomingMatch(st, email, d, st.recipients[j], jr)
  {
    match UserById(st.users, d.senderId)
    case None => []
    case Some(u) =>
      var rows := Filter(st.recipients, (x: RecipientRow) => x.documentCode == d.code && AddressedTo(st, x, email));
      var r := seq(|rows|, i requires 0 <= i < |rows| =>
                     JoinRow(d, FullName(u), Some(u.email), Some(rows[i].status)));
      IncomingRowsMatch(st, email, d, u, rows, r);
      r
  }

  /** The rows built for exactly the matching recipient rows of `d` are exactly
      the incoming rows of `d`. */
  lemma IncomingRowsMatch(st: State, email: string, d: Document, u: User, rows: seq<RecipientRow>, r: seq<JoinRow>)
    requires UserById(st.users, d.senderId) == Some(u)
    requires forall i :: 0 <= i < |rows| ==>
      rows[i] in st.recipients && rows[i].documentCode == d.code && AddressedTo(st, rows[i], email)
    requires forall j :: (0 <= j < |st.recipients| && st.recipients[j].documentCode == d.code &&
                          AddressedTo(st, st.recipients[j], email)) ==> st.recipients[j] in rows
    requires |r| == |rows| && forall i :: 0 <= i < |rows| ==> r[i] == JoinRow(d, FullName(u), Some(u.email), Some(rows[i].status))
    ensures forall jr :: jr in r <==>
      exists j :: 0 <= j < |st.recipients| && IncomingMatch(st, email, d, st.recipients[j], jr)
  {
    forall jr | jr in r
      ensures exists j :: 0 <= j < |st.recipients| && IncomingMatch(st, email, d, st.recipients[j], jr)
    {
      var k :| 0 <= k < |r| && r[k] == jr;
      var j :| 0 <= j < |st.recipients| && st.recipients[j] == rows[k];
      assert IncomingMatch(st, email, d, st.recipients[j], jr);
    }
    forall jr | exists j :: 0 <= j < |st.recipients| && IncomingMatch(st, email, d, st.recipients[j], jr)
      ensures jr in r
    {
      var j :| 0 <= j < |st.recipients| && IncomingMatch(st, email, d, st.recipients[j], jr);
      var k :| 0 <= k < |rows| && rows[k] == st.recipients[j];
      assert r[k] == jr;
    }
  }

  /** The rows of the incoming query over the documents `docs`, before ordering. */
  function IncomingRows(st: State, email: string, docs: seq<Document>): (r: seq<JoinRow>)
    ensures forall jr :: jr in r <==>
      exists i, j :: 0 <= i < |docs| && 0 <= j < |st.recipients| &&
        IncomingMatch(st, email, docs[i], st.recipients[j], jr)
    decreases |docs|
  {
    if docs == [] then []
    else
      var here := IncomingRowsOf(st, email, docs[0]);
      var rest := IncomingRows(st, email, docs[1..]);
      assert forall jr :: (exists i, j :: (0 <= i < |docs| && 0 <= j < |st.recipients| &&
                                           IncomingMatch(st, email, docs[i], st.recipients[j], jr))) ==> jr in here + rest by {
        forall jr | (exists i, j :: (0 <= i < |docs| && 0 <= j < |st.recipients| &&
                                     IncomingMatch(st, email, docs[i], st.recipients[j], jr)))
          ensures jr in here + rest
        {
          var i, j :| 0 <= i < |docs| && 0 <= j < |st.recipients| &&
            IncomingMatch(st, email, docs[i], st.recipients[j], jr);
          if i > 0 {
            assert docs[i] == docs[1..][i - 1];
          }
        }
      }
      here + rest
  }

  /** GET /get-documents/:recipientEmail (DocumentRoutes.js:236-319). */
  function Incoming(st: State, email: string): (r: Response)
    ensures r.status == 200 && r.body.Documents?
    ensures var ds := r.body.documents;
      (forall i, j :: 0 <= i < j < |ds| ==> ds[i].row.doc.createdAt >= ds[j].row.doc.createdAt) &&
      multiset(RowsOf(ds)) == multiset(IncomingRows(st, email, st.documents)) &&
      (forall i :: 0 <= i < |ds| ==> ds[i].recipients == RecipientsOf(st, ds[i].row.doc.code))
  {
    Response(200, Documents(Ordered(st, IncomingRows(st, email, st.documents))))
  }

  /** Every listed row is a (document, recipient row) pair addressed to the
      email, and every such pair is listed. */
  lemma IncomingListsExactlyAddressedDocuments(st: State, email: string, jr: JoinRow)
    ensures jr in RowsOf(Incoming(st, email).body.documents) <==>
      exists i, j :: 0 <= i < |st.documents| && 0 <= j < |st.recipients| &&
        IncomingMatch(st, email, st.documents[i], st.recipients[j], jr)
  {
    var rows := RowsOf(Incoming(st, email).body.documents);
    var all := IncomingRows(st, email, st.documents);
    assert multiset(rows) == multiset(all);
    assert jr in rows <==> jr in multiset(rows);
    assert jr in all <==> jr in multiset(all);
  }

  // ---------------------------------------------------------------------
  // GET /get-sent-documents/:senderEmail
  // ---------------------------------------------------------------------

  predicate SentBy(st: State, d: Document, senderId: int) {
    d.senderId == senderId && UserById(st.users, d.senderId).Some?
  }

  function SentRowOf(st: State, d: Document): JoinRow
    requires UserById(st.users, d.senderId).Some?
  {
    JoinRow(d, FullName(UserById(st.users, d.senderId).value), None, None)
  }

  function SentRows(st: State, senderId: int): (r: seq<JoinRow>)
    ensures forall jr :: jr in r <==>
      exists i :: 0 <= i < |st.documents| && SentBy(st, st.documents[i], senderId) &&
        jr == SentRowOf(st, st.documents[i])
  {
    var docs := Filter(st.documents, (d: Document) => SentBy(st, d, senderId));
    var r := seq(|docs|, i requires 0 <= i < |docs| => SentRowOf(st, docs[i]));
    assert forall jr :: jr in r ==> (exists i :: (0 <= i < |st.documents| &&
      SentBy(st, st.documents[i], senderId) && jr == SentRowOf(st, st.documents[i]))) by {
      forall jr | jr in r
        ensures exists i :: (0 <= i < |st.documents| &&
          SentBy(st, st.documents[i], senderId) && jr == SentRowOf(st, st.documents[i]))
      {
        var k :| 0 <= k < |r| && r[k] == jr;
        assert docs[k] in st.documents;
        var i :| 0 <= i < |st.documents| && st.documents[i] == docs[k];
      }
    }
    assert forall i :: 0 <= i < |st.documents| && SentBy(st, st.documents[i], senderId) ==>
      SentRowOf(st, st.documents[i]) in r by {
      forall i | 0 <= i < |st.documents| && SentBy(st, st.documents[i], senderId)
        ensures SentRowOf(st, st.documents[i]) in r
      {
        assert st.documents[i] in docs;
        var k :| 0 <= k < |docs| && docs[k] == st.documents[i];
        assert r[k] == SentRowOf(st, st.documents[i]);
      }
    }
    r
  }

  /** GET /get-sent-documents/:senderEmail (DocumentRoutes.js:322-415). */
  function Sent(st: State, email: string): (r: Response)
    ensures r.status == 404 <==> UserByEmail(st.users, email).None?
    ensures r.status != 404 ==> r.status == 200 && r.body.Documents?
    ensures UserByEmail(st.users, email).Some? ==>
      r.body.Documents? &&
      var ds := r.body.documents;
      var uid := UserByEmail(st.users, email).value.userId;
      (forall i, j :: 0 <= i < j < |ds| ==> ds[i].row.doc.createdAt >= ds[j].row.doc.createdAt) &&
      multiset(RowsOf(ds)) == multiset(SentRows(st, uid)) &&
      (forall i :: 0 <= i < |ds| ==> ds[i].row.doc.senderId == uid) &&
      (forall i :: 0 <= i < |ds| ==> ds[i].recipients == RecipientsOf(st, ds[i].row.doc.code))
  {
    match UserByEmail(st.users, email)
    case None => Response(404, Message("Sender not found"))
    case Some(u) =>
      var ds := Ordered(st, SentRows(st, u.userId));
      assert forall i :: 0 <= i < |ds| ==> ds[i].row.doc.senderId == u.userId by {
        forall i | 0 <= i < |ds| ensures ds[i].row.doc.senderId == u.userId {
          var rows := RowsOf(ds);
          assert rows[i] in multiset(rows);
          assert rows[i] in SentRows(st, u.userId);
        }
      }
      Response(200, Documents(ds))
  }
}

=== FILE: reply_routes.dfy ===
/** The reply thread of backend/src/routes/ReplyRoutes.js: posting a reply,
    marking a document's replies as seen, the two unseen counters and the
    three reply projections. */
module ReplyRoutes {
  import opened Common
  import opened Schema
  import Tracking
  import DocumentRoutes

  // ---------------------------------------------------------------------
  // POST /submit-reply
  // ---------------------------------------------------------------------

  /** The body of /submit-reply. An id field is `None` when it fails the
      `isInt()` validator; `upload` is the original name of the attached file. */
  datatype ReplyForm = ReplyForm(
    documentId: Option<int>, userId: Option<int>, receiverId: Option<int>,
    text: string, upload: Option<string>)

  predicate ValidReplyForm(f: ReplyForm) {
    f.documentId.Some? && f.userId.Some? && f.receiverId.Some? && f.text != ""
  }

  function ReplyAction(text: string, email: string): string {
    "Reply \"" + text + "\"  by  \"" + email + "\""
  }

  /** The row inserted into `replies` (ReplyRoutes.js:96-108); `seen` starts false. */
  function NewReply(st: State, env: Env, f: ReplyForm): Reply
    requires ValidReplyForm(f)
  {
    Reply(st.nextReplyId, env.replyCode, f.documentId.value, f.userId.value, f.receiverId.value,
          f.text,
          match f.upload case Some(n) => Some(DocumentRoutes.SanitizeFileName(n)) case None => None,
          env.now, false)
  }

  /** POST /submit-reply (ReplyRoutes.js:49-129). An unknown author is only
      noticed when `userResult[0].email` throws, after the document check. */
  function SubmitReply(st: State, env: Env, f: ReplyForm): (out: (State, Response))
    ensures !ValidReplyForm(f) ==> out.0 == st && out.1.status == 400
    ensures ValidReplyForm(f) && DocumentById(st.documents, f.documentId.value).None? ==>
      out.0 == st && out.1.status == 404
    ensures ValidReplyForm(f) && DocumentById(st.documents, f.documentId.value).Some? &&
            UserById(st.users, f.userId.value).None? ==>
      out.0 == st && out.1.status == 500
    ensures out.1.status == 201 <==>
      ValidReplyForm(f) && DocumentById(st.documents, f.documentId.value).Some? &&
      UserById(st.users, f.userId.value).Some?
    ensures out.1.status == 201 ==>
      out.1.body == ReplyId(st.nextReplyId) &&
      out.0.replies == st.replies + [NewReply(st, env, f)] &&
      out.0.tracking == st.tracking +
        (if env.auditOk
         then [TrackingRow(st.nextTrackingId, DocumentById(st.documents, f.documentId.value).value.code,
                           f.userId.value,
                           ReplyAction(f.text, UserById(st.users, f.userId.value).value.email),
                           env.now)]
         else [])
    ensures out.0.users == st.users && out.0.documents == st.documents && out.0.recipients == st.recipients
  {
    if !ValidReplyForm(f) then
      (st, Response(400, Message("Validation failed")))
    else
      match DocumentById(st.documents, f.documentId.value)
      case None => (st, Response(404, Message("Document not found")))
      case Some(d) =>
        match UserById(st.users, f.userId.value)
        case None => (st, Response(500, Message("An error occurred while submitting the reply")))
        case Some(u) =>
          var reply := NewReply(st, env, f);
          var st1 := st.(replies := st.replies + [reply], nextReplyId := st.nextReplyId + 1);
          var st2 := Tracking.LogAction(st1, env, d.code, f.userId.value, ReplyAction(f.text, u.email));
          (st2, Response(201, ReplyId(reply.id)))
  }

  // ---------------------------------------------------------------------
  // POST /mark-replies-seen/:userId
  // ---------------------------------------------------------------------

  /** The replies `UPDATE replies SET seen = TRUE WHERE document_id = ? AND user_id != ?` matches. */
  predicate SeenTarget(r: Reply, documentId: int, viewer: int) {
    r.documentId == documentId && r.userId != viewer
  }

  function MarkAll(replies: seq<Reply>, documentId: int, viewer: int): (r: seq<Reply>)
    ensures |r| == |replies|
    ensures forall i :: 0 <= i < |replies| && SeenTarget(replies[i], documentId, viewer) ==>
      r[i] == replies[i].(seen := true)
    ensures forall i :: 0 <= i < |replies| && !SeenTarget(replies[i], documentId, viewer) ==>
      r[i] == replies[i]
  {
    seq(|replies|, i requires 0 <= i < |replies| =>
      if SeenTarget(replies[i], documentId, viewer) then replies[i].(seen := true) else replies[i])
  }

  predicate AnyTarget(replies: seq<Reply>, documentId: int, viewer: int) {
    exists i :: 0 <= i < |replies| && SeenTarget(replies[i], documentId, viewer)
  }

  /** POST /mark-replies-seen/:userId (ReplyRoutes.js:240-277). `documentId`
      is `None` when the body has no `document_id`; 0 is falsy too. The path
      parameter is never empty, so the 401 branch cannot be reached. The 404
      is answered after the UPDATE, which then matched nothing. */
  function MarkSeen(st: State, viewer: int, documentId: Option<int>): (out: (State, Response))
    ensures documentId.None? || documentId.value == 0 ==> out.0 == st && out.1.status == 400
    ensures documentId.Some? && documentId.value != 0 ==>
      out.0 == st.(replies := MarkAll(st.replies, documentId.value, viewer)) &&
      (out.1.status == 404 <==> !AnyTarget(st.replies, documentId.value, viewer)) &&
      (out.1.status != 404 ==> out.1.status == 200)
    ensures out.1.status == 404 ==> out.0 == st
    ensures SeenMonotone(st.replies, out.0.replies)
  {
    if documentId.None? || documentId.value == 0 then
      (st, Response(400, Message("Document ID is required")))
    else
      var replies := MarkAll(st.replies, documentId.value, viewer);
      if !AnyTarget(st.replies, documentId.value, viewer) then
        assert replies == st.replies;
        (st.(replies := replies), Response(404, Message("No replies found for this document ID")))
      else
        (st.(replies := replies), Response(200, Message("Replies marked as seen")))
  }

  /** Marking seen a second time changes nothing more. */
  lemma MarkSeenIdempotent(st: State, viewer: int, documentId: Option<int>)
    ensures var st1 := MarkSeen(st, viewer, documentId).0;
      MarkSeen(st1, viewer, documentId).0 == st1
  {
    var st1 := MarkSeen(st, viewer, documentId).0;
    if documentId.Some? && documentId.value != 0 {
      var st2 := MarkSeen(st1, viewer, documentId).0;
      assert st2.replies == st1.replies;
    }
  }

  // ---------------------------------------------------------------------
  // Unseen counters
  // ---------------------------------------------------------------------

  function UnseenAddressedTo(replies: seq<Reply>, id: int): nat {
    |Filter(replies, (r: Reply) => r.receiverId == id && !r.seen)|
  }

  function UnseenNotAddressedTo(replies: seq<Reply>, id: int): nat {
    |Filter(replies, (r: Reply) => r.receiverId != id && !r.seen)|
  }

  function Unseen(replies: seq<Reply>): nat {
    |Filter(replies, (r: Reply) => !r.seen)|
  }

  /** GET /count-not-seen-replies/:sender_id (ReplyRoutes.js:280-308): replies
      addressed to the id that are still unseen. */
  function CountNotSeen(st: State, id: int): (r: Response)
    ensures r.status == 200 && r.body.NotSeenCount?
    ensures r.body.count == UnseenAddressedTo(st.replies, id)
    ensures r.body.count <= Unseen(st.replies)
  {
    UnseenPartition(st.replies, id);
    Response(200, NotSeenCount(UnseenAddressedTo(st.replies, id)))
  }

  /** GET /count-not-seen-replies/user/:user_id (ReplyRoutes.js:311-339):
      unseen replies addressed to anyone else. */
  function CountNotSeenForUser(st: State, id: int): (r: Response)
    ensures r.status == 200 && r.body.NotSeenCount?
    ensures r.body.count == UnseenNotAddressedTo(st.replies, id)
    ensures r.body.count <= Unseen(st.replies)
  {
    UnseenPartition(st.replies, id);
    Response(200, NotSeenCount(UnseenNotAddressedTo(st.replies, id)))
  }

  /** The two counters split the unseen replies between them. */
  lemma UnseenPartition(replies: seq<Reply>, id: int)
    ensures UnseenAddressedTo(replies, id) + UnseenNotAddressedTo(replies, id) == Unseen(replies)
  {
    FilterPartition(replies, (r: Reply) => !r.seen,
                    (r: Reply) => r.receiverId == id && !r.seen,
                    (r: Reply) => r.receiverId != id && !r.seen);
  }

  lemma CountersSumToUnseen(st: State, id: int)
    ensures CountNotSeen(st, id).body.count + CountNotSeenForUser(st, id).body.count == Unseen(st.replies)
  {
    UnseenPartition(st.replies, id);
  }

  /** `COUNT(*)` row by row: with no replies both counters answer 0, and one
      more stored reply adds one to the counter whose WHERE clause it meets
      and nothing to the other. */
  lemma {:induction false} CountersStep(st: State, x: Reply, id: int)
    ensures st.replies == [] ==> CountNotSeen(st, id).body.count == 0 && CountNotSeenForUser(st, id).body.count == 0
    ensures var st1 := st.(replies := st.replies + [x]);
      CountNotSeen(st1, id).body.count ==
        CountNotSeen(st, id).body.count + (if x.receiverId == id && !x.seen then 1 else 0) &&
      CountNotSeenForUser(st1, id).body.count ==
        CountNotSeenForUser(st, id).body.count + (if x.receiverId != id && !x.seen then 1 else 0)
  {
    FilterConcat(st.replies, [x], (r: Reply) => r.receiverId == id && !r.seen);
    FilterConcat(st.replies, [x], (r: Reply) => r.receiverId != id && !r.seen);
  }

  /** A reply from `author` to `receiver` raises the receiver's unseen count by
      one; once the receiver opens the document the count is back at or below
      where it started. */
  lemma {:induction false} ReplyThenSeenCount(st: State, env: Env, f: ReplyForm)
    requires SubmitReply(st, env, f).1.status == 201
    requires f.userId != f.receiverId && f.documentId != Some(0)
    ensures var st1 := SubmitReply(st, env, f).0;
      UnseenAddressedTo(st1.replies, f.receiverId.value) == UnseenAddressedTo(st.replies, f.receiverId.value) + 1 &&
      UnseenAddressedTo(MarkSeen(st1, f.receiverId.value, f.documentId).0.replies, f.receiverId.value)
        <= UnseenAddressedTo(st.replies, f.receiverId.value)
  {
    var st1 := SubmitReply(st, env, f).0;
    var b := f.receiverId.value;
    var d := f.documentId.value;
    var reply := NewReply(st, env, f);
    var p := (r: Reply) => r.receiverId == b && !r.seen;
    FilterConcat(st.replies, [reply], p);
    assert st1.replies == st.replies + [reply];
    var marked := MarkAll(st1.replies, d, b);
    assert marked == MarkAll(st.replies, d, b) + [reply.(seen := true)];
    FilterConcat(MarkAll(st.replies, d, b), [reply.(seen := true)], p);
    FilterMonotone(MarkAll(st.replies, d, b), st.replies, p, p);
  }

  // ---------------------------------------------------------------------
  // Projections: GET /get-replies, /get-replies/:receiverId, /get-replies-by-docx/:document_id
  // ---------------------------------------------------------------------

  /** The inner joins with `documents` and both `users` rows succeed. */
  predicate Joined(st: State, r: Reply) {
    DocumentById(st.documents, r.documentId).Some? &&
    UserById(st.users, r.userId).Some? && UserById(st.users, r.receiverId).Some?
  }

  function AnnotationOf(st: State, r: Reply): AnnotatedReply
    requires Joined(st, r)
  {
    var d := DocumentById(st.documents, r.documentId).value;
    AnnotatedReply(r, d.subject, d.description, d.code,
                   UserById(st.users, r.userId).value.username,
                   UserById(st.users, r.receiverId).value.username)
  }

  /** The shared shape of the three GET handlers: the joined replies that
      `keep` selects, in storage order, or 404 when there are none. */
  function Project(st: State, keep: Reply -> bool, notFound: string): (r: Response)
    ensures r.status == 404 <==> forall i :: 0 <= i < |st.replies| ==> !(keep(st.replies[i]) && Joined(st, st.replies[i]))
    ensures r.status != 404 ==> r.status == 200 && r.body.Replies?
    ensures r.body.Replies? ==>
      (forall a :: a in r.body.replies ==>
         a.reply in st.replies && keep(a.reply) && Joined(st, a.reply) && a == AnnotationOf(st, a.reply)) &&
      (forall i :: 0 <= i < |st.replies| && keep(st.replies[i]) && Joined(st, st.replies[i]) ==>
         AnnotationOf(st, st.replies[i]) in r.body.replies)
  {
    var rows := Filter(st.replies, (x: Reply) => keep(x) && Joined(st, x));
    if rows == [] then
      Response(404, Message(notFound))
    else
      var k :| 0 <= k < |st.replies| && st.replies[k] == rows[0];
      assert keep(st.replies[k]) && Joined(st, st.replies[k]);
      var annotated := seq(|rows|, i requires 0 <= i < |rows| => AnnotationOf(st, rows[i]));
      assert forall i :: 0 <= i < |st.replies| && keep(st.replies[i]) && Joined(st, st.replies[i]) ==>
         AnnotationOf(st, st.replies[i]) in annotated by {
        forall i | 0 <= i < |st.replies| && keep(st.replies[i]) && Joined(st, st.replies[i])
          ensures AnnotationOf(st, st.replies[i]) in annotated
        {
          assert st.replies[i] in rows;
          var k :| 0 <= k < |rows| && rows[k] == st.replies[i];
          assert annotated[k] == AnnotationOf(st, st.replies[i]);
        }
      }
      Response(200, Replies(annotated))
  }

  /** GET /get-replies (ReplyRoutes.js:132-160). */
  function AllReplies(st: State): (r: Response)
    ensures r.status == 404 <==> forall i :: 0 <= i < |st.replies| ==> !Joined(st, st.replies[i])
    ensures r.status != 404 ==> r.status == 200 && r.body.Replies?
    ensures r.body.Replies? ==>
      (forall a :: a in r.body.replies ==>
         a.reply in st.replies && Joined(st, a.reply) && a == AnnotationOf(st, a.reply)) &&
      (forall i :: 0 <= i < |st.replies| && Joined(st, st.replies[i]) ==>
         AnnotationOf(st, st.replies[i]) in r.body.replies)
  {
    Project(st, (x: Reply) => true, "No replies found")
  }

  /** GET /get-replies/:receiverId (ReplyRoutes.js:163-201). The path
      parameter is never empty, so its 400 branch cannot be reached. */
  function RepliesToReceiver(st: State, receiverId: int): (r: Response)
    ensures r.status == 404 <==>
      forall i :: 0 <= i < |st.replies| ==> !(st.replies[i].receiverId == receiverId && Joined(st, st.replies[i]))
    ensures r.status != 404 ==> r.status == 200 && r.body.Replies?
    ensures r.body.Replies? ==>
      (forall a :: a in r.body.replies ==>
         a.reply.receiverId == receiverId && a.reply in st.replies && Joined(st, a.reply) && a == AnnotationOf(st, a.reply)) &&
      (forall i :: 0 <= i < |st.replies| && st.replies[i].receiverId == receiverId && Joined(st, st.replies[i]) ==>
         AnnotationOf(st, st.replies[i]) in r.body.replies)
  {
    Project(st, (x: Reply) => x.receiverId == receiverId, "No replies found for this receiver ID")
  }

  /** GET /get-replies-by-docx/:document_id (ReplyRoutes.js:204-238). */
  function RepliesOnDocument(st: State, documentId: int): (r: Response)
    ensures r.status == 404 <==>
      forall i :: 0 <= i < |st.replies| ==> !(st.replies[i].documentId == documentId && Joined(st, st.replies[i]))
    ensures r.status != 404 ==> r.status == 200 && r.body.Replies?
    ensures r.body.Replies? ==>
      (forall a :: a in r.body.replies ==>
         a.reply.documentId == documentId && a.reply in st.replies && Joined(st, a.reply) && a == AnnotationOf(st, a.reply)) &&
      (forall i :: 0 <= i < |st.replies| && st.replies[i].documentId == documentId && Joined(st, st.replies[i]) ==>
         AnnotationOf(st, st.replies[i]) in r.body.replies)
  {
    Project(st, (x: Reply) => x.documentId == documentId, "No replies found for this document ID")
  }
}

=== FILE: schema.dfy ===
/** The relational state the document routes work on: the `users`,
    `documents`, `recipients`, `document_tracking` and `replies` tables as
    sequences of rows in storage order, plus the auto-increment counters
    that hand out new primary keys. Also the HTTP response shape every
    handler returns and the lookups the handlers share. */
module Schema {
  import opened Common

  /** The four values the `recipients.status` column takes. */
  datatype Status = Pending | Received | Archived | Ended

  function StatusName(s: Status): string {
    match s
    case Pending => "Pending"
    case Received => "Received"
    case Archived => "Archived"
    case Ended => "Ended"
  }

  /** The status validator of the update route: accepts exactly the four names. */
  function ParseStatus(name: string): (r: Option<Status>)
    ensures r.Some? ==> StatusName(r.value) == name
    ensures r.None? ==> forall s: Status :: StatusName(s) != name
  {
    if name == "Pending" then Some(Pending)
    else if name == "Received" then Some(Received)
    else if name == "Archived" then Some(Archived)
    else if name == "Ended" then Some(Ended)
    else None
  }

  lemma StatusNameRoundTrip(s: Status)
    ensures ParseStatus(StatusName(s)) == Some(s)
  {
  }

  datatype User = User(
    userId: int, firstName: string, lastName: string, email: string,
    username: string, password: string, role: string)

  datatype Document = Document(
    id: int, code: string, senderId: int, subject: string, description: string,
    prioritization: string, dateOfLetter: string, classification: string,
    deadline: string, fileName: Option<string>, createdAt: int)

  datatype RecipientRow = RecipientRow(documentCode: string, userId: int, status: Status)

  datatype TrackingRow = TrackingRow(
    trackingId: int, documentCode: string, userId: int, action: string, actionDate: int)

  datatype Reply = Reply(
    id: int, replyCode: string, documentId: int, userId: int, receiverId: int,
    text: string, fileName: Option<string>, dateOfReply: int, seen: bool)

  datatype State = State(
    users: seq<User>,
    documents: seq<Document>,
    recipients: seq<RecipientRow>,
    tracking: seq<TrackingRow>,
    replies: seq<Reply>,
    nextUserId: int,
    nextDocumentId: int,
    nextTrackingId: int,
    nextReplyId: int)

  /** What a handler receives from outside the database: the clock, whether
      the best-effort tracking insert succeeds, and a fresh reply code (the
      uuid generator). */
  datatype Env = Env(now: int, auditOk: bool, replyCode: string)

  // ---------------------------------------------------------------------
  // Response shapes
  // ---------------------------------------------------------------------

  /** One row of the incoming/sent document queries before recipients are attached. */
  datatype JoinRow = JoinRow(
    doc: Document, senderName: string, senderEmail: Option<string>,
    recipientStatus: Option<Status>)

  datatype RecipientView = RecipientView(name: string, email: string, status: Status)

  datatype ListedDocument = ListedDocument(row: JoinRow, recipients: seq<RecipientView>)

  /** A tracking row as the history query selects it (no `user_id`). */
  datatype ActionView = ActionView(
    trackingId: int, documentCode: string, action: string, actionDate: int)

  /** A reply joined with its document and both parties' usernames. */
  datatype AnnotatedReply = AnnotatedReply(
    reply: Reply, documentSubject: string, documentDescription: string,
    documentCode: string, senderName: string, receiverName: string)

  datatype Body =
    | Message(text: string)
    | DocumentCode(code: string)
    | ReplyId(replyId: int)
    | Documents(documents: seq<ListedDocument>)
    | Actions(actions: seq<ActionView>)
    | Replies(replies: seq<AnnotatedReply>)
    | NotSeenCount(count: nat)

  datatype Response = Response(status: int, body: Body)

  // ---------------------------------------------------------------------
  // Lookups (`SELECT ... WHERE key = ?` and taking row [0])
  // ---------------------------------------------------------------------

  function UserByEmail(users: seq<User>, email: string): (r: Option<User>)
    ensures r.Some? ==> r.value in users && r.value.email == email
    ensures r.None? ==> forall i :: 0 <= i < |users| ==> users[i].email != email
    decreases |users|
  {
    if users == [] then None
    else if users[0].email == email then Some(users[0])
    else UserByEmail(users[1..], email)
  }

  function UserById(users: seq<User>, id: int): (r: Option<User>)
    ensures r.Some? ==> r.value in users && r.value.userId == id
    ensures r.None? ==> forall i :: 0 <= i < |users| ==> users[i].userId != id
    decreases |users|
  {
    if users == [] then None
    else if users[0].userId == id then Some(users[0])
    else UserById(users[1..], id)
  }

  function DocumentById(documents: seq<Document>, id: int): (r: Option<Document>)
    ensures r.Some? ==> r.value in documents && r.value.id == id
    ensures r.None? ==> forall i :: 0 <= i < |documents| ==> documents[i].id != id
    decreases |documents|
  {
    if documents == [] then None
    else if documents[0].id == id then Some(documents[0])
    else DocumentById(documents[1..], id)
  }

  predicate HasDocument(st: State, code: string) {
    exists i :: 0 <= i < |st.documents| && st.documents[i].code == code
  }

  predicate HasRecipient(st: State, code: string, userId: int) {
    exists i :: 0 <= i < |st.recipients| && st.recipients[i].documentCode == code
                                      && st.recipients[i].userId == userId
  }

  /** `CONCAT(first_name, ' ', last_name)` */
  function FullName(u: User): string {
    u.firstName + " " + u.lastName
  }

  // ---------------------------------------------------------------------
  // Well-formedness of the store
  // ---------------------------------------------------------------------

  /** At most one recipient row per (document code, user id) pair. */
  ghost predicate UniquePairs(rows: seq<RecipientRow>) {
    forall i, j :: 0 <= i < j < |rows| ==>
      (rows[i].documentCode, rows[i].userId) != (rows[j].documentCode, rows[j].userId)
  }

  /** Every recipient row names an existing document. */
  ghost predicate RowsHaveDocuments(st: State) {
    forall i :: 0 <= i < |st.recipients| ==> HasDocument(st, st.recipients[i].documentCode)
  }

  /** `before` is an initial segment of `after`: rows were only appended. */
  ghost predicate IsPrefix<T>(before: seq<T>, after: seq<T>) {
    |before| <= |after| && after[..|before|] == before
  }

  /** Reply rows keep their positions and no `seen` flag goes back to false. */
  ghost predicate SeenMonotone(before: seq<Reply>, after: seq<Reply>) {
    |before| <= |after| &&
    forall i :: 0 <= i < |before| ==> before[i].seen ==> after[i].seen
  }
}

=== FILE: server.dfy ===
/** The Express application as one dispatcher over the document and reply
    routes, and the properties that hold for every request and every run:
    the audit log is append-only, a `seen` flag never goes back to false,
    every recipient row names a stored document, and a failed audit insert
    never changes what the client is told. */
module Server {
  import opened Common
  import opened Schema
  import Tracking
  import DocumentRoutes
  import Listings
  import ReplyRoutes

  datatype Request =
    | SubmitDocument(form: DocumentRoutes.SubmitForm)
    | UpdateRecipientStatus(code: string, email: string, status: string)
    | ForwardDocument(code: string, email: string)
    | DeleteRecipient(code: string, email: string)
    | GetIncoming(email: string)
    | GetSent(email: string)
    | GetHistory(code: string)
    | SubmitReply(reply: ReplyRoutes.ReplyForm)
    | MarkRepliesSeen(viewer: int, documentId: Option<int>)
    | GetReplies
    | GetRepliesTo(receiverId: int)
    | GetRepliesOnDocument(document: int)
    | CountNotSeen(id: int)
    | CountNotSeenForUser(id: int)

  /** The requests that write to the store. */
  predicate IsMutation(req: Request) {
    req.SubmitDocument? || req.UpdateRecipientStatus? || req.ForwardDocument? ||
    req.DeleteRecipient? || req.SubmitReply? || req.MarkRepliesSeen?
  }

  /** Route one request. `isEmail` is the validator the status route applies. */
  function Handle(st: State, env: Env, isEmail: string -> bool, req: Request): (out: (State, Response))
    ensures !IsMutation(req) ==> out.0 == st
  {
    match req
    case SubmitDocument(form) => DocumentRoutes.Submit(st, env, form)
    case UpdateRecipientStatus(code, email, status) =>
      DocumentRoutes.UpdateStatus(st, env, code, email, status, isEmail)
    case ForwardDocument(code, email) => DocumentRoutes.Forward(st, env, code, email)
    case DeleteRecipient(code, email) => DocumentRoutes.DeleteRecipient(st, env, code, email)
    case GetIncoming(email) => (st, Listings.Incoming(st, email))
    case GetSent(email) => (st, Listings.Sent(st, email))
    case GetHistory(code) => (st, Tracking.History(st, code))
    case SubmitReply(f) => ReplyRoutes.SubmitReply(st, env, f)
    case MarkRepliesSeen(viewer, d) => ReplyRoutes.MarkSeen(st, viewer, d)
    case GetReplies => (st, ReplyRoutes.AllReplies(st))
    case GetRepliesTo(id) => (st, ReplyRoutes.RepliesToReceiver(st, id))
    case GetRepliesOnDocument(id) => (st, ReplyRoutes.RepliesOnDocument(st, id))
    case CountNotSeen(id) => (st, ReplyRoutes.CountNotSeen(st, id))
    case CountNotSeenForUser(id) => (st, ReplyRoutes.CountNotSeenForUser(st, id))
  }

  /** One request appends at most one row to the audit log and rewrites none. */
  lemma HandleAppendsAtMostOneEvent(st: State, env: Env, isEmail: string -> bool, req: Request)
    ensures var st' := Handle(st, env, isEmail, req).0;
      IsPrefix(st.tracking, st'.tracking) && |st'.tracking| <= |st.tracking| + 1
  {
  }

  /** A successful mutation of a document or reply writes exactly one event
      when the audit insert works; marking replies seen writes none. */
  lemma SuccessfulMutationLogsOnce(st: State, env: Env, isEmail: string -> bool, req: Request)
    requires env.auditOk
    requires req.SubmitDocument? || req.UpdateRecipientStatus? || req.ForwardDocument? ||
             req.DeleteRecipient? || req.SubmitReply?
    requires Handle(st, env, isEmail, req).1.status in {200, 201}
    ensures |Handle(st, env, isEmail, req).0.tracking| == |st.tracking| + 1
  {
  }

  lemma MarkSeenLogsNothing(st: State, env: Env, isEmail: string -> bool, viewer: int, d: Option<int>)
    ensures Handle(st, env, isEmail, MarkRepliesSeen(viewer, d)).0.tracking == st.tracking
  {
  }

  /** No request turns a seen reply back into an unseen one or removes a reply. */
  lemma HandleKeepsSeen(st: State, env: Env, isEmail: string -> bool, req: Request)
    ensures SeenMonotone(st.replies, Handle(st, env, isEmail, req).0.replies)
  {
    var st' := Handle(st, env, isEmail, req).0;
    if req.SubmitReply? && st'.replies != st.replies {
      assert forall i :: 0 <= i < |st.replies| ==> st'.replies[i] == st.replies[i];
    }
  }

  /** Every recipient row names a stored document, before and after any request. */
  lemma HandleKeepsRowsHaveDocuments(st: State, env: Env, isEmail: string -> bool, req: Request)
    requires RowsHaveDocuments(st)
    ensures RowsHaveDocuments(Handle(st, env, isEmail, req).0)
  {
    match req
    case SubmitDocument(form) => SubmitKeepsRowsHaveDocuments(st, env, form);
    case UpdateRecipientStatus(code, email, status) =>
      UpdateKeepsRowsHaveDocuments(st, env, code, email, status, isEmail);
    case ForwardDocument(code, email) => ForwardKeepsRowsHaveDocuments(st, env, code, email);
    case DeleteRecipient(code, email) => DeleteKeepsRowsHaveDocuments(st, env, code, email);
    case _ =>
  }

  lemma UpdateKeepsRowsHaveDocuments(st: State, env: Env, code: string, email: string, status: string,
                                     isEmail: string -> bool)
    requires RowsHaveDocuments(st)
    ensures RowsHaveDocuments(DocumentRoutes.UpdateStatus(st, env, code, email, status, isEmail).0)
  {
    var st' := DocumentRoutes.UpdateStatus(st, env, code, email, status, isEmail).0;
    forall i | 0 <= i < |st'.recipients| ensures HasDocument(st', st'.recipients[i].documentCode) {
      if ParseStatus(status).Some? && isEmail(email) {
        assert st'.recipients[i].documentCode == st.recipients[i].documentCode;
        assert HasDocument(st, st.recipients[i].documentCode);
      }
    }
  }

  lemma ForwardKeepsRowsHaveDocuments(st: State, env: Env, code: string, email: string)
    requires RowsHaveDocuments(st)
    ensures RowsHaveDocuments(DocumentRoutes.Forward(st, env, code, email).0)
  {
    var st' := DocumentRoutes.Forward(st, env, code, email).0;
    forall i | 0 <= i < |st'.recipients| ensures HasDocument(st', st'.recipients[i].documentCode) {
      if i < |st.recipients| {
        assert st'.recipients[i] == st.recipients[i];
        assert HasDocument(st, st.recipients[i].documentCode);
      }
    }
  }

  lemma DeleteKeepsRowsHaveDocuments(st: State, env: Env, code: string, email: string)
    requires RowsHaveDocuments(st)
    ensures RowsHaveDocuments(DocumentRoutes.DeleteRecipient(st, env, code, email).0)
  {
    var st' := DocumentRoutes.DeleteRecipient(st, env, code, email).0;
    forall i | 0 <= i < |st'.recipients| ensures HasDocument(st', st'.recipients[i].documentCode) {
      var k :| 0 <= k < |st.recipients| && st.recipients[k] == st'.recipients[i];
      assert HasDocument(st, st.recipients[k].documentCode);
    }
  }

  /** Documents are only appended, so a code stored before is stored after. */
  lemma DocumentsKept(st: State, st': State, code: string)
    requires IsPrefix(st.documents, st'.documents) && HasDocument(st, code)
    ensures HasDocument(st', code)
  {
    var k :| 0 <= k < |st.documents| && st.documents[k].code == code;
    assert st'.documents[k] == st.documents[k];
  }

  /** Whatever /submit-form answers, the rows it appended belong to the
      document it inserted. */
  lemma SubmitKeepsRowsHaveDocuments(st: State, env: Env, form: DocumentRoutes.SubmitForm)
    requires RowsHaveDocuments(st)
    ensures RowsHaveDocuments(DocumentRoutes.Submit(st, env, form).0)
  {
    if form.sender.Some? && !form.recipient.Unparseable? {
      var (st1, senderId) := DocumentRoutes.ResolveSender(st, form.sender.value);
      assert RowsHaveDocuments(st1) by {
        forall i | 0 <= i < |st1.recipients| ensures HasDocument(st1, st1.recipients[i].documentCode) {
          assert HasDocument(st, st.recipients[i].documentCode);
        }
      }
      if !HasDocument(st1, form.documentId) {
        StoreKeepsRowsHaveDocuments(st1, env, form, senderId);
      }
    }
  }

  lemma StoreKeepsRowsHaveDocuments(st: State, env: Env, form: DocumentRoutes.SubmitForm, senderId: int)
    requires !form.recipient.Unparseable? && !HasDocument(st, form.documentId)
    requires RowsHaveDocuments(st)
    ensures RowsHaveDocuments(DocumentRoutes.StoreDocument(st, env, form, senderId).0)
  {
    var st' := DocumentRoutes.StoreDocument(st, env, form, senderId).0;
    var rows := if form.recipient.AddresseeList?
                then DocumentRoutes.ResolveRecipients(st.users, form.documentId, form.recipient.list).0
                else [];
    assert st'.recipients == st.recipients + rows;
    assert st'.documents[|st.documents|].code == form.documentId;
    forall i | 0 <= i < |st'.recipients| ensures HasDocument(st', st'.recipients[i].documentCode) {
      if i < |st.recipients| {
        assert st'.recipients[i] == st.recipients[i];
        DocumentsKept(st, st', st.recipients[i].documentCode);
      } else {
        assert st'.recipients[i] == rows[i - |st.recipients|];
      }
    }
  }

  /** The state a handler would leave had its audit insert failed: the log
      and its counter as they were, everything else as written. */
  function WithoutLog(st: State, after: State): State {
    after.(tracking := st.tracking, nextTrackingId := st.nextTrackingId)
  }

  lemma SubmitAuditFailureInvisible(st: State, env: Env, form: DocumentRoutes.SubmitForm)
    ensures var ok := DocumentRoutes.Submit(st, env.(auditOk := true), form);
      var failed := DocumentRoutes.Submit(st, env.(auditOk := false), form);
      failed.1 == ok.1 && failed.0 == WithoutLog(st, ok.0)
  {
    // Only the creation event can differ; follow Submit down to it.
    if form.sender.Some? && !form.recipient.Unparseable? {
      var (st1, senderId) := DocumentRoutes.ResolveSender(st, form.sender.value);
      if !HasDocument(st1, form.documentId) {
        StoreAuditFailureInvisible(st1, env, form, senderId);
      }
    }
  }

  lemma StoreAuditFailureInvisible(st: State, env: Env, form: DocumentRoutes.SubmitForm, senderId: int)
    requires !form.recipient.Unparseable? && !HasDocument(st, form.documentId)
    ensures var ok := DocumentRoutes.StoreDocument(st, env.(auditOk := true), form, senderId);
      var failed := DocumentRoutes.StoreDocument(st, env.(auditOk := false), form, senderId);
      failed.1 == ok.1 && failed.0 == WithoutLog(st, ok.0)
  {
  }

  lemma UpdateAuditFailureInvisible(st: State, env: Env, code: string, email: string, status: string,
                                    isEmail: string -> bool)
    ensures var ok := DocumentRoutes.UpdateStatus(st, env.(auditOk := true), code, email, status, isEmail);
      var failed := DocumentRoutes.UpdateStatus(st, env.(auditOk := false), code, email, status, isEmail);
      failed.1 == ok.1 && failed.0 == WithoutLog(st, ok.0)
  {
  }

  lemma ForwardAuditFailureInvisible(st: State, env: Env, code: string, email: string)
    ensures var ok := DocumentRoutes.Forward(st, env.(auditOk := true), code, email);
      var failed := DocumentRoutes.Forward(st, env.(auditOk := false), code, email);
      failed.1 == ok.1 && failed.0 == WithoutLog(st, ok.0)
  {
  }

  lemma DeleteAuditFailureInvisible(st: State, env: Env, code: string, email: string)
    ensures var ok := DocumentRoutes.DeleteRecipient(st, env.(auditOk := true), code, email);
      var failed := DocumentRoutes.DeleteRecipient(st, env.(auditOk := false), code, email);
      failed.1 == ok.1 && failed.0 == WithoutLog(st, ok.0)
  {
  }

  lemma ReplyAuditFailureInvisible(st: State, env: Env, f: ReplyRoutes.ReplyForm)
    ensures var ok := ReplyRoutes.SubmitReply(st, env.(auditOk := true), f);
      var failed := ReplyRoutes.SubmitReply(st, env.(auditOk := false), f);
      failed.1 == ok.1 && failed.0 == WithoutLog(st, ok.0)
  {
  }

  /** A failed audit insert is invisible to the client: the response and
      every table other than the log are as if it had succeeded. */
  lemma AuditFailureInvisible(st: State, env: Env, isEmail: string -> bool, req: Request)
    ensures var ok := Handle(st, env.(auditOk := true), isEmail, req);
      var failed := Handle(st, env.(auditOk := false), isEmail, req);
      failed.1 == ok.1 && failed.0 == WithoutLog(st, ok.0)
  {
    match req
    case SubmitDocument(form) => SubmitAuditFailureInvisible(st, env, form);
    case UpdateRecipientStatus(code, email, status) =>
      UpdateAuditFailureInvisible(st, env, code, email, status, isEmail);
    case ForwardDocument(code, email) => ForwardAuditFailureInvisible(st, env, code, email);
    case DeleteRecipient(code, email) => DeleteAuditFailureInvisible(st, env, code, email);
    case SubmitReply(f) => ReplyAuditFailureInvisible(st, env, f);
    case _ =>
  }

  // ---------------------------------------------------------------------
  // Runs of requests
  // ---------------------------------------------------------------------

  datatype Step = Step(env: Env, req: Request)

  /** The state after serving the requests in order. */
  function Run(st: State, isEmail: string -> bool, steps: seq<Step>): State
    decreases |steps|
  {
    if steps == [] then st
    else Run(Handle(st, steps[0].env, isEmail, steps[0].req).0, isEmail, steps[1..])
  }

  /** Over any run the log only grows, by at most one event per request, and
      no seen reply becomes unseen. */
  lemma {:induction false} RunPreservesHistory(st: State, isEmail: string -> bool, steps: seq<Step>)
    ensures var st' := Run(st, isEmail, steps);
      IsPrefix(st.tracking, st'.tracking) && |st'.tracking| <= |st.tracking| + |steps| &&
      SeenMonotone(st.replies, st'.replies)
    decreases |steps|
  {
    if steps != [] {
      var mid := Handle(st, steps[0].env, isEmail, steps[0].req).0;
      HandleAppendsAtMostOneEvent(st, steps[0].env, isEmail, steps[0].req);
      HandleKeepsSeen(st, steps[0].env, isEmail, steps[0].req);
      RunPreservesHistory(mid, isEmail, steps[1..]);
      var st' := Run(mid, isEmail, steps[1..]);
      assert st'.tracking[..|st.tracking|] == st'.tracking[..|mid.tracking|][..|st.tracking|];
    }
  }

  /** Every recipient row names a stored document after any run that starts
      from such a store. */
  lemma {:induction false} RunKeepsRowsHaveDocuments(st: State, isEmail: string -> bool, steps: seq<Step>)
    requires RowsHaveDocuments(st)
    ensures RowsHaveDocuments(Run(st, isEmail, steps))
    decreases |steps|
  {
    if steps != [] {
      HandleKeepsRowsHaveDocuments(st, steps[0].env, isEmail, steps[0].req);
      RunKeepsRowsHaveDocuments(Handle(st, steps[0].env, isEmail, steps[0].req).0, isEmail, steps[1..]);
    }
  }
}

=== FILE: tracking.dfy ===
/** The `document_tracking` audit log (backend/src/routes/DocumentRoutes.js):
    `logDocumentAction`, which only ever inserts and swallows a failed insert,
    and the `/document-tracking/:documentCode` history query. */
module Tracking {
  import opened Common
  import opened Schema

  /** Only the tracking table and its counter may differ between the two states. */
  ghost predicate OnlyTrackingChanged(st: State, st': State) {
    st'.users == st.users && st'.documents == st.documents &&
    st'.recipients == st.recipients && st'.replies == st.replies &&
    st'.nextUserId == st.nextUserId && st'.nextDocumentId == st.nextDocumentId &&
    st'.nextReplyId == st.nextReplyId
  }

  /** `logDocumentAction`: one INSERT into `document_tracking`. When the insert
      fails (`env.auditOk` false) the error is only logged, so the state is
      unchanged and the caller carries on as if it had succeeded. */
  function LogAction(st: State, env: Env, code: string, userId: int, action: string): (st': State)
    ensures OnlyTrackingChanged(st, st')
    ensures IsPrefix(st.tracking, st'.tracking)
    ensures env.auditOk ==>
      |st'.tracking| == |st.tracking| + 1 &&
      st'.tracking[|st.tracking|] == TrackingRow(st.nextTrackingId, code, userId, action, env.now)
    ensures !env.auditOk ==> st' == st
  {
    if env.auditOk then
      st.(tracking := st.tracking + [TrackingRow(st.nextTrackingId, code, userId, action, env.now)],
          nextTrackingId := st.nextTrackingId + 1)
    else st
  }

  function ViewOf(t: TrackingRow): ActionView {
    ActionView(t.trackingId, t.documentCode, t.action, t.actionDate)
  }

  /** The rows of the log for one document code, in storage order. */
  function EventsFor(tracking: seq<TrackingRow>, code: string): seq<TrackingRow> {
    Filter(tracking, (t: TrackingRow) => t.documentCode == code)
  }

  function Views(rows: seq<TrackingRow>): (r: seq<ActionView>)
    ensures |r| == |rows|
    ensures forall i :: 0 <= i < |rows| ==> r[i] == ViewOf(rows[i])
  {
    seq(|rows|, i requires 0 <= i < |rows| => ViewOf(rows[i]))
  }

  /** GET /document-tracking/:documentCode. The query has no ORDER BY; the
      model returns storage order, and the contract promises only which
      events are returned. */
  function History(st: State, code: string): (r: Response)
    ensures r.status == 404 <==> forall i :: 0 <= i < |st.tracking| ==> st.tracking[i].documentCode != code
    ensures r.status != 404 ==> r.status == 200 && r.body.Actions?
    ensures r.body.Actions? ==>
      (forall a :: a in r.body.actions ==> a.documentCode == code) &&
      (forall a :: a in r.body.actions ==> exists i :: 0 <= i < |st.tracking| && ViewOf(st.tracking[i]) == a) &&
      (forall i :: 0 <= i < |st.tracking| && st.tracking[i].documentCode == code ==>
         ViewOf(st.tracking[i]) in r.body.actions)
  {
    var rows := EventsFor(st.tracking, code);
    if rows == [] then
      Response(404, Message("No actions found for this document code."))
    else
      assert rows[0] in st.tracking && rows[0].documentCode == code;
      ViewsOfEvents(st.tracking, code);
      Response(200, Actions(Views(rows)))
  }

  /** The views of a document's events are views of log rows, carry the
      code, and include every row with that code. */
  lemma ViewsOfEvents(tracking: seq<TrackingRow>, code: string)
    ensures var views := Views(EventsFor(tracking, code));
      (forall a :: a in views ==> a.documentCode == code) &&
      (forall a :: a in views ==> exists i :: 0 <= i < |tracking| && ViewOf(tracking[i]) == a) &&
      (forall i :: 0 <= i < |tracking| && tracking[i].documentCode == code ==> ViewOf(tracking[i]) in views)
  {
    var rows := EventsFor(tracking, code);
    var views := Views(rows);
    forall a | a in views ensures a.documentCode == code && exists i :: 0 <= i < |tracking| && ViewOf(tracking[i]) == a {
      var k :| 0 <= k < |views| && views[k] == a;
      assert rows[k] in tracking;
      var i :| 0 <= i < |tracking| && tracking[i] == rows[k];
    }
    forall i | 0 <= i < |tracking| && tracking[i].documentCode == code
      ensures ViewOf(tracking[i]) in views
    {
      assert tracking[i] in rows;
      var k :| 0 <= k < |rows| && rows[k] == tracking[i];
      assert views[k] == ViewOf(tracking[i]);
    }
  }

  /** An action logged with a working audit insert shows up in the
      document's history; it comes last in storage order, which is the
      order a scan of the auto-increment key gives (the history query has
      no ORDER BY). */
  lemma {:induction false} LoggedActionAppearsInHistory(st: State, env: Env, code: string, userId: int, action: string)
    requires env.auditOk
    ensures var st' := LogAction(st, env, code, userId, action);
      var h := History(st', code);
      h.status == 200 && h.body.Actions? && |h.body.actions| >= 1 &&
      h.body.actions[|h.body.actions| - 1] ==
        ActionView(st.nextTrackingId, code, action, env.now)
  {
    var st' := LogAction(st, env, code, userId, action);
    var row := TrackingRow(st.nextTrackingId, code, userId, action, env.now);
    FilterConcat(st.tracking, [row], (t: TrackingRow) => t.documentCode == code);
    assert EventsFor(st'.tracking, code) == EventsFor(st.tracking, code) + [row];
  }
}
